=== FILE: README.md ===
# A verified model of the agent platform's core logic

The platform is a set of cooperating services:

- a **master agent** (Python/FastAPI) that gates task submissions behind an
  access-control engine and a resource manager, and keeps a reversible-delete
  trash;
- a **policy generator** script that writes the security policy the other
  services read;
- an **MCP gateway** (Python/asyncio) that authenticates a TCP client with an
  HMAC header line, then serves LIST_TOOLS / LOAD / EXECUTE / STATUS commands
  over a registry of tools;
- a **sharded vault** (Rust/tokio) whose shards keep secrets in memory and
  answer STORE / GET / STATUS, one command per connection.

This project models the deterministic core of each service in Dafny: pure
functions that take the old state and the inputs (the clock, the trash id, the
OS's answers, the HMAC function) and return the new state and the reply or
error. The contracts state what the source promises, and lemmas connect
operations: deleting then restoring, storing then getting, generating an
authentication header then checking it.

| file | module | models |
|---|---|---|
| wrappers.dfy | Wrappers | `Option` and `Result` |
| text.dfy | Text | Python `str.strip`/`split`/`lower`/`upper`/`in`/`int`/`str`, Rust `trim`/`split_whitespace`, UTF-8 encoding |
| base64.dfy | Base64 | the base64 encoder of section 4 of RFC 4648, and the decoder it is checked against |
| clock.dfy | Clock | `int(time.time())` |
| acl.dfy | Acl | `master-agent/core/acl_engine.py`, the stub engine |
| policy.dfy | Policy | the policy record and `scripts/generate_user_config.py` |
| resources.dfy | Resources | `master-agent/core/resource_manager.py` |
| trash.dfy | Trash | `master-agent/core/trash_manager.py` |
| api.dfy | MasterApi | the gates of `master-agent/main.py` |
| mcp_auth.dfy | McpAuth | `mcp-gateway/gateway/auth_handler.py` |
| mcp_server.dfy | McpServer | `mcp-gateway/gateway/server.py` |
| vault_shard.dfy | VaultShard | `sharded-vault/src/shard.rs` |
| vault_server.dfy | VaultServer | `handle_client` in `sharded-vault/src/main.rs` |

Modelling choices:

- **Filesystem.** The trash sees the filesystem as a map from path to payload
  (a file's bytes or a directory's entries). The trash directory is a map from
  trash id to its sub-directory, and `index.json` is a sequence of metadata
  records.
- **Clock.** The clock is a `real` parameter, matching Python's fractional
  `time.time()`. `Clock.Trunc` models the `int(...)` the source applies to it.
- **Trash ids.** A trash id is a parameter restricted to the shape
  `sha256(...).hexdigest()[:16]` produces: 16 lower-case hex digits.
- **Access-control engine.** The gates take an `Acl.Oracle`, a record of
  function values, so that the order of the checks is visible. The
  repository always passes the stub engine (`Acl.Stub`), and separate lemmas
  state what that stub makes of each gate.
- **OS calls.** Calls into the OS (`setrlimit`, `sched_setaffinity`, the GPU
  memory fraction) are recorded as requests. Whether each call succeeds,
  raises the caught exception or raises something else is a parameter
  (`Resources.Host`). Memory and CPU figures are a `Telemetry` parameter.
- **HMAC-SHA256** is a function parameter returning a 32-byte digest. Base64
  is implemented concretely, so the header round trip can be stated on real
  text.

## Model

| member | source | states |
|---|---|---|
| Text.TrimStart | mcp-gateway/gateway/auth_handler.py:22 | the result is a suffix of the input, the removed prefix is all whitespace, and the result does not start with whitespace |
| Text.TrimEnd | sharded-vault/src/main.rs:65 | the result is a prefix of the input, the removed suffix is all whitespace, and the result does not end with whitespace |
| Text.Strip | mcp-gateway/gateway/server.py:76 | the stripped text is the slice of the input with only whitespace before and after it, and it neither starts nor ends with whitespace |
| Text.StripIdempotent | mcp-gateway/gateway/server.py:76 | stripping a stripped text changes nothing |
| Text.StripLine | mcp-gateway/gateway/server.py:76 | a line whose text has no outer whitespace strips back to that text once its terminator is removed |
| Text.Split | mcp-gateway/gateway/server.py:91 | every word that `split()` returns is non-empty and contains no whitespace |
| Text.Word | mcp-gateway/gateway/server.py:91 | the word read at the front of a text is its longest whitespace-free prefix: followed by whitespace or the end, and non-empty when the text starts with a non-space |
| Text.Join | mcp-gateway/gateway/server.py:109 | `sep.join(ws)` is empty for no words and the word itself for one; otherwise it starts with the first word and the separator and ends with the last word |
| Text.SplitJoin | mcp-gateway/gateway/server.py:91 | splitting the space-joined sequence of whitespace-free words gives that sequence back |
| Text.SplitThreeWords | mcp-gateway/gateway/auth_handler.py:27 | a line of three words separated by single spaces splits into exactly those three words |
| Text.Contains | master-agent/main.py:263-268 | `needle in hay` holds exactly when the needle occurs at some position of the text |
| Text.ContainsTransitive | master-agent/main.py:267 | a text containing `mid` contains everything `mid` contains |
| Text.LowerOfUpper | master-agent/main.py:263 | lower-casing an upper-cased text gives the lower case of the original, for texts whose every character lower-cases back after upper-casing, as all of ASCII does |
| Text.LowerChar | master-agent/main.py:263 | the capital ASCII letters, the capital I with dot above, the Kelvin sign and the capital sharp s are the characters lower-casing changes; an ASCII character maps as ASCII case mapping does; the result never starts with a capital ASCII letter |
| Text.UpperChar | mcp-gateway/gateway/server.py:95 | a small ASCII letter becomes its capital, an ASCII character maps as ASCII case mapping does, the result never starts with a small ASCII letter, and only non-ASCII characters expand to several characters |
| Text.Lower | master-agent/main.py:263 | `str.lower()` never shortens a text, and on ASCII text maps each character to its lower case in place |
| Text.Upper | mcp-gateway/gateway/server.py:95 | `str.upper()` never shortens a text, and on ASCII text maps each character to its upper case in place |
| Text.LowerIdempotent | master-agent/main.py:263 | lower-casing twice is lower-casing once |
| Text.UpperIdempotent | mcp-gateway/gateway/server.py:95 | upper-casing twice is upper-casing once |
| Text.UpperOfLower | mcp-gateway/gateway/server.py:95 | over the modelled case tables, upper-casing a lower-cased text gives the upper case of the original, unless it holds the capital I with dot above, the Kelvin sign or the capital sharp s |
| Text.SharpSDoesNotRoundTrip | master-agent/main.py:263 | the sharp s upper-cases to "SS", which lower-cases to "ss" and not to the sharp s |
| Text.NatToString | mcp-gateway/gateway/auth_handler.py:65 | `str(n)` is a non-empty digit string with no leading zero that denotes n |
| Text.IntToString | mcp-gateway/gateway/auth_handler.py:65 | `str(i)` has no whitespace; negative numbers get a minus sign before the digits of their magnitude |
| Text.ParsePrinted | mcp-gateway/gateway/auth_handler.py:37 | `int(str(i)) == i` for every integer i of at most 4300 digits |
| Text.ParseInt | mcp-gateway/gateway/auth_handler.py:37 | `int(token)` succeeds exactly on a numeral of at most 4300 digits (CPython's default limit) with an optional sign, and a longer numeral is refused; a minus sign gives a value at most 0, any other token a value at least 0, and a plain digit string within the limit its decimal value |
| Text.EncodeChar | mcp-gateway/gateway/auth_handler.py:42 | a character encodes to 1, 2, 3 or 4 bytes according to the range of its code; the lead byte announces that length, every later byte is a continuation byte, and the payload bits spell the code |
| Text.Utf8 | sharded-vault/src/main.rs:75 | each character takes 1 to 4 bytes, and an ASCII text encodes to its character codes |
| Text.DecodeUtf8Encoded | mcp-gateway/gateway/auth_handler.py:42-44 | reading back the UTF-8 encoding of any text gives that text |
| Base64.Sextets | mcp-gateway/gateway/auth_handler.py:49 | four 6-bit values for each started group of three bytes, each below 64 or the pad value |
| Base64.Encode | mcp-gateway/gateway/auth_handler.py:49 | the encoding has 4 characters for each started group of 3 bytes, all from the base64 alphabet or `=` |
| Base64.DecodeEncoded | mcp-gateway/gateway/auth_handler.py:49 | the encoding loses nothing: decoding it gives the same bytes back, group by group and through the one- and two-byte padded endings |
| Base64.EncodedIsToken | mcp-gateway/gateway/auth_handler.py:74-75 | a non-empty encoding is one ASCII word with no Python or Rust whitespace |
| Clock.Trunc | mcp-gateway/gateway/auth_handler.py:65 | `int(x)` rounds toward zero: it lies within one second of x, on x's side of zero |
| Clock.TruncWhole | master-agent/core/trash_manager.py:83 | truncating a whole number of seconds gives that number back |
| Acl.MakeDecision | master-agent/core/acl_engine.py:2-6 | a decision carries the given allowed flag, reason and confirmation flag |
| Acl.DecisionDefaults | master-agent/core/acl_engine.py:3 | a decision built from `allowed` alone has an empty reason and needs no confirmation |
| Acl.New | master-agent/core/acl_engine.py:9-10 | the engine's policy is empty whatever file it is given |
| Acl.CheckResourceAccess | master-agent/core/acl_engine.py:12-13 | every resource and amount is allowed, with an empty reason and no confirmation |
| Acl.RequestConfirmation | master-agent/core/acl_engine.py:15-16 | the confirmation id is `op_123` for every decision |
| Acl.ConfirmationIdsCollide | master-agent/core/acl_engine.py:15-16 | two confirmation requests for any two decisions receive the same id |
| Acl.WaitForConfirmation | master-agent/core/acl_engine.py:18-19 | every wait reports approval |
| Acl.GetPendingConfirmations | master-agent/core/acl_engine.py:21-22 | nothing is ever pending |
| Acl.ConfirmOperation | master-agent/core/acl_engine.py:24-25 | confirming or rejecting an operation leaves the engine unchanged |
| Acl.RejectionIsIgnored | master-agent/core/acl_engine.py:18-25 | after a rejection nothing is pending and a wait on the same id still reports approval |
| Acl.Stub | master-agent/core/acl_engine.py:12-19 | the oracle the stub provides allows everything and never asks for confirmation |
| Policy.CpuCountOr4 | scripts/generate_user_config.py:18-19 | `os.cpu_count() or 4` is the CPU count when known and positive; when the count is unknown or 0 it is 4 |
| Policy.GenerateConfig | scripts/generate_user_config.py:11-48 | user and level are copied verbatim; `ram_gb = min(cpus, 8)` and `cpu_cores = min(cpus, 4)`; the memory limit is 2048 MB and GPU memory is 0; retention is 30 days with permanent delete off and backup on; alerts come from the environment, defaulting to empty |
| Policy.MinimalClearsThreeFlags | scripts/generate_user_config.py:51-54 | "minimal" differs from "paranoid" only in the memory, disk and delete confirmation flags, which it clears |
| Policy.StrictSetsCreateFlag | scripts/generate_user_config.py:55-56 | "strict" differs from "paranoid" only in the create confirmation flag, which it sets |
| Policy.OtherLevelsKeepDefaults | scripts/generate_user_config.py:50-56 | every other level string gives the "paranoid" policy, apart from the level it echoes |
| Resources.AvailableMemoryMb | master-agent/core/resource_manager.py:69-70 | available memory in MiB is the available bytes floor-divided by 2^20 |
| Resources.Admission | master-agent/core/resource_manager.py:72-85 | the configured limit is checked first (inclusive), then available memory; only if both pass is the engine asked, for the size in GiB |
| Resources.ShouldLoadTool | master-agent/core/resource_manager.py:72-85 | a tool is admitted exactly when it fits the limit, fits the available memory, and the engine allows it |
| Resources.StubAdmission | master-agent/core/resource_manager.py:84-85 | with the stub engine, admission is exactly `size <= limit && size <= available` |
| Resources.StubAdmissionDownwardClosed | master-agent/core/resource_manager.py:72-85 | with the stub engine, a smaller tool is admitted whenever a larger one is |
| Resources.AffinityRequest | master-agent/core/resource_manager.py:50-52 | `list(range(n))[:k]` lists the indices from 0 up, k of them when 0 <= k <= n, all n when k >= n, and n+k when k is negative |
| Resources.GpuRequests | master-agent/core/resource_manager.py:58-63 | device i is asked for `bytes / total_memory(i)`, in device order; an exception stops the loop early |
| Resources.ApplySystemLimits | master-agent/core/resource_manager.py:38-67 | the memory ceiling `ram_gb * 2^30` (soft and hard) is requested first, then the affinity prefix, then the GPU fractions only when CUDA is present and `gpu_memory_gb > 0`, exactly as the GPU loop requests them; a caught failure logs its warning and continues; an uncaught memory failure stops after one request and an uncaught affinity failure after two |
| Resources.ApplyOnCleanHost | master-agent/core/resource_manager.py:38-67 | when every call succeeds and every accelerator has memory and accepts its fraction, the sequence completes with no warning and one request per device after the first two |
| Resources.AffinityIgnoresMaskIds | master-agent/core/resource_manager.py:50-52 | the affinity request depends only on the size of the current mask, not on which CPUs are in it |
| Resources.CheckAndApplyLimits | master-agent/core/resource_manager.py:24-36 | memory is checked before CPU; a refusal gives the PermissionError message with the engine's reason, and no limit is applied; only when both pass are the limits applied |
| Resources.New | master-agent/core/resource_manager.py:14-18 | construction succeeds exactly when the checks pass; the manager then holds the policy it loaded, which is also the policy file's contents as last read |
| Resources.StubConstruction | master-agent/core/resource_manager.py:14-36 | with the stub engine, construction fails only when an OS call raises an uncaught exception |
| Resources.Merge | master-agent/core/resource_manager.py:89 | `dict.update`: each supplied key takes its new value, and every other key keeps its old value |
| Resources.MergeLaws | master-agent/core/resource_manager.py:87-89 | two updates compose into one, an empty update changes nothing, and repeating an update changes nothing more |
| Resources.UpdateConfig | master-agent/core/resource_manager.py:87-95 | the allocation is merged, the whole configuration is persisted, and the limits are re-applied without asking the engine again |
| Resources.ExportLimits | master-agent/core/resource_manager.py:97-105 | exports the configured allocation beside whole GiB of total memory (rounded down), the affinity size, and available MiB |
| Trash.EntriesSizeAppend | master-agent/core/trash_manager.py:133-138 | the size of a sequence of entries is the size of any prefix plus the size of the rest |
| Trash.Size | master-agent/core/trash_manager.py:129-138 | a file's size is its byte count, and a directory's size is at least that of each of its entries |
| Trash.EntriesSize | master-agent/core/trash_manager.py:133-138 | the total over a directory's entries is at least the size of each entry |
| Trash.EntriesSizePermutation | master-agent/core/trash_manager.py:134-136 | a directory's size does not depend on the order in which the walk visits its entries |
| Trash.New | master-agent/core/trash_manager.py:20 | retention is `trash_retention_days`, defaulting to 30; permanent deletion is allowed only when the policy says true |
| Trash.DeleteToTrash | master-agent/core/trash_manager.py:25-151 | a permanent delete the policy forbids, a missing path and a taken trash id each fail with their own error and change nothing; a directory named `metadata.json` fails after the move, leaving it in its sub-directory without metadata; otherwise the delete succeeds: the path leaves the filesystem, its sub-directory holds the item (none when it was a file named `metadata.json`) and the metadata (`recoverable = not permanent`), the index gains exactly that metadata, and nothing else changes; a failed delete leaves the index as it was |
| Trash.LastDot | master-agent/core/trash_manager.py:84 | the position of the last dot, or -1 when there is none |
| Trash.Suffix | master-agent/core/trash_manager.py:84 | `PurePath.suffix` is empty, or a dot followed by at least one character containing no further dot |
| Trash.Stem | master-agent/core/trash_manager.py:84 | stem followed by suffix is the name |
| Trash.RestoredPath | master-agent/core/trash_manager.py:83-84 | the `_restored_<seconds>` name is in the same directory, is longer than the original, and differs from it |
| Trash.Move | master-agent/core/trash_manager.py:87 | moving onto a free path adds exactly that path; into a directory it appends the item, or fails with DestinationExists when a same-named entry is there; a file replaces a file, and a directory onto a file fails; no other path changes |
| Trash.RestoreTarget | master-agent/core/trash_manager.py:81-84 | the original path when it is free; otherwise a different path in the same directory |
| Trash.RestoreSkipping | master-agent/core/trash_manager.py:61-97 | an unknown id, unreadable metadata, a non-recoverable item, a missing or skipped item and a failed move each give their own error and change nothing; success happens exactly when none of these occurs; it moves the item to the target, records `restored_at`/`restored_to`, and leaves the index unchanged |
| Trash.RestoreAsWritten | master-agent/core/trash_manager.py:74-76 | an item named `index.json` is never restored: the call fails and changes nothing |
| Trash.Restore | master-agent/core/trash_manager.py:61-97 | restore with only `metadata.json` skipped: succeeds exactly when restorable, changes nothing on failure, and never touches the index |
| Trash.DeleteRestoreRoundTrip | master-agent/core/trash_manager.py:25-97 | a non-permanent delete followed by a restore returns the original path, restores the filesystem exactly, and leaves one more index entry |
| Trash.IndexJsonNeverRestored | master-agent/core/trash_manager.py:74-76 | a deleted `index.json` is refused by the restore as written, but the corrected restore gives it back |
| Trash.MetadataNamedFileIsLost | master-agent/core/trash_manager.py:37-54 | deleting any file named `metadata.json` reports success and removes it from the filesystem, but its sub-directory keeps no item and a later restore finds nothing |
| Trash.RestoreTwiceFails | master-agent/core/trash_manager.py:74-76 | a second restore of the same id fails with "No items found in trash" |
| Trash.RestoreBesideNewFile | master-agent/core/trash_manager.py:81-87 | when something new occupies the original path, the restore leaves it alone and puts the old contents at the `_restored_` path |
| Trash.GeneratedPolicyRefusesPermanentDelete | master-agent/core/trash_manager.py:26-27 | under any generated policy, retention is 30 days and every permanent delete is refused without changing anything |
| Trash.ReadAll | master-agent/core/trash_manager.py:101-108 | the metadata read is exactly that of the listed sub-directories whose metadata is readable |
| Trash.ReadAllOnce | master-agent/core/trash_manager.py:101-108 | with a duplicate-free listing, a metadata record is read once when its sub-directory is listed and holds it, and not at all otherwise |
| Trash.SortedByNewestPairwise | master-agent/core/trash_manager.py:110 | in a newest-first sequence, every earlier item was deleted no earlier than every later one |
| Trash.Insert | master-agent/core/trash_manager.py:110 | inserting into a newest-first sequence keeps it newest-first and adds exactly one item |
| Trash.SortNewestFirst | master-agent/core/trash_manager.py:110 | the result is ordered by `deleted_at` descending and is a permutation of the input |
| Trash.ListTrash | master-agent/core/trash_manager.py:99-110 | the listing is newest first, and contains exactly the readable metadata of the listed sub-directories, each as often as read |
| Trash.ListedOnce | master-agent/core/trash_manager.py:99-110 | when the listing names every sub-directory once, each readable metadata record appears in the listing exactly once and nothing else appears |
| Trash.DeletedIsListed | master-agent/core/trash_manager.py:56 | after a successful delete, its metadata appears in the listing |
| Trash.Cutoff | master-agent/core/trash_manager.py:112-116 | the cutoff is `now - days * 86400`, with days defaulting to the retention |
| Trash.ExpiredStep | master-agent/core/trash_manager.py:119-125 | each listed item adds its id to the removed set exactly when it is older than the cutoff, still present, and its removal does not fail |
| Trash.RemoveExpired | master-agent/core/trash_manager.py:119-125 | the loop keeps exactly the sub-directories it did not remove, and counts only successful removals |
| Trash.EmptyTrash | master-agent/core/trash_manager.py:112-127 | removes exactly the expired sub-directories and counts them; every other sub-directory, the filesystem and the index are unchanged |
| Trash.ExpiredByAge | master-agent/core/trash_manager.py:119-125 | when every sub-directory is listed, the removed ones are exactly the readable ones deleted before the cutoff whose removal succeeds |
| MasterApi.ResearchImpliesSearch | master-agent/main.py:267 | any text containing "research" contains "search" |
| MasterApi.EstimateMemoryUsage | master-agent/main.py:261-270 | the estimate is one of 1024, 2048, 4096, 8192; 4096 exactly for image/video, 8192 exactly for model/train without those, 2048 exactly for search without the earlier keywords |
| MasterApi.EstimateIgnoresCase | master-agent/main.py:263-267 | upper-casing the description does not change the estimate, for descriptions whose every character lower-cases back after upper-casing, as all of ASCII does |
| MasterApi.EstimateOfLowered | master-agent/main.py:263-267 | lower-casing the description does not change the estimate |
| MasterApi.DotlessIChangesEstimate | master-agent/main.py:263-267 | "ımage" (dotless i) mentions no keyword and gets 1024, while its upper case "IMAGE" gets 4096 |
| MasterApi.SubmitTask | master-agent/main.py:160-203 | the gates run in order (ACL, confirmation only when asked for, memory admission, orchestrator), and each is reached only if the previous one passed; success carries the orchestrator's result; every failure, the 403 and 507 included, becomes status 500 with the caught error as detail |
| MasterApi.StubSubmission | master-agent/main.py:164-179 | with the stub engine, confirmation is never requested and memory admission is the only gate that can refuse |
| MasterApi.Start | master-agent/main.py:71-77 | a missing policy file exits with status 1 before anything else is built; otherwise the first OS request is the memory ceiling from the policy |
| MasterApi.ExplicitFields | master-agent/main.py:237 | only the fields the request set are forwarded, and never `gpu_memory_gb` |
| MasterApi.UpdateResource | master-agent/main.py:234-240 | the configuration merges exactly the set fields and is persisted; an escaping OS failure becomes status 500 after the merge; success exports the new allocation |
| MasterApi.EmptyUpdateKeepsConfig | master-agent/main.py:237 | an update with no field set leaves the configuration unchanged |
| McpAuth.New | mcp-gateway/gateway/auth_handler.py:13-16 | the argument if it is non-empty, else the environment variable; RuntimeError "MCP_SECRET_KEY not set!" exactly when neither gives a non-empty key |
| McpAuth.Expected | mcp-gateway/gateway/auth_handler.py:42-49 | the expected signature is the 44-character Base64 text of a 32-byte digest: ASCII and free of whitespace |
| McpAuth.CompareDigest | mcp-gateway/gateway/auth_handler.py:51 | `compare_digest` raises unless both strings are ASCII, and otherwise reports equality |
| McpAuth.Check | mcp-gateway/gateway/auth_handler.py:18-60 | accepted exactly when the line decodes, strips to a text starting "HMAC ", splits into three words, has an integer timestamp of at most 4300 digits within 60 seconds of now (inclusive), and its signature is base64 of the HMAC of the timestamp token |
| McpAuth.CheckLine | mcp-gateway/gateway/auth_handler.py:22-30 | a line without the scheme prefix is refused as an invalid format before it is split |
| McpAuth.CheckParts | mcp-gateway/gateway/auth_handler.py:27-56 | a word count other than three is refused as invalid parts; otherwise acceptance is exactly "number, within the window, expected signature" |
| McpAuth.Authenticate | mcp-gateway/gateway/auth_handler.py:18-60 | `authenticate` returns true exactly when the check accepts; it never raises |
| McpAuth.GenerateAuthHeader | mcp-gateway/gateway/auth_handler.py:62-75 | the header starts with the scheme, is its own strip, and splits into "HMAC", the expected signature of the current whole second, and that second |
| McpAuth.SignedLine | mcp-gateway/gateway/auth_handler.py:75 | `HMAC <sig> <ts>` of two words strips to itself and splits into those three words |
| McpAuth.LineStrip | mcp-gateway/gateway/server.py:60 | the received line, terminator included, strips to the header |
| McpAuth.SignedLineCheck | mcp-gateway/gateway/auth_handler.py:22-56 | a signed line is accepted exactly when its timestamp parses, lies within the window, and its signature is the expected one |
| McpAuth.CheckOfThreeWords | mcp-gateway/gateway/auth_handler.py:27-56 | a line stripping to a scheme-prefixed text of three words is judged on its timestamp and signature alone |
| McpAuth.HeaderRoundTrip | mcp-gateway/gateway/auth_handler.py:62-75 | a header generated at time t, sent as a line, is accepted by the same key exactly when now is within 60 seconds of `int(t)`, for any t whose whole seconds have at most 4300 digits (every float clock reading) |
| McpAuth.SkewBoundary | mcp-gateway/gateway/auth_handler.py:37-39 | a skew of exactly 60 seconds either way is accepted; 61 is refused |
| McpAuth.OverlongTimestampRefused | mcp-gateway/gateway/auth_handler.py:37 | a correctly signed line whose timestamp has more than 4300 digits is refused, because `int()` raises and the refusal path turns that into a failed check |
| McpAuth.ForgedSignatureRefused | mcp-gateway/gateway/auth_handler.py:51-56 | any signature other than the expected one is refused, whatever the timing |
| McpServer.LoadTools | mcp-gateway/gateway/server.py:23-38 | the registry names exactly the parent directories of the `tool.py` files found (none when the directory is missing), each available and not loaded |
| McpServer.LastRegistrationWins | mcp-gateway/gateway/server.py:30-37 | a later `tool.py` in a same-named directory replaces the earlier entry |
| McpServer.Classify | mcp-gateway/gateway/server.py:91-125 | no words means an empty command; the upper-cased first word selects the command; LOAD needs exactly one argument and EXECUTE at least two; anything else is unknown |
| McpServer.ClassifySameWords | mcp-gateway/gateway/server.py:95 | only the upper-cased first word and the remaining words decide the command |
| McpServer.CommandWordIgnoresCase | mcp-gateway/gateway/server.py:95 | upper-casing the command word changes nothing; lower-casing it never changes which command runs, and changes nothing at all unless the word holds the capital I with dot above, the Kelvin sign or the capital sharp s |
| McpServer.LongSRunsStatus | mcp-gateway/gateway/server.py:95 | Python upper-cases the long s to S, so a first word "ſtatus" runs STATUS |
| McpServer.LoadTool | mcp-gateway/gateway/server.py:127-141 | an unknown name gives "not found" and changes nothing; a known tool becomes loaded and ready, replying "OK: Tool ... loaded"; the set of names never changes, and a well-formed registry (every tool either available and unloaded or ready and loaded) stays well-formed |
| McpServer.LoadIdempotent | mcp-gateway/gateway/server.py:127-138 | loading twice has the same effect and reply as loading once |
| McpServer.ExecuteTool | mcp-gateway/gateway/server.py:143-164 | unknown and unloaded tools are refused with their messages; a loaded tool reports success with its name and arguments |
| McpServer.StatusTable | mcp-gateway/gateway/server.py:112-122 | STATUS lists every registered tool with its status and loaded flag |
| McpServer.ProcessCommand | mcp-gateway/gateway/server.py:89-125 | each command gives its reply; LOAD gives exactly the registry and reply of loading the named tool; EXECUTE with JSON arguments gives the execution reply and changes nothing, and with arguments that are not JSON raises, which ends the connection; only LOAD changes the registry, and never its set of names |
| McpServer.ListCountMatches | mcp-gateway/gateway/server.py:97-101 | the count LIST_TOOLS reports equals the number of names it lists |
| McpServer.LoadedStaysLoaded | mcp-gateway/gateway/server.py:127-161 | once loaded, a tool stays loaded whatever command follows |
| McpServer.RunCommands | mcp-gateway/gateway/server.py:70-79 | the command loop ends at once on no line or an undecodable one; a command that raises ends it after the registry change; otherwise its reply comes first; at most one reply per line, and the registry keeps its names and well-formedness |
| McpServer.RunCommandsAppend | mcp-gateway/gateway/server.py:71-79 | running a batch of lines that is all read and answered, then the next batch on the resulting registry, is running both batches as one connection |
| McpServer.HandleClient | mcp-gateway/gateway/server.py:53-87 | a connection that ends, or whose first line outgrows the read limit, before the handshake gets no reply and changes nothing; a refused handshake gets one error line and no command runs; an accepted one gets "OK: Authenticated" followed by exactly the replies and registry of the command loop |
| McpServer.NoCommandWithoutAuth | mcp-gateway/gateway/server.py:59-65 | without a valid handshake the registry is unchanged |
| McpServer.LoadLine | mcp-gateway/gateway/server.py:91-105 | the line `LOAD <name>` is classified as a load of that name |
| McpServer.ProcessLoad | mcp-gateway/gateway/server.py:103-105 | `LOAD <name>` answers with exactly what loading the tool gives |
| McpServer.RunOneLoad | mcp-gateway/gateway/server.py:71-79 | a connection sending the single line `LOAD <name>` runs exactly that load |
| McpServer.AuthenticatedLoad | mcp-gateway/gateway/server.py:58-79 | after a valid handshake, `LOAD <name>` of a registered tool loads it and the client reads the two OK lines |
| VaultShard.New | sharded-vault/src/shard.rs:11-17 | the numbers are kept as given, the cache is empty, and construction never fails |
| VaultShard.StoreSecret | sharded-vault/src/shard.rs:20-23 | storing always succeeds; it inserts or overwrites the key, keeps every other key, and leaves the numbers unchanged |
| VaultShard.GetShare | sharded-vault/src/shard.rs:25-27 | a stored key gives its bytes; a missing key gives NotFound "Key not found" |
| VaultShard.StoreThenGet | sharded-vault/src/shard.rs:20-27 | getting a key after storing it gives exactly the stored bytes |
| VaultShard.StoreLeavesOtherKeys | sharded-vault/src/shard.rs:20-27 | storing under one key does not change what any other key reads |
| VaultShard.StoreOverwrites | sharded-vault/src/shard.rs:20-23 | a second store under the same key replaces the first entirely |
| VaultShard.StoreCount | sharded-vault/src/shard.rs:20-23 | the number of keys grows by one exactly when the key is new |
| VaultServer.Bytes | sharded-vault/src/main.rs:94-95 | a share is written as its bytes followed by a newline |
| VaultServer.Classify | sharded-vault/src/main.rs:67-117 | no words is empty; STORE needs exactly three words and GET exactly two; STATUS takes any number; keywords match case-sensitively; anything else is invalid |
| VaultServer.Dispatch | sharded-vault/src/main.rs:67-117 | each command writes its reply; only STORE changes the shard, storing the secret's bytes |
| VaultServer.NotFoundLine | sharded-vault/src/main.rs:97-99 | the error line for a missing key is "ERR: Key not found" |
| VaultServer.HandleClient | sharded-vault/src/main.rs:52-121 | a zero-byte read gets no reply and changes nothing; otherwise the trimmed, whitespace-split text is dispatched |
| VaultServer.Words | sharded-vault/src/main.rs:65 | every word of the trimmed, whitespace-split text is non-empty and free of Rust whitespace |
| VaultServer.WordsOfThree | sharded-vault/src/main.rs:65 | a line of three words separated by single spaces has exactly those words |
| VaultServer.StoreLine | sharded-vault/src/main.rs:73-81 | `STORE k s` stores the bytes of s under k and replies "OK: Secret stored" |
| VaultServer.GetLine | sharded-vault/src/main.rs:88-100 | `GET k` answers with the stored bytes, or "ERR: Key not found", and changes nothing |
| VaultServer.StoreThenGet | sharded-vault/src/main.rs:73-100 | `STORE k s` then `GET k` answers with the bytes of s followed by a newline |
| VaultServer.KeywordsAreCaseSensitive | sharded-vault/src/main.rs:73-117 | a lower-case `store` is an invalid command and changes nothing |
| VaultServer.GetArityIsExact | sharded-vault/src/main.rs:88-117 | `GET` with an extra word is an invalid command |
| VaultServer.StatusCountsNewKey | sharded-vault/src/main.rs:103-113 | after a store under a new key, STATUS reports one more key and the shard's numbers |

Observations on the code as written, proved about the faithful model:

- `Trash.MetadataNamedFileIsLost`: deleting a *file* named `metadata.json`
  loses its contents. The metadata file is written over it in the same
  sub-directory, yet the deletion reports success. Deleting a *directory* of
  that name makes the metadata write fail after the move. The error escapes,
  no index entry is written, and the directory stays in the trash without
  metadata.
- `Resources.AffinityIgnoresMaskIds`: the affinity request names the indices
  `0..k-1`, not the CPU ids in the current mask. On a host whose allowed CPUs
  are not numbered from 0, the request names CPUs the process was never
  allowed to use.
- `Acl.ConfirmationIdsCollide`: every confirmation request gets the same id,
  so the ids could not tell two pending operations apart even if the engine
  kept any.

## Left out

- The filesystem is a map from path to payload, with one trash sub-directory per id. Paths nested below a deleted directory and a corrupt `index.json` are not modelled. `Trash.Move` covers the `shutil.move` cases one level deep: a rename, a move into an existing directory, and a file replacing a file.
- `_get_size` walks a directory with `rglob`. The model sums a directory's entries (`Trash.Size`) without modelling the walk or symbolic links.
- JSON encoding and decoding of the policy, metadata, tool output and replies is not modelled. Replies are datatypes carrying the values the JSON would hold, and `json.loads` on EXECUTE arguments is the `isJson` parameter.
- The EXECUTE reply's `datetime.utcnow()` timestamp and the `Executed with args` rendering of a Python dict are left out. The reply carries the tool name and the argument text.
- Dictionary iteration order is not modelled. LIST_TOOLS returns the set of names and STATUS a map. The order in which `os.listdir` names trash entries is the `listing` parameter, and `Trash.ListedOnce` states the "each item exactly once" promise for a listing that names every sub-directory once (`Trash.ListsEverySlot`).
- Text.LowerChar: models every character whose lower case holds an ASCII letter or upper-cases to one (the 26 capitals, the capital I with dot above, the Kelvin sign, the capital sharp s) and keeps every other character unchanged, and so does Text.UpperChar for upper case (the 26 small letters, the sharp s, the dotless i, the long s, the Latin ligatures and the other special casings that produce an ASCII letter). Python's `str.lower`/`str.upper` also map the remaining non-ASCII letters. Those mappings can change neither a keyword match nor a command word, but they do change the word echoed in "ERR: Unknown command".
- MasterApi.EstimateIgnoresCase: holds only for descriptions whose every character lower-cases back after upper-casing. `MasterApi.DotlessIChangesEstimate` shows a description where upper-casing changes the estimate.
- McpServer.CommandWordIgnoresCase: lower-casing the command word keeps the command, but not the echoed word of an unknown command when the word holds the capital I with dot above, the Kelvin sign or the capital sharp s. For other non-ASCII letters whose lower case upper-cases to a different letter (the Greek capital theta symbol, the Ohm sign and the Angstrom sign) Python also echoes a different word, which the model does not show because it keeps those letters unchanged.
- Text.DecodeUtf8: accepts overlong encodings and is only the inverse that `Text.Utf8` is checked against. The source never decodes in this model.
- Text.ParseInt: accepts ASCII digits only. Python's `int()` also accepts other Unicode decimal digits. The 4300-digit limit is CPython's default. `PYTHONINTMAXSTRDIGITS` or `sys.set_int_max_str_digits` can change it, and Python releases from before the limit was introduced in 2022 have none.
- Text.UpperOfLower: holds over the modelled case tables, which keep every letter outside them unchanged. CPython has three more characters whose upper case changes when they are lower-cased first. The Greek capital theta symbol U+03F4 lowers to θ, which upper-cases to Θ. The Ohm sign U+2126 lowers to ω, which upper-cases to Ω. The Angstrom sign U+212B lowers to å, which upper-cases to Å. For texts holding them the lemma holds of the model but not of Python.
- Base64.Decode: the source never decodes. `Decode` is only the inverse that `Base64.Encode` is checked against, and like Python's `base64.b64decode` it ignores the unused bits before a pad.
- McpServer.HandleClient: a read that raises is modelled as the end of input. `readuntil` raises at the end of the connection and for a line longer than the 64 KiB stream limit, so an over-long command line ends the session like the end of the connection. The `if not data` test (server.py line 73) can never fire.
- McpAuth.Check: takes the line already decoded (`None` when it is not UTF-8). The decoder itself is not modelled.
- VaultServer.HandleClient: takes the text of the first read. `String::from_utf8_lossy`, the 4096-byte buffer and the truncation of longer commands are not modelled.
- SHA-256, HMAC, psutil, `setrlimit`, `sched_setaffinity` and CUDA are parameters or recorded requests. The GPU memory fraction is kept as its numerator and denominator, not computed in floating point.
- Networking, asyncio, tokio, the vault's Mutex and the accept loops are not modelled. Every connection is one sequential call.
- The alert manager, the audit log, the orchestrator (`SovereignMaster.decide`, a `Result` parameter), the JWT verifier, rate limiting and the health and metrics endpoints are not modelled.
- The pass-through endpoints for pending confirmations, confirm, and trash listing are not modelled. They call the engine and the trash functions modelled here.
- Trash.RestoreSkipping: like Trash.Restore and Trash.RestoreAsWritten, which call it, treats a trash id only as the name of a trash sub-directory, so any id that names none is "not found" and changes nothing. The source joins the id to the trash directory as a path (trash_manager.py lines 62 and 64). An empty id or `.` names the trash directory itself, which exists, and opening its `metadata.json` raises FileNotFoundError. The id `index.json` names the index file, and opening a path below it raises NotADirectoryError. The id `..` reads `~/.super-agent/metadata.json`. An absolute id replaces the trash directory altogether, so a restore can read metadata from, and move an item out of, any directory (lines 67-87) and then write `metadata.json` there (line 93).
- Trash.Move: assumes the destination's parent directory exists. `shutil.move` raises FileNotFoundError when it does not, for example when the original path's directory was removed after the delete, but the model's `Move` succeeds.
- Trash.RestoreSkipping: uses one clock value `now` for both the `_restored_<seconds>` suffix and `restored_at`. The source reads `time.time()` twice (trash_manager.py lines 83 and 90), so the two values can differ by the time the move takes.
- MasterApi.ExplicitFields: models a request field as set or unset. An explicit JSON `null` is a set field under `exclude_unset=True` (main.py line 237), so it is forwarded as `None`, lands in the configuration, and makes the next `setrlimit` or affinity call raise TypeError. The model has no value for such a field.
- MasterApi.UpdateResource: inherits the limitation above. A request carrying an explicit `null` is not modelled.
- `main.py` builds one stub engine and the resource manager builds another. Because the stub has no state, the model uses one oracle for both.
- `_load_tool`'s `except` branch is unreachable, since nothing in the try block can raise. `LoadTool` has no error reply for it.
- `store_secret` never returns `Err`, so the `ERR: {e}` arm of STORE in `handle_client` is unreachable and `Dispatch` has no case for it.
- `VaultShard::new` ignores its storage path, and the model does too. Argument parsing with clap, the port and logging are not modelled.
- The policy generator's file write and console output are not modelled. `Policy.GenerateConfig` returns the record.

## Findings

| source | as written | input that shows it | evidently intended | confidence | as-written member | corrected member |
|---|---|---|---|---|---|---|
| master-agent/core/trash_manager.py:74 | `restore` skips every entry named `index.json` (as well as `metadata.json`) when looking for the deleted item, although the index lives in the trash root and never in a sub-directory | delete a file `/home/u/index.json`, then restore its trash id: the only entry is skipped and the call raises "No items found in trash" (`Trash.IndexJsonNeverRestored`) | only the metadata file is skipped, so every deleted path can be restored | high, not executed | Trash.RestoreAsWritten | Trash.Restore |

=== FILE: acl.dfy ===
/**
 * The access-control engine as the repository ships it
 * (master-agent/core/acl_engine.py): a placeholder that approves every
 * request, never asks for confirmation, issues one fixed confirmation id and
 * keeps no state. No quota, confirmation registry or policy evaluation exists.
 */
module Acl {

  /** An access decision. */
  datatype Decision = Decision(allowed: bool, reason: string, requiresConfirmation: bool)

  /** `ACLDecision(allowed, reason="", requires_confirmation=False)`. */
  function MakeDecision(allowed: bool, reason: string := "", requiresConfirmation: bool := false): (d: Decision)
    ensures d.allowed == allowed
    ensures d.reason == reason && d.requiresConfirmation == requiresConfirmation
  {
    Decision(allowed, reason, requiresConfirmation)
  }

  /** A decision built from `allowed` alone has an empty reason and needs no confirmation. */
  lemma DecisionDefaults(allowed: bool)
    ensures MakeDecision(allowed) == Decision(allowed, "", false)
  {
  }

  /** The engine; its policy is the empty dictionary whatever file it was given. */
  datatype Engine = Engine(policy: map<string, string>)

  function New(policyPath: string): (e: Engine)
    ensures e.policy == map[]
  {
    Engine(map[])
  }

  /** Every resource and every amount is allowed, without confirmation. */
  function CheckResourceAccess(e: Engine, resource: string, amount: real): (d: Decision)
    ensures d.allowed && !d.requiresConfirmation && d.reason == ""
  {
    MakeDecision(true)
  }

  /** The confirmation id is a constant, whatever the decision. */
  function RequestConfirmation(e: Engine, d: Decision): (id: string)
    ensures id == "op_123"
  {
    "op_123"
  }

  /** Every wait reports approval at once. */
  function WaitForConfirmation(e: Engine, id: string, timeout: real): (approved: bool)
    ensures approved
  {
    true
  }

  /** Nothing is ever pending. */
  function GetPendingConfirmations(e: Engine): (pending: map<string, Decision>)
    ensures pending == map[]
  {
    map[]
  }

  /** Confirming or rejecting an operation has no effect. */
  function ConfirmOperation(e: Engine, id: string, approved: bool): (e': Engine)
    ensures e' == e
  {
    e
  }

  /** Two confirmation requests, for any two decisions, receive the same id. */
  lemma ConfirmationIdsCollide(e: Engine, d1: Decision, d2: Decision)
    ensures RequestConfirmation(e, d1) == RequestConfirmation(e, d2)
  {
  }

  /** A rejection is not observed: after `confirm_operation(id, False)` nothing
      is pending and a wait on `id` still reports approval. */
  lemma RejectionIsIgnored(e: Engine, id: string, timeout: real)
    ensures var e' := ConfirmOperation(e, id, false);
      GetPendingConfirmations(e') == map[] && WaitForConfirmation(e', id, timeout)
  {
  }

  /** What the submission gate and the resource manager ask of an access-control
      engine. The repository always supplies `Stub(engine)`; keeping the
      answers as parameters makes the order of the gates visible. */
  datatype Oracle = Oracle(
    check: (string, real) -> Decision,
    requestConfirmation: Decision -> string,
    waitForConfirmation: (string, real) -> bool)

  /** The oracle the repository's engine provides. */
  function Stub(e: Engine): (o: Oracle)
    ensures forall resource, amount :: o.check(resource, amount).allowed
    ensures forall resource, amount :: !o.check(resource, amount).requiresConfirmation
  {
    Oracle(
      (resource, amount) => CheckResourceAccess(e, resource, amount),
      d => RequestConfirmation(e, d),
      (id, timeout) => WaitForConfirmation(e, id, timeout))
  }
}

=== FILE: api.dfy ===
/**
 * The pure parts of the master agent's HTTP layer (master-agent/main.py):
 * the keyword estimate of a task's memory, the order of the gates a task
 * submission passes, the startup check for the policy file, and the field
 * filter of a resource update. The orchestrator's decision is a parameter.
 */
module MasterApi {
  import opened Wrappers
  import Text
  import Acl
  import Policy
  import Resources

  /** The "research" keyword adds nothing: every text containing it contains "search". */
  lemma ResearchImpliesSearch(t: string)
    ensures Text.Contains(t, "research") ==> Text.Contains(t, "search")
  {
    if Text.Contains(t, "research") {
      assert Text.OccursAt("research", "search", 2);
      Text.ContainsTransitive(t, "research", "search");
    }
  }

  /** The description mentions `a` or `b`. */
  predicate Mentions(t: string, a: string, b: string) {
    Text.Contains(t, a) || Text.Contains(t, b)
  }

  /** `_estimate_memory_usage`: the megabytes a task is expected to need,
      from keywords in its lower-cased description; the first matching rule
      wins. Because "search" occurs in "research", the third rule is the
      test for "search" alone. */
  function EstimateMemoryUsage(task: string): (mb: int)
    ensures mb == 1024 || mb == 2048 || mb == 4096 || mb == 8192
    ensures var t := Text.Lower(task);
      && (mb == 4096 <==> Mentions(t, "image", "video"))
      && (mb == 8192 <==> !Mentions(t, "image", "video") && Mentions(t, "model", "train"))
      && (mb == 2048 <==> !Mentions(t, "image", "video") && !Mentions(t, "model", "train") && Text.Contains(t, "search"))
  {
    var t := Text.Lower(task);
    if Mentions(t, "image", "video") then 4096
    else if Mentions(t, "model", "train") then 8192
    else
      ResearchImpliesSearch(t);
      if Mentions(t, "research", "search") then 2048 else 1024
  }

  /** Lower-casing a description does not change its estimate. */
  lemma EstimateOfLowered(task: string)
    ensures EstimateMemoryUsage(Text.Lower(task)) == EstimateMemoryUsage(task)
  {
    Text.LowerIdempotent(task);
  }

  /** Upper-casing a description does not change its estimate as long as
      every character lower-cases back after upper-casing, as all of ASCII
      does. */
  lemma EstimateIgnoresCase(task: string)
    requires forall i :: 0 <= i < |task| ==> Text.CaseRoundTrips(task[i])
    ensures EstimateMemoryUsage(Text.Upper(task)) == EstimateMemoryUsage(task)
  {
    Text.LowerOfUpper(task);
  }

  /** With a dotless i, "\U{131}mage" mentions no keyword, while its upper
      case "IMAGE" lower-cases to "image". */
  lemma DotlessIChangesEstimate()
    ensures EstimateMemoryUsage("\U{131}mage") == 1024
    ensures Text.Upper("\U{131}mage") == "IMAGE"
    ensures EstimateMemoryUsage("IMAGE") == 4096
  {
    DotlessIMentionsNothing();
    UpperDotlessI();
    ImageEstimate();
  }

  lemma ImageEstimate()
    ensures EstimateMemoryUsage("IMAGE") == 4096
  {
    assert Text.Lower("IMAGE") == "image";
    assert Text.OccursAt("image", "image", 0);
  }

  lemma DotlessIMentionsNothing()
    ensures EstimateMemoryUsage("\U{131}mage") == 1024
  {
    var t := "\U{131}mage";
    assert Text.Lower(t) == Text.LowerChar(t[0]) + Text.Lower("mage");
    assert Text.Lower(t) == t;
    NoKeyword(t, "image");
    NoKeyword(t, "video");
    NoKeyword(t, "model");
    NoKeyword(t, "train");
    NoKeyword(t, "research");
    NoKeyword(t, "search");
  }

  lemma UpperDotlessI()
    ensures Text.Upper("\U{131}mage") == "IMAGE"
  {
    var t := "\U{131}mage";
    assert Text.Upper(t) == Text.UpperChar(t[0]) + Text.Upper("mage");
  }

  /** A keyword no longer than the description and starting with another
      letter does not occur in it. */
  lemma NoKeyword(t: string, k: string)
    requires t == "\U{131}mage" && (|k| > |t| || (|k| == |t| && k[0] != t[0]))
    ensures !Text.Contains(t, k)
  {
    assert forall i :: Text.OccursAt(t, k, i) ==> i == 0 && t[0] == k[0];
  }

  /** The checks of `submit_task`, in the order they run. */
  datatype Gate = AclCheck | Confirmation | MemoryAdmission | MasterDecision

  function Rank(g: Gate): nat {
    match g
    case AclCheck => 0
    case Confirmation => 1
    case MemoryAdmission => 2
    case MasterDecision => 3
  }

  /** What was raised inside the handler: an HTTP error or any other exception. */
  datatype Raised = HttpError(status: int, detail: string) | Failure(message: string)

  /** The handler's answer: the orchestrator's result, or the HTTP error the
      final `except` raises, whose detail is the text of what was caught. */
  datatype TaskResponse = Completed(result: string) | Rejected(status: int, cause: Raised)

  datatype Submission = Submission(response: TaskResponse, gates: seq<Gate>)

  /** The gates an oracle lets a task reach in order, ending at the first that refuses. */
  predicate Confirmed(acl: Acl.Oracle) {
    var d := acl.check("cpu", 1.0);
    !d.requiresConfirmation || acl.waitForConfirmation(acl.requestConfirmation(d), 60.0)
  }

  /** `submit_task`: the CPU decision, a confirmation when the decision asks
      for one (60 seconds), memory admission of the estimate, then the
      orchestrator (`decided`: its result or the message of what it raised).
      Every failure, the 403 and 507 errors included, leaves the handler as
      status 500. */
  function SubmitTask(acl: Acl.Oracle, alloc: Policy.Allocation, t: Resources.Telemetry,
                      task: string, decided: Result<string, string>): (s: Submission)
    ensures |s.gates| >= 1 && s.gates[0] == AclCheck
    ensures forall i, j :: 0 <= i < j < |s.gates| ==> Rank(s.gates[i]) < Rank(s.gates[j])
    ensures Confirmation in s.gates <==> acl.check("cpu", 1.0).allowed && acl.check("cpu", 1.0).requiresConfirmation
    ensures MemoryAdmission in s.gates <==> acl.check("cpu", 1.0).allowed && Confirmed(acl)
    ensures MasterDecision in s.gates <==>
      MemoryAdmission in s.gates && Resources.ShouldLoadTool(alloc, t, acl, EstimateMemoryUsage(task))
    ensures s.response.Completed? <==> MasterDecision in s.gates && decided.Ok?
    ensures s.response.Completed? ==> s.response.result == decided.value
    ensures s.response.Rejected? ==> s.response.status == 500
    ensures !acl.check("cpu", 1.0).allowed ==> s.response == Rejected(500, HttpError(403, acl.check("cpu", 1.0).reason))
    ensures acl.check("cpu", 1.0).allowed && !Confirmed(acl) ==> s.response == Rejected(500, HttpError(403, "Operation denied by user"))
    ensures MemoryAdmission in s.gates && MasterDecision !in s.gates ==> s.response == Rejected(500, HttpError(507, "Insufficient resources"))
  {
    var d := acl.check("cpu", 1.0);
    if !d.allowed then Submission(Rejected(500, HttpError(403, d.reason)), [AclCheck])
    else
      var g1 := if d.requiresConfirmation then [AclCheck, Confirmation] else [AclCheck];
      if !Confirmed(acl) then Submission(Rejected(500, HttpError(403, "Operation denied by user")), g1)
      else
        var g2 := g1 + [MemoryAdmission];
        if !Resources.ShouldLoadTool(alloc, t, acl, EstimateMemoryUsage(task)) then
          Submission(Rejected(500, HttpError(507, "Insufficient resources")), g2)
        else
          var g3 := g2 + [MasterDecision];
          match decided
          case Ok(result) => Submission(Completed(result), g3)
          case Err(message) => Submission(Rejected(500, Failure(message)), g3)
  }

  /** With the repository's engine the confirmation step is never taken and
      memory admission is the only gate that can refuse. */
  lemma StubSubmission(e: Acl.Engine, alloc: Policy.Allocation, t: Resources.Telemetry, task: string, decided: Result<string, string>)
    ensures var s := SubmitTask(Acl.Stub(e), alloc, t, task, decided);
      && Confirmation !in s.gates
      && MemoryAdmission in s.gates
      && (s.response.Completed? <==>
            && EstimateMemoryUsage(task) <= alloc.memoryLimitMb
            && EstimateMemoryUsage(task) * Resources.MiB <= t.availableBytes
            && decided.Ok?)
  {
    Resources.StubAdmission(alloc, t, e, EstimateMemoryUsage(task));
  }

  /** How startup ends: an exit status, a failed resource manager, or a running application. */
  datatype Startup =
    | Exited(code: int)
    | Crashed(error: Resources.ManagerError)
    | Running(manager: Resources.Manager, applied: Resources.Applied)

  /** `MasterApplication()` up to the resource manager: without a policy file
      it exits with status 1 before any engine or manager exists (so no OS
      limit is requested); otherwise the resource manager is constructed
      against the repository's engine. */
  function Start(policyFile: Option<Policy.Policy>, t: Resources.Telemetry, host: Resources.Host): (r: Startup)
    ensures policyFile.None? <==> r == Exited(1)
    ensures r.Running? ==> && r.manager.config == policyFile.value
                           && |r.applied.requests| >= 1
                           && r.applied.requests[0] == Resources.SetMemoryLimit(policyFile.value.allocation.ramGb * Resources.GiB,
                                                                    policyFile.value.allocation.ramGb * Resources.GiB)
    ensures policyFile.Some? ==> (r.Running? <==> host.rlimit != Resources.Uncaught && host.affinity != Resources.Uncaught)
  {
    match policyFile
    case None => Exited(1)
    case Some(p) =>
      Resources.StubConstruction(p, t, host, Acl.New("config/security-policy.json"));
      match Resources.New(p, t, host, Acl.Stub(Acl.New("config/security-policy.json")))
      case Err(error) => Crashed(error)
      case Ok((m, applied)) => Running(m, applied)
  }

  /** `ResourceUpdateRequest`: a field is `Some` exactly when the request set it. */
  datatype ResourceUpdateRequest = ResourceUpdateRequest(ramGb: Option<int>, cpuCores: Option<int>, memoryLimitMb: Option<int>)

  /** `request.dict(exclude_unset=True)`: only the fields the request set,
      and never `gpu_memory_gb`, which the request cannot carry. */
  function ExplicitFields(req: ResourceUpdateRequest): (u: Resources.AllocationUpdate)
    ensures u.ramGb == req.ramGb && u.cpuCores == req.cpuCores && u.memoryLimitMb == req.memoryLimitMb
    ensures u.gpuMemoryGb.None?
  {
    Resources.AllocationUpdate(req.ramGb, req.cpuCores, req.memoryLimitMb, None)
  }

  datatype UpdateResponse = Updated(newLimits: Resources.Limits) | UpdateFailed(status: int)

  /** `update_resource`: forward the set fields to `update_config`; an
      exception escaping it becomes status 500. The configuration has been
      merged and persisted by then, so a failed update is not rolled back. */
  function UpdateResource(m: Resources.Manager, req: ResourceUpdateRequest, t: Resources.Telemetry, host: Resources.Host)
    : (r: (Resources.Manager, UpdateResponse))
    ensures r.0.config.allocation == Resources.Merge(m.config.allocation, ExplicitFields(req))
    ensures r.0.config.allocation.gpuMemoryGb == m.config.allocation.gpuMemoryGb
    ensures r.0.persisted == r.0.config
    ensures r.1.UpdateFailed? <==> host.rlimit == Resources.Uncaught || host.affinity == Resources.Uncaught
    ensures r.1.UpdateFailed? ==> r.1.status == 500
    ensures r.1.Updated? ==> r.1.newLimits.config == r.0.config.allocation
  {
    var (m', applied) := Resources.UpdateConfig(m, ExplicitFields(req), t, host);
    if applied.completed then (m', Updated(Resources.ExportLimits(m', t)))
    else (m', UpdateFailed(500))
  }

  /** An update with no field set leaves the configuration as it was. */
  lemma EmptyUpdateKeepsConfig(m: Resources.Manager, t: Resources.Telemetry, host: Resources.Host)
    ensures UpdateResource(m, ResourceUpdateRequest(None, None, None), t, host).0.config == m.config
  {
    Resources.MergeLaws(m.config.allocation, ExplicitFields(ResourceUpdateRequest(None, None, None)),
                        ExplicitFields(ResourceUpdateRequest(None, None, None)));
  }
}

=== FILE: base64.dfy ===
/**
 * Base 64 encoding with the standard alphabet and `=` padding, as section 4
 * of RFC 4648 defines it (Python's `base64.b64encode`).
 *
 * The encoding is taken in two steps: the bytes become a sequence of 6-bit
 * values (`Sextets`), and each value becomes its character (`Spell`). The
 * decoder undoes the steps in the reverse order.
 */
module Base64 {
  import opened Wrappers
  import Text

  /** The characters of the encoding alphabet (table 1 of RFC 4648) and the pad. */
  predicate IsBase64Char(c: char) {
    ('A' <= c <= 'Z') || ('a' <= c <= 'z') || ('0' <= c <= '9') || c == '+' || c == '/' || c == '='
  }

  /** The value that stands for the pad character; the 6-bit values are 0 to 63. */
  const Pad := 64

  /** The values a sequence of sextets may hold. */
  predicate AreSextets(v: seq<int>) {
    forall i :: 0 <= i < |v| ==> 0 <= v[i] <= Pad
  }

  /** Table 1 of RFC 4648: the character for a 6-bit value, and `=` for `Pad`. */
  function Symbol(n: int): (c: char)
    requires 0 <= n <= Pad
    ensures IsBase64Char(c)
    ensures c == '=' <==> n == Pad
  {
    if n < 26 then ('A' as int + n) as char
    else if n < 52 then ('a' as int + (n - 26)) as char
    else if n < 62 then ('0' as int + (n - 52)) as char
    else if n == 62 then '+'
    else if n == 63 then '/'
    else '='
  }

  /** The value a character of the alphabet stands for (`Pad` for `=`);
      `None` for any character outside the alphabet. */
  function SymbolValue(c: char): (r: Option<int>)
    ensures r.Some? ==> 0 <= r.value <= Pad && Symbol(r.value) == c
    ensures r.None? <==> !IsBase64Char(c)
  {
    if 'A' <= c <= 'Z' then Some(c as int - 'A' as int)
    else if 'a' <= c <= 'z' then Some(c as int - 'a' as int + 26)
    else if '0' <= c <= '9' then Some(c as int - '0' as int + 52)
    else if c == '+' then Some(62)
    else if c == '/' then Some(63)
    else if c == '=' then Some(Pad)
    else None
  }

  /** Every group of three bytes gives four 6-bit values, most significant
      first; a final group of one or two bytes is completed with zero bits,
      and each value that carries none of its bits is `Pad`. */
  function Sextets(b: seq<byte>): (r: seq<int>)
    ensures |r| == 4 * ((|b| + 2) / 3)
    ensures AreSextets(r)
    decreases |b|
  {
    if |b| == 0 then []
    else if |b| == 1 then
      var x := b[0] as int;
      [x / 4, (x % 4) * 16, Pad, Pad]
    else if |b| == 2 then
      var x, y := b[0] as int, b[1] as int;
      [x / 4, (x % 4) * 16 + y / 16, (y % 16) * 4, Pad]
    else
      var x, y, z := b[0] as int, b[1] as int, b[2] as int;
      var rest := Sextets(b[3..]);
      assert (|b| + 2) / 3 == (|b[3..]| + 2) / 3 + 1;
      [x / 4, (x % 4) * 16 + y / 16, (y % 16) * 4 + z / 64, z % 64] + rest
  }

  /** Each value written as its character. */
  function Spell(v: seq<int>): (r: string)
    requires AreSextets(v)
    ensures |r| == |v| && forall i :: 0 <= i < |v| ==> r[i] == Symbol(v[i])
  {
    if v == [] then [] else [Symbol(v[0])] + Spell(v[1..])
  }

  /** The encoding: four characters for each started group of three bytes. */
  function Encode(b: seq<byte>): (r: string)
    ensures |r| == 4 * ((|b| + 2) / 3)
    ensures forall i :: 0 <= i < |r| ==> IsBase64Char(r[i])
  {
    Spell(Sextets(b))
  }

  /** The value of each character; `None` when one is outside the alphabet. */
  function Read(s: string): (r: Option<seq<int>>)
    ensures r.Some? ==> |r.value| == |s| && AreSextets(r.value)
    ensures r.Some? ==> forall i :: 0 <= i < |s| ==> Symbol(r.value[i]) == s[i]
    ensures r.None? <==> exists i :: 0 <= i < |s| && !IsBase64Char(s[i])
  {
    if s == [] then Some([])
    else
      var rest := Read(s[1..]);
      assert forall i :: 1 <= i < |s| ==> s[1..][i - 1] == s[i];
      match SymbolValue(s[0])
      case None => None
      case Some(n) =>
        match rest
        case None => None
        case Some(vs) => Some([n] + vs)
  }

  /** The byte made of `hi`'s low bits above `lo`'s high bits. */
  function Join(hi: int, lo: int, shift: int): (r: byte)
    requires 0 <= hi < 64 && 0 <= lo < 64 && shift in {2, 4, 6}
  {
    if shift == 2 then (hi * 4 + lo / 16) as byte
    else if shift == 4 then ((hi % 16) * 16 + lo / 4) as byte
    else ((hi % 4) * 64 + lo) as byte
  }

  /** The bytes of a sequence of values, four values to three bytes; a final
      group ending in two pads or one gives one byte or two. A pad anywhere
      else or a length that is not a multiple of four is refused. Like
      Python's `base64.b64decode`, the unused bits before the pad are
      ignored. */
  function Unsextets(v: seq<int>): (r: Option<seq<byte>>)
    requires AreSextets(v)
    decreases |v|
  {
    if v == [] then Some([])
    else if |v| < 4 || v[0] == Pad || v[1] == Pad then None
    else if |v| == 4 && v[2] == Pad && v[3] == Pad then Some([Join(v[0], v[1], 2)])
    else if v[2] == Pad then None
    else if |v| == 4 && v[3] == Pad then Some([Join(v[0], v[1], 2), Join(v[1], v[2], 4)])
    else if v[3] == Pad then None
    else
      match Unsextets(v[4..])
      case None => None
      case Some(rest) => Some([Join(v[0], v[1], 2), Join(v[1], v[2], 4), Join(v[2], v[3], 6)] + rest)
  }

  /** Section 4 of RFC 4648 read backwards. */
  function Decode(s: string): (r: Option<seq<byte>>)
    ensures (exists i :: 0 <= i < |s| && !IsBase64Char(s[i])) ==> r.None?
  {
    match Read(s)
    case None => None
    case Some(v) => Unsextets(v)
  }

  /** A value's character reads back as that value. */
  lemma SymbolRoundTrip(n: int)
    requires 0 <= n <= Pad
    ensures SymbolValue(Symbol(n)) == Some(n)
  {
  }

  /** Spelled values read back as those values. */
  lemma {:induction false} ReadSpelled(v: seq<int>)
    requires AreSextets(v)
    ensures Read(Spell(v)) == Some(v)
  {
    if v != [] {
      var s := Spell(v);
      ReadSpelled(v[1..]);
      SymbolRoundTrip(v[0]);
      assert s[1..] == Spell(v[1..]);
      assert [v[0]] + v[1..] == v;
    }
  }

  /** The three bytes of a full group come back from its four values. */
  lemma JoinThree(x: byte, y: byte, z: byte)
    ensures var a, b, c, d := x as int / 4, (x as int % 4) * 16 + y as int / 16,
      (y as int % 16) * 4 + z as int / 64, z as int % 64;
      0 <= a < 64 && 0 <= b < 64 && 0 <= c < 64 && 0 <= d < 64 &&
      Join(a, b, 2) == x && Join(b, c, 4) == y && Join(c, d, 6) == z
  {
  }

  /** The first group of a byte string's values, and the values of the rest. */
  lemma LeadSextets(b: seq<byte>) returns (q: seq<int>)
    requires |b| >= 3
    ensures Sextets(b) == q + Sextets(b[3..])
    ensures |q| == 4 && AreSextets(q) && q[0] < Pad && q[1] < Pad && q[2] < Pad && q[3] < Pad
    ensures Join(q[0], q[1], 2) == b[0] && Join(q[1], q[2], 4) == b[1] && Join(q[2], q[3], 6) == b[2]
  {
    var x, y, z := b[0] as int, b[1] as int, b[2] as int;
    q := [x / 4, (x % 4) * 16 + y / 16, (y % 16) * 4 + z / 64, z % 64];
    JoinThree(b[0], b[1], b[2]);
  }

  /** A full group in front gives its three bytes, then those of the rest. */
  lemma UnsextetsGroupThen(q: seq<int>, rest: seq<int>, tail: seq<byte>)
    requires |q| == 4 && AreSextets(q) && AreSextets(rest)
    requires q[0] != Pad && q[1] != Pad && q[2] != Pad && q[3] != Pad
    requires Unsextets(rest) == Some(tail)
    ensures AreSextets(q + rest)
    ensures Unsextets(q + rest) == Some([Join(q[0], q[1], 2), Join(q[1], q[2], 4), Join(q[2], q[3], 6)] + tail)
  {
    Text.AppendSplitsAt(q, rest);
    var v := q + rest;
    assert v[0] == q[0] && v[1] == q[1] && v[2] == q[2] && v[3] == q[3];
    assert v[4..] == rest;
  }

  /** The three bytes in front, then the rest. */
  lemma ThreeThen(b: seq<byte>)
    requires |b| >= 3
    ensures [b[0], b[1], b[2]] + b[3..] == b
  {
  }

  /** The values of one byte give it back. */
  lemma UnsextetsOne(b: seq<byte>)
    requires |b| == 1
    ensures Unsextets(Sextets(b)) == Some(b)
  {
    var x := b[0] as int;
    assert Sextets(b) == [x / 4, (x % 4) * 16, Pad, Pad];
    JoinThree(b[0], 0, 0);
    assert [b[0]] == b;
  }

  /** The values of two bytes: two that carry the first byte and the high
      half of the second, one that carries its low half, and a pad. */
  lemma SextetsTwo(b: seq<byte>) returns (v: seq<int>)
    requires |b| == 2
    ensures Sextets(b) == v && |v| == 4 && AreSextets(v)
    ensures v[0] < Pad && v[1] < Pad && v[2] < Pad && v[3] == Pad
    ensures Join(v[0], v[1], 2) == b[0] && Join(v[1], v[2], 4) == b[1]
  {
    var x, y := b[0] as int, b[1] as int;
    v := [x / 4, (x % 4) * 16 + y / 16, (y % 16) * 4, Pad];
    JoinThree(b[0], b[1], 0);
  }

  /** The values of two bytes give them back. */
  lemma UnsextetsTwo(b: seq<byte>)
    requires |b| == 2
    ensures Unsextets(Sextets(b)) == Some(b)
  {
    var v := SextetsTwo(b);
    Text.PairIs(b);
  }

  /** The values of a byte string give the bytes back. */
  lemma {:induction false} UnsextetsSextets(b: seq<byte>)
    ensures Unsextets(Sextets(b)) == Some(b)
    decreases |b|
  {
    if |b| >= 3 {
      var q := LeadSextets(b);
      UnsextetsSextets(b[3..]);
      UnsextetsGroupThen(q, Sextets(b[3..]), b[3..]);
      ThreeThen(b);
    } else if |b| == 2 {
      UnsextetsTwo(b);
    } else if |b| == 1 {
      UnsextetsOne(b);
    }
  }

  /** Decoding an encoding gives the bytes back. */
  lemma DecodeEncoded(b: seq<byte>)
    ensures Decode(Encode(b)) == Some(b)
  {
    ReadSpelled(Sextets(b));
    UnsextetsSextets(b);
  }

  /** An encoding of a non-empty input is a single whitespace-free ASCII token
      under both tokenizers. */
  lemma EncodedIsToken(b: seq<byte>)
    requires |b| > 0
    ensures Text.IsWord(Text.Python, Encode(b)) && Text.IsWord(Text.Rust, Encode(b))
    ensures Text.IsAscii(Encode(b))
  {
  }
}

=== FILE: clock.dfy ===
/**
 * Wall-clock readings. Python's `time.time()` is a float of seconds; the
 * model keeps it as a `real`, and `int(...)` on it truncates toward zero.
 */
module Clock {

  /** Python's `int(x)` on a float: the integer part, rounding toward zero. */
  function Trunc(x: real): (i: int)
    ensures x >= 0.0 ==> i as real <= x < i as real + 1.0
    ensures x < 0.0 ==> i as real - 1.0 < x <= i as real
  {
    if x >= 0.0 then x.Floor else -((-x).Floor)
  }

  /** Truncating a whole number of seconds gives it back. */
  lemma TruncWhole(i: int)
    ensures Trunc(i as real) == i
  {
  }
}

=== FILE: mcp_auth.dfy ===
/**
 * The MCP gateway's connection handshake (mcp-gateway/gateway/auth_handler.py):
 * a line `HMAC <signature> <timestamp>` whose signature is the base 64
 * encoding of HMAC-SHA256 (RFC 2104) of the timestamp text under the shared
 * secret, accepted within 60 seconds of the server's clock. HMAC is a
 * parameter; base 64 is the encoder of section 4 of RFC 4648.
 */
module McpAuth {
  import opened Wrappers
  import Text
  import Base64
  import Clock

  const MaxSkewSeconds: real := 60.0
  const Scheme: string := "HMAC "

  /** A SHA-256 digest. */
  type Digest = s: seq<byte> | |s| == 32 witness seq(32, i => 0 as byte)

  /** HMAC-SHA256 of a message under a key. */
  type Mac = (seq<byte>, seq<byte>) -> Digest

  datatype Handler = Handler(secretKey: string)

  /** `MCPAuthHandler(secret_key)`: the argument unless it is missing or
      empty, else the `MCP_SECRET_KEY` variable; RuntimeError when neither
      gives a non-empty key. */
  function New(argument: Option<string>, environment: Option<string>): (r: Result<Handler, string>)
    ensures r.Err? <==> (argument.None? || argument.value == "") && (environment.None? || environment.value == "")
    ensures r.Err? ==> r.error == "MCP_SECRET_KEY not set!"
    ensures r.Ok? ==> r.value.secretKey != ""
    ensures argument.Some? && argument.value != "" ==> r == Ok(Handler(argument.value))
  {
    var key := if argument.Some? && argument.value != "" then argument else environment;
    if key.None? || key.value == "" then Err("MCP_SECRET_KEY not set!") else Ok(Handler(key.value))
  }

  /** The signature the server expects for a timestamp token: computed over
      the token's bytes exactly as sent. A 32-byte digest in Base64 is 44
      ASCII characters with no whitespace, so comparing against it raises
      only for a non-ASCII candidate. */
  function Expected(h: Handler, hmac: Mac, timestamp: string): (sig: string)
    ensures |sig| == 44
    ensures Text.IsAscii(sig)
    ensures Text.IsWord(Text.Python, sig)
  {
    var digest := hmac(Text.Utf8(h.secretKey), Text.Utf8(timestamp));
    DigestText(digest);
    Base64.Encode(digest)
  }

  lemma DigestText(digest: Digest)
    ensures |Base64.Encode(digest)| == 44
    ensures Text.IsAscii(Base64.Encode(digest))
    ensures Text.IsWord(Text.Python, Base64.Encode(digest))
  {
    Base64.EncodedIsToken(digest);
  }

  /** Why a handshake was accepted or refused (the warning the source logs). */
  datatype AuthOutcome =
    | Accepted
    | Undecodable      // the bytes are not UTF-8
    | InvalidFormat    // no "HMAC " prefix
    | InvalidParts     // not exactly three tokens
    | NotANumber       // int(timestamp) raises
    | Expired          // more than 60 seconds away
    | NonAscii         // compare_digest raises on a non-ASCII signature
    | Mismatch

  /** `hmac.compare_digest` on two strings: TypeError unless both are ASCII, else equality. */
  function CompareDigest(a: string, b: string): (r: Option<bool>)
    ensures r.None? <==> !Text.IsAscii(a) || !Text.IsAscii(b)
    ensures r.Some? ==> (r.value <==> a == b)
  {
    if !Text.IsAscii(a) || !Text.IsAscii(b) then None else Some(a == b)
  }

  /** `authenticate(auth_data)`. `data` is the received line decoded, or
      `None` when it is not UTF-8; `now` is the server's clock. Every exception
      is turned into a refusal. */
  function Check(h: Handler, data: Option<string>, now: real, hmac: Mac): (r: AuthOutcome)
    ensures r == Accepted <==>
      && data.Some?
      && var s := Text.Strip(Text.Python, data.value);
         var parts := Text.Split(Text.Python, s);
         && Scheme <= s
         && |parts| == 3
         && Text.ParseInt(parts[2]).Some?
         && -MaxSkewSeconds <= now - Text.ParseInt(parts[2]).value as real <= MaxSkewSeconds
         && parts[1] == Expected(h, hmac, parts[2])
  {
    if data.None? then Undecodable
    else CheckLine(h, Text.Strip(Text.Python, data.value), now, hmac)
  }

  /** The checks on the stripped line: the scheme prefix, then its words. */
  function CheckLine(h: Handler, s: string, now: real, hmac: Mac): (r: AuthOutcome)
    ensures !(Scheme <= s) ==> r == InvalidFormat
    ensures Scheme <= s ==> r == CheckParts(h, Text.Split(Text.Python, s), now, hmac)
  {
    if !(Scheme <= s) then InvalidFormat
    else CheckParts(h, Text.Split(Text.Python, s), now, hmac)
  }

  /** The checks on the words of the line: their number, the timestamp, the
      window and the signature, in that order. */
  function CheckParts(h: Handler, parts: seq<string>, now: real, hmac: Mac): (r: AuthOutcome)
    ensures r == Accepted <==>
      && |parts| == 3
      && Text.ParseInt(parts[2]).Some?
      && -MaxSkewSeconds <= now - Text.ParseInt(parts[2]).value as real <= MaxSkewSeconds
      && parts[1] == Expected(h, hmac, parts[2])
    ensures |parts| != 3 ==> r == InvalidParts
  {
    if |parts| != 3 then InvalidParts
    else
      match Text.ParseInt(parts[2])
      case None => NotANumber
      case Some(ts) =>
        var skew := now - ts as real;
        if skew > MaxSkewSeconds || -skew > MaxSkewSeconds then Expired
        else
          match CompareDigest(parts[1], Expected(h, hmac, parts[2]))
          case None => NonAscii
          case Some(equal) => if equal then Accepted else Mismatch
  }

  function Authenticate(h: Handler, data: Option<string>, now: real, hmac: Mac): (ok: bool)
    ensures ok <==> Check(h, data, now, hmac) == Accepted
  {
    Check(h, data, now, hmac) == Accepted
  }

  /** `generate_auth_header()`: the current second, signed. The header is
      already stripped, starts with the scheme, and splits into exactly the
      scheme word, the expected signature and the timestamp. */
  function GenerateAuthHeader(h: Handler, now: real, hmac: Mac): (header: string)
    ensures var ts := Text.IntToString(Clock.Trunc(now));
      && Scheme <= header
      && Text.Strip(Text.Python, header) == header
      && Text.Split(Text.Python, header) == ["HMAC", Expected(h, hmac, ts), ts]
  {
    var ts := Text.IntToString(Clock.Trunc(now));
    var sig := Expected(h, hmac, ts);
    Base64.EncodedIsToken(hmac(Text.Utf8(h.secretKey), Text.Utf8(ts)));
    var header := Scheme + sig + " " + ts;
    SignedLine(sig, ts);
    header
  }

  /** A line `HMAC <sig> <ts>` of two whitespace-free tokens is its own
      strip and splits into those three words. */
  lemma SignedLine(sig: string, ts: string)
    requires Text.IsWord(Text.Python, sig) && Text.IsWord(Text.Python, ts)
    ensures var line := Scheme + sig + " " + ts;
      && Scheme <= line
      && Text.Strip(Text.Python, line) == line
      && Text.Split(Text.Python, line) == ["HMAC", sig, ts]
  {
    SignedLineWords(sig, ts);
    SignedLineStrip(sig, ts);
  }

  lemma SignedLineWords(sig: string, ts: string)
    requires Text.IsWord(Text.Python, sig) && Text.IsWord(Text.Python, ts)
    ensures Text.Split(Text.Python, Scheme + sig + " " + ts) == ["HMAC", sig, ts]
  {
    assert Text.IsWord(Text.Python, "HMAC");
    assert Scheme + sig + " " + ts == "HMAC" + " " + sig + " " + ts;
    Text.SplitThreeWords(Text.Python, "HMAC", sig, ts);
  }

  lemma SignedLineStrip(sig: string, ts: string)
    requires Text.IsWord(Text.Python, ts)
    ensures Scheme <= Scheme + sig + " " + ts
    ensures Text.Strip(Text.Python, Scheme + sig + " " + ts) == Scheme + sig + " " + ts
  {
    var line := Scheme + sig + " " + ts;
    assert line[0] == 'H';
    assert line[|line| - 1] == ts[|ts| - 1];
    Text.StripUnchanged(Text.Python, line);
  }

  /** A header generated at time `t` and sent as a line is accepted by the
      same key exactly when the server's clock is within 60 seconds of the
      whole second it carries. The clock is a float, so that second has far
      fewer digits than `int()` converts. */
  lemma HeaderRoundTrip(h: Handler, t: real, now: real, hmac: Mac)
    requires Text.WithinDigitLimit(Clock.Trunc(t))
    ensures Authenticate(h, Some(GenerateAuthHeader(h, t, hmac) + "\n"), now, hmac)
        <==> -MaxSkewSeconds <= now - Clock.Trunc(t) as real <= MaxSkewSeconds
  {
    var ts := Text.IntToString(Clock.Trunc(t));
    var sig := Expected(h, hmac, ts);
    Base64.EncodedIsToken(hmac(Text.Utf8(h.secretKey), Text.Utf8(ts)));
    assert GenerateAuthHeader(h, t, hmac) == Scheme + sig + " " + ts;
    Text.ParsePrinted(Clock.Trunc(t));
    SignedLineCheck(h, sig, ts, now, hmac);
  }

  /** A signed line, terminator included, is accepted exactly when its
      timestamp is a number within the window and its signature is the
      expected one. */
  lemma SignedLineCheck(h: Handler, sig: string, ts: string, now: real, hmac: Mac)
    requires Text.IsWord(Text.Python, sig) && Text.IsWord(Text.Python, ts)
    ensures Check(h, Some(Scheme + sig + " " + ts + "\n"), now, hmac) == Accepted
        <==> && Text.ParseInt(ts).Some?
             && -MaxSkewSeconds <= now - Text.ParseInt(ts).value as real <= MaxSkewSeconds
             && sig == Expected(h, hmac, ts)
  {
    var header := Scheme + sig + " " + ts;
    SignedLine(sig, ts);
    LineStrip(header, sig, ts);
    CheckOfThreeWords(h, header + "\n", header, "HMAC", sig, ts, now, hmac);
  }

  /** A line that strips to a text with the scheme prefix and three words is
      judged on its timestamp and signature alone. */
  lemma CheckOfThreeWords(h: Handler, data: string, s: string, scheme: string, sig: string, ts: string, now: real, hmac: Mac)
    requires Text.Strip(Text.Python, data) == s && Scheme <= s
    requires Text.Split(Text.Python, s) == [scheme, sig, ts]
    ensures Check(h, Some(data), now, hmac) == Accepted
        <==> && Text.ParseInt(ts).Some?
             && -MaxSkewSeconds <= now - Text.ParseInt(ts).value as real <= MaxSkewSeconds
             && sig == Expected(h, hmac, ts)
  {
    assert CheckLine(h, s, now, hmac) == CheckParts(h, [scheme, sig, ts], now, hmac);
  }

  /** The received line, terminator included, strips to the header. */
  lemma LineStrip(header: string, sig: string, ts: string)
    requires ts != [] && Text.NoSpace(Text.Python, ts)
    requires header == Scheme + sig + " " + ts
    ensures Text.Strip(Text.Python, header + "\n") == header
  {
    assert header[0] == 'H';
    assert header[|header| - 1] == ts[|ts| - 1];
    Text.StripLine(Text.Python, header, '\n');
    assert header + "\n" == header + ['\n'];
  }

  /** A skew of exactly 60 seconds is still accepted; 61 is not. */
  lemma SkewBoundary(h: Handler, seconds: int, hmac: Mac)
    requires Text.WithinDigitLimit(seconds)
    ensures Authenticate(h, Some(GenerateAuthHeader(h, seconds as real, hmac) + "\n"), seconds as real + 60.0, hmac)
    ensures !Authenticate(h, Some(GenerateAuthHeader(h, seconds as real, hmac) + "\n"), seconds as real + 61.0, hmac)
    ensures Authenticate(h, Some(GenerateAuthHeader(h, seconds as real, hmac) + "\n"), seconds as real - 60.0, hmac)
  {
    Clock.TruncWhole(seconds);
    HeaderRoundTrip(h, seconds as real, seconds as real + 60.0, hmac);
    HeaderRoundTrip(h, seconds as real, seconds as real + 61.0, hmac);
    HeaderRoundTrip(h, seconds as real, seconds as real - 60.0, hmac);
  }

  /** A timestamp of more digits than `int()` converts is refused, even when
      it is correctly signed and denotes the current second. */
  lemma OverlongTimestampRefused(h: Handler, sig: string, ts: string, now: real, hmac: Mac)
    requires Text.IsWord(Text.Python, sig)
    requires ts != [] && Text.AllDigits(ts) && |ts| > Text.MaxStrDigits
    ensures Check(h, Some(Scheme + sig + " " + ts + "\n"), now, hmac) != Accepted
  {
    assert Text.IsWord(Text.Python, ts);
    Text.DigitsAreNumeral(ts);
    assert ts[0] != '+' && ts[0] != '-';
    SignedLineCheck(h, sig, ts, now, hmac);
  }

  /** Any signature other than the expected one is refused, whatever the timing. */
  lemma ForgedSignatureRefused(h: Handler, sig: string, ts: string, now: real, hmac: Mac)
    requires Text.IsWord(Text.Python, sig) && Text.IsWord(Text.Python, ts)
    requires sig != Expected(h, hmac, ts)
    ensures !Authenticate(h, Some(Scheme + sig + " " + ts), now, hmac)
  {
    SignedLine(sig, ts);
  }
}

=== FILE: mcp_server.dfy ===
/**
 * The MCP gateway's line protocol (mcp-gateway/gateway/server.py): a tool
 * registry discovered on disk, a connection that must authenticate before
 * any command is read, and a dispatcher for LIST_TOOLS, LOAD, EXECUTE and
 * STATUS. Replies that the source serialises as JSON are kept as structured
 * values; whether a text is valid JSON is a parameter.
 */
module McpServer {
  import opened Wrappers
  import Text
  import McpAuth

  const Available: string := "available"
  const Ready: string := "ready"
  const ToolFile: string := "tool.py"

  /** A registry entry: where the tool lives, its status and whether it is loaded. */
  datatype Tool = Tool(path: string, status: string, loaded: bool)

  type Registry = map<string, Tool>

  /** A file found under the tools directory: its path, the name of its
      directory and its own name. */
  datatype FoundFile = FoundFile(path: string, parentName: string, name: string)

  /** Every registry entry is either freshly registered or loaded. */
  predicate RegistryWellFormed(tools: Registry) {
    forall n :: n in tools ==>
      (tools[n].status == Available && !tools[n].loaded) || (tools[n].status == Ready && tools[n].loaded)
  }

  /** `_load_tools`: each `tool.py` registers its directory's name as an
      available, unloaded tool; a later file with the same directory name
      replaces an earlier one. A missing tools directory gives an empty registry. */
  function LoadTools(dirExists: bool, files: seq<FoundFile>): (tools: Registry)
    ensures forall n :: n in tools <==> dirExists && exists i :: 0 <= i < |files| && files[i].name == ToolFile && files[i].parentName == n
    ensures forall n :: n in tools ==> tools[n].status == Available && !tools[n].loaded
    ensures RegistryWellFormed(tools)
  {
    if !dirExists || files == [] then map[]
    else
      var earlier := LoadTools(dirExists, files[..|files| - 1]);
      var last := files[|files| - 1];
      assert forall i :: 0 <= i < |files| - 1 ==> files[..|files| - 1][i] == files[i];
      if last.name == ToolFile then earlier[last.parentName := Tool(last.path, Available, false)] else earlier
  }

  /** A later `tool.py` in the same-named directory wins. */
  lemma LastRegistrationWins(files: seq<FoundFile>, f: FoundFile)
    requires f.name == ToolFile
    ensures LoadTools(true, files + [f])[f.parentName] == Tool(f.path, Available, false)
  {
    assert (files + [f])[..|files|] == files;
  }

  /** A command line, classified by its whitespace-separated words. */
  datatype Command =
    | Empty
    | ListTools
    | Load(name: string)
    | Execute(name: string, args: string)
    | Status
    | Unknown(word: string)

  /** The dispatch of `_process_command`: the first word upper-cased picks the
      command; LOAD needs exactly one argument, EXECUTE at least two words
      after it (the rest, re-joined, is its JSON argument); LIST_TOOLS and
      STATUS ignore extra words. */
  function Classify(parts: seq<string>): (c: Command)
    ensures c.Empty? <==> parts == []
    ensures parts != [] ==> var cmd := Text.Upper(parts[0]);
      && (c.ListTools? <==> cmd == "LIST_TOOLS")
      && (c.Load? <==> cmd == "LOAD" && |parts| == 2)
      && (c.Execute? <==> cmd == "EXECUTE" && |parts| >= 3)
      && (c.Status? <==> cmd == "STATUS")
      && (c.Unknown? ==> c.word == cmd)
    ensures c.Load? ==> c.name == parts[1]
    ensures c.Execute? ==> c.name == parts[1] && c.args == Text.Join(parts[2..], " ")
  {
    if parts == [] then Empty
    else
      var cmd := Text.Upper(parts[0]);
      if cmd == "LIST_TOOLS" then ListTools
      else if cmd == "LOAD" && |parts| == 2 then Load(parts[1])
      else if cmd == "EXECUTE" && |parts| >= 3 then Execute(parts[1], Text.Join(parts[2..], " "))
      else if cmd == "STATUS" then Status
      else Unknown(cmd)
  }

  /** Only the upper-cased first word and the remaining words matter. */
  lemma ClassifySameWords(a: seq<string>, b: seq<string>)
    requires |a| == |b| > 0 && Text.Upper(a[0]) == Text.Upper(b[0]) && a[1..] == b[1..]
    ensures Classify(a) == Classify(b)
  {
    if |a| >= 2 {
      assert a[1] == a[1..][0] == b[1..][0] == b[1];
    }
    if |a| >= 3 {
      assert a[2..] == a[1..][1..] == b[1..][1..] == b[2..];
    }
  }

  /** The words that name a command. */
  predicate IsCommandWord(cmd: string) {
    cmd == "LIST_TOOLS" || cmd == "LOAD" || cmd == "EXECUTE" || cmd == "STATUS"
  }

  /** A word holding a non-ASCII character or a K is no command word. */
  lemma NotCommandWord(cmd: string, j: int)
    requires 0 <= j < |cmd| && (cmd[j] as int >= 128 || cmd[j] == 'K')
    ensures !IsCommandWord(cmd)
  {
  }

  /** No command word holds two S in a row. */
  lemma NoDoubleS(cmd: string, j: int)
    requires 0 <= j < |cmd| - 1 && cmd[j] == 'S' && cmd[j + 1] == 'S'
    ensures !IsCommandWord(cmd)
  {
  }

  /** A first word that upper-cases to no command word is an unknown command. */
  lemma ClassifyUnknown(parts: seq<string>)
    requires parts != [] && !IsCommandWord(Text.Upper(parts[0]))
    ensures Classify(parts).Unknown?
  {
  }

  /** Two classifications that run the same command: at most the word an
      unknown command echoes differs. */
  predicate SameCommand(a: Command, b: Command) {
    a == b || (a.Unknown? && b.Unknown?)
  }

  /** Upper-casing the command word changes nothing. Lower-casing it never
      changes which command runs, and changes nothing at all unless the word
      holds the capital I with dot above, the Kelvin sign or the capital
      sharp s, whose lower cases upper-case to other characters than they do
      themselves. */
  lemma CommandWordIgnoresCase(word: string, rest: seq<string>)
    ensures Classify([Text.Upper(word)] + rest) == Classify([word] + rest)
    ensures SameCommand(Classify([Text.Lower(word)] + rest), Classify([word] + rest))
    ensures (forall i :: 0 <= i < |word| ==> !Text.CaseDoesNotCommute(word[i])) ==>
      Classify([Text.Lower(word)] + rest) == Classify([word] + rest)
  {
    Text.UpperIdempotent(word);
    ClassifySameWords([Text.Upper(word)] + rest, [word] + rest);
    if forall i :: 0 <= i < |word| ==> !Text.CaseDoesNotCommute(word[i]) {
      Text.UpperOfLower(word);
      ClassifySameWords([Text.Lower(word)] + rest, [word] + rest);
    } else {
      var i :| 0 <= i < |word| && Text.CaseDoesNotCommute(word[i]);
      NeitherIsCommand(word, i);
      ClassifyUnknown([Text.Lower(word)] + rest);
      ClassifyUnknown([word] + rest);
    }
  }

  /** Python upper-cases the long s to S, so "ſtatus" runs STATUS. */
  lemma LongSRunsStatus(rest: seq<string>)
    ensures Classify(["\U{17f}tatus"] + rest) == Status
  {
    var t := "\U{17f}tatus";
    assert ([t] + rest)[0] == t;
    Text.LongSUpper();
  }

  /** A word holding one of those three characters names no command,
      lower-cased first or not. */
  lemma NeitherIsCommand(word: string, i: int)
    requires 0 <= i < |word| && Text.CaseDoesNotCommute(word[i])
    ensures !IsCommandWord(Text.Upper(word)) && !IsCommandWord(Text.Upper(Text.Lower(word)))
  {
    KeptByUpper(word[i]);
    Text.UpperAtIndex(word, i);
    NotCommandWord(Text.Upper(word), |Text.Upper(word[..i])|);
    LowerNotCommand(word, i);
  }

  lemma KeptByUpper(c: char)
    requires Text.CaseDoesNotCommute(c) || c == '\U{307}'
    ensures Text.UpperChar(c) == [c] && c as int >= 128
  {
  }

  lemma LowerNotCommand(word: string, i: int)
    requires 0 <= i < |word| && Text.CaseDoesNotCommute(word[i])
    ensures !IsCommandWord(Text.Upper(Text.Lower(word)))
  {
    Text.LowerAt(word, i);
    LoweredNotCommand(Text.Lower(word[..i]), Text.LowerChar(word[i]), Text.Lower(word[i + 1..]));
  }

  /** A text holding the lower case of one of the three characters
      upper-cases to no command word. */
  lemma LoweredNotCommand(before: string, piece: string, after: string)
    requires piece == "k" || piece == "i\U{307}" || piece == "\U{df}"
    ensures !IsCommandWord(Text.Upper(before + (piece + after)))
  {
    var l := before + (piece + after);
    var j := |before|;
    assert l[j] == piece[0];
    if piece == "k" {
      UpperOfK(l, j);
    } else if piece == "\U{df}" {
      UpperOfSharpS(l, j);
    } else {
      assert l[j + 1] == piece[1];
      UpperOfDot(l, j + 1);
    }
  }

  lemma UpperOfK(l: string, j: int)
    requires 0 <= j < |l| && l[j] == 'k'
    ensures !IsCommandWord(Text.Upper(l))
  {
    Text.UpperAtIndex(l, j);
    NotCommandWord(Text.Upper(l), |Text.Upper(l[..j])|);
  }

  lemma UpperOfDot(l: string, j: int)
    requires 0 <= j < |l| && l[j] == '\U{307}'
    ensures !IsCommandWord(Text.Upper(l))
  {
    KeptByUpper(l[j]);
    Text.UpperAtIndex(l, j);
    NotCommandWord(Text.Upper(l), |Text.Upper(l[..j])|);
  }

  lemma UpperOfSharpS(l: string, j: int)
    requires 0 <= j < |l| && l[j] == '\U{df}'
    ensures !IsCommandWord(Text.Upper(l))
  {
    Text.UpperAt(l, j);
    var k := |Text.Upper(l[..j])|;
    assert Text.UpperChar(l[j]) == "SS";
    assert Text.Upper(l)[k] == 'S' && Text.Upper(l)[k + 1] == 'S';
    NoDoubleS(Text.Upper(l), k);
  }

  /** What the server writes back for one command. */
  datatype Reply =
    | Line(text: string)
    | ToolList(names: set<string>, count: nat)
    | StatusReport(connections: nat, tools: map<string, (string, bool)>)
    | Executed(tool: string, args: string)

  /** `_load_tool(name)`: an unknown name is refused and changes nothing; a
      known tool becomes loaded and ready. */
  function LoadTool(tools: Registry, name: string): (r: (Registry, Reply))
    ensures name !in tools <==> r.1 == Line("ERR: Tool " + name + " not found")
    ensures name !in tools ==> r.0 == tools
    ensures name in tools ==> r.0 == tools[name := tools[name].(loaded := true, status := Ready)]
    ensures name in tools ==> r.1 == Line("OK: Tool " + name + " loaded")
    ensures r.0.Keys == tools.Keys
    ensures RegistryWellFormed(tools) ==> RegistryWellFormed(r.0)
  {
    if name !in tools then (tools, Line("ERR: Tool " + name + " not found"))
    else
      assert ("OK: Tool " + name + " loaded")[0] != ("ERR: Tool " + name + " not found")[0];
      (tools[name := tools[name].(loaded := true, status := Ready)], Line("OK: Tool " + name + " loaded"))
  }

  /** Loading twice is the same as loading once, and gives the same reply. */
  lemma LoadIdempotent(tools: Registry, name: string)
    ensures LoadTool(LoadTool(tools, name).0, name) == LoadTool(tools, name)
  {
    if name in tools {
      var once := LoadTool(tools, name).0;
      assert once[name].(loaded := true, status := Ready) == once[name];
      assert once[name := once[name]] == once;
    }
  }

  /** `_execute_tool(name, args)`: unknown and unloaded tools are refused;
      a loaded tool reports success. The registry is never changed. */
  function ExecuteTool(tools: Registry, name: string, args: string): (reply: Reply)
    ensures name !in tools ==> reply == Line("ERR: Tool " + name + " not found")
    ensures name in tools && !tools[name].loaded ==> reply == Line("ERR: Tool " + name + " not loaded")
    ensures reply.Executed? <==> name in tools && tools[name].loaded
    ensures reply.Executed? ==> reply.tool == name && reply.args == args
  {
    if name !in tools then Line("ERR: Tool " + name + " not found")
    else if !tools[name].loaded then Line("ERR: Tool " + name + " not loaded")
    else Executed(name, args)
  }

  /** The STATUS table: each registered tool's status and loaded flag. */
  function StatusTable(tools: Registry): (table: map<string, (string, bool)>)
    ensures table.Keys == tools.Keys
    ensures forall n :: n in table ==> table[n] == (tools[n].status, tools[n].loaded)
  {
    map n | n in tools :: (tools[n].status, tools[n].loaded)
  }

  /** The command a (stripped) line carries. */
  function CommandOf(command: string): Command {
    Classify(Text.Split(Text.Python, command))
  }

  /** `_process_command(command)`. `isJson` says whether `json.loads` accepts a
      text; when it raises, the exception ends the connection (`None`). The
      registry is returned with the reply; only LOAD changes it. */
  function ProcessCommand(tools: Registry, command: string, isJson: string -> bool): (r: (Registry, Option<Reply>))
    ensures CommandOf(command).Empty? ==> r.1 == Some(Line("ERR: Empty command"))
    ensures CommandOf(command).ListTools? ==> r.1 == Some(ToolList(tools.Keys, |tools|))
    ensures CommandOf(command).Status? ==> r.1 == Some(StatusReport(0, StatusTable(tools)))
    ensures CommandOf(command).Unknown? ==> r.1 == Some(Line("ERR: Unknown command " + CommandOf(command).word))
    ensures CommandOf(command).Load? ==>
      var (tools', reply) := LoadTool(tools, CommandOf(command).name);
      r == (tools', Some(reply))
    ensures CommandOf(command).Execute? && isJson(CommandOf(command).args) ==>
      r == (tools, Some(ExecuteTool(tools, CommandOf(command).name, CommandOf(command).args)))
    ensures r.1.None? <==> CommandOf(command).Execute? && !isJson(CommandOf(command).args)
    ensures !CommandOf(command).Load? ==> r.0 == tools
    ensures r.0.Keys == tools.Keys
    ensures RegistryWellFormed(tools) ==> RegistryWellFormed(r.0)
  {
    match CommandOf(command)
    case Empty => (tools, Some(Line("ERR: Empty command")))
    case ListTools => (tools, Some(ToolList(tools.Keys, |tools|)))
    case Load(name) =>
      var (tools', reply) := LoadTool(tools, name);
      (tools', Some(reply))
    case Execute(name, args) =>
      if !isJson(args) then (tools, None) else (tools, Some(ExecuteTool(tools, name, args)))
    case Status =>
      (tools, Some(StatusReport(0, StatusTable(tools))))
    case Unknown(word) => (tools, Some(Line("ERR: Unknown command " + word)))
  }

  /** The count LIST_TOOLS reports is the number of names it lists. */
  lemma ListCountMatches(tools: Registry, command: string, isJson: string -> bool)
    requires CommandOf(command).ListTools?
    ensures var reply := ProcessCommand(tools, command, isJson).1.value;
      reply.count == |reply.names|
  {
    var r := ProcessCommand(tools, command, isJson);
    assert r.1 == Some(ToolList(tools.Keys, |tools|));
    assert |tools.Keys| == |tools|;
  }

  /** Once loaded, a tool stays loaded whatever command comes next. */
  lemma LoadedStaysLoaded(tools: Registry, command: string, isJson: string -> bool, name: string)
    requires name in tools && tools[name].loaded
    ensures var tools' := ProcessCommand(tools, command, isJson).0;
      name in tools' && tools'[name].loaded
  {
  }

  /** The commands of one connection after authentication, in order; a line
      that is not UTF-8 (`None`) or a command that raises ends it. `lines`
      holds the lines read before a read raises, which happens when the
      connection ends before a newline or a line outgrows the 64 KiB limit
      of the stream reader: the end of `lines` ends the connection. */
  function RunCommands(tools: Registry, lines: seq<Option<string>>, isJson: string -> bool): (r: (Registry, seq<Reply>))
    ensures |r.1| <= |lines|
    ensures r.0.Keys == tools.Keys
    ensures RegistryWellFormed(tools) ==> RegistryWellFormed(r.0)
    ensures lines == [] || lines[0].None? ==> r == (tools, [])
    ensures lines != [] && lines[0].Some? ==>
      var (tools', reply) := ProcessCommand(tools, Text.Strip(Text.Python, lines[0].value), isJson);
      && (reply.None? ==> r == (tools', []))
      && (reply.Some? ==> |r.1| >= 1 && r.1[0] == reply.value)
  {
    if lines == [] || lines[0].None? then (tools, [])
    else
      var (tools', reply) := ProcessCommand(tools, Text.Strip(Text.Python, lines[0].value), isJson);
      if reply.None? then (tools', [])
      else
        var (tools'', rest) := RunCommands(tools', lines[1..], isJson);
        (tools'', [reply.value] + rest)
  }

  /** A connection's lines run as one batch and then the next, as long as
      every line of the first batch was read and answered. */
  lemma {:induction false} RunCommandsAppend(tools: Registry, l1: seq<Option<string>>, l2: seq<Option<string>>, isJson: string -> bool)
    requires |RunCommands(tools, l1, isJson).1| == |l1|
    ensures var first := RunCommands(tools, l1, isJson);
      var second := RunCommands(first.0, l2, isJson);
      RunCommands(tools, l1 + l2, isJson) == (second.0, first.1 + second.1)
    decreases |l1|
  {
    if l1 == [] {
      assert l1 + l2 == l2;
      assert RunCommands(tools, l1, isJson) == (tools, []);
      assert [] + RunCommands(tools, l2, isJson).1 == RunCommands(tools, l2, isJson).1;
    } else {
      assert l1[0].Some?;
      var p := ProcessCommand(tools, Text.Strip(Text.Python, l1[0].value), isJson);
      assert p.1.Some?;
      var x := p.1.value;
      var rest := RunCommands(p.0, l1[1..], isJson);
      var mid := rest.0;
      var second := RunCommands(mid, l2, isJson);
      assert RunCommands(tools, l1, isJson) == (mid, [x] + rest.1) by {
        RunCommandsStep(tools, l1, isJson);
      }
      assert RunCommands(p.0, l1[1..] + l2, isJson) == (second.0, rest.1 + second.1) by {
        RunCommandsStep(tools, l1, isJson);
        RunCommandsAppend(p.0, l1[1..], l2, isJson);
      }
      assert RunCommands(tools, l1 + l2, isJson) == (second.0, [x] + (rest.1 + second.1)) by {
        Text.AppendSplits(l1, l2);
        RunCommandsStep(tools, l1 + l2, isJson);
      }
      Text.AppendAssociates([x], rest.1, second.1);
    }
  }

  /** A line that is read and answered: its reply, then the rest of the connection. */
  lemma RunCommandsStep(tools: Registry, lines: seq<Option<string>>, isJson: string -> bool)
    requires lines != [] && lines[0].Some?
    requires ProcessCommand(tools, Text.Strip(Text.Python, lines[0].value), isJson).1.Some?
    ensures var p := ProcessCommand(tools, Text.Strip(Text.Python, lines[0].value), isJson);
      RunCommands(tools, lines, isJson)
      == (RunCommands(p.0, lines[1..], isJson).0, [p.1.value] + RunCommands(p.0, lines[1..], isJson).1)
  {
  }

  /** What the handshake read gives: `NoLine` when the connection ends before
      a newline or the line outgrows the 64 KiB limit of an asyncio stream
      reader (the read raises, and the handler writes nothing); otherwise the
      line's text, `None` when it is not UTF-8. */
  datatype FirstLine = NoLine | Received(text: Option<string>)

  /** `_handle_client`: the first line must authenticate; a refused
      connection gets one error line and no command is read. */
  function HandleClient(h: McpAuth.Handler, tools: Registry, first: FirstLine, now: real, hmac: McpAuth.Mac,
                        lines: seq<Option<string>>, isJson: string -> bool): (r: (Registry, seq<Reply>))
    ensures first.NoLine? ==> r == (tools, [])
    ensures first.Received? && !McpAuth.Authenticate(h, first.text, now, hmac) ==>
      r == (tools, [Line("ERR: Authentication failed")])
    ensures first.Received? && McpAuth.Authenticate(h, first.text, now, hmac) ==>
      && |r.1| >= 1 && r.1[0] == Line("OK: Authenticated")
      && r == (RunCommands(tools, lines, isJson).0, [Line("OK: Authenticated")] + RunCommands(tools, lines, isJson).1)
    ensures r.0.Keys == tools.Keys
  {
    match first
    case NoLine => (tools, [])
    case Received(authLine) =>
      if !McpAuth.Authenticate(h, authLine, now, hmac) then (tools, [Line("ERR: Authentication failed")])
      else
        var (tools', replies) := RunCommands(tools, lines, isJson);
        (tools', [Line("OK: Authenticated")] + replies)
  }

  /** Without a valid handshake no command can load a tool. */
  lemma NoCommandWithoutAuth(h: McpAuth.Handler, tools: Registry, first: FirstLine, now: real,
                             hmac: McpAuth.Mac, lines: seq<Option<string>>, isJson: string -> bool)
    requires first.Received? ==> !McpAuth.Authenticate(h, first.text, now, hmac)
    ensures HandleClient(h, tools, first, now, hmac, lines, isJson).0 == tools
  {
  }

  /** The line `LOAD <name>` is classified as a load of `name`. */
  lemma LoadLine(name: string)
    requires Text.IsWord(Text.Python, name)
    ensures Classify(Text.Split(Text.Python, Text.Strip(Text.Python, "LOAD " + name))) == Load(name)
  {
    var line := "LOAD " + name;
    LoadLineStrip(name);
    LoadLineSplit(name);
    var parts := ["LOAD", name];
    UpperLoad();
    assert Text.Upper(parts[0]) == "LOAD" && |parts| == 2;
  }

  lemma LoadLineStrip(name: string)
    requires Text.IsWord(Text.Python, name)
    ensures Text.Strip(Text.Python, "LOAD " + name) == "LOAD " + name
  {
    var line := "LOAD " + name;
    assert line[0] == 'L';
    assert line[|line| - 1] == name[|name| - 1];
    Text.StripUnchanged(Text.Python, line);
  }

  lemma LoadLineSplit(name: string)
    requires Text.IsWord(Text.Python, name)
    ensures Text.Split(Text.Python, "LOAD " + name) == ["LOAD", name]
  {
    LoadIsWord();
    assert "LOAD " + name == "LOAD" + " " + name;
    Text.SplitTwoWords(Text.Python, "LOAD", name);
  }

  lemma LoadIsWord()
    ensures Text.IsWord(Text.Python, "LOAD")
  {
  }

  lemma UpperLoad()
    ensures Text.Upper("LOAD") == "LOAD"
  {
    var u := Text.Upper("LOAD");
    assert u[0] == 'L' && u[1] == 'O' && u[2] == 'A' && u[3] == 'D';
  }

  /** `LOAD <name>` of a registered tool answers with the load's reply. */
  lemma ProcessLoad(tools: Registry, name: string, isJson: string -> bool)
    requires Text.IsWord(Text.Python, name)
    ensures ProcessCommand(tools, "LOAD " + name, isJson) == (LoadTool(tools, name).0, Some(LoadTool(tools, name).1))
  {
    LoadLineStrip(name);
    LoadLine(name);
  }

  /** A connection of one line runs exactly that line's command. */
  lemma RunOneLoad(tools: Registry, name: string, isJson: string -> bool)
    requires Text.IsWord(Text.Python, name)
    ensures RunCommands(tools, [Some("LOAD " + name)], isJson) == (LoadTool(tools, name).0, [LoadTool(tools, name).1])
  {
    var lines := [Some("LOAD " + name)];
    LoadLineStrip(name);
    ProcessLoad(tools, name, isJson);
    var after := LoadTool(tools, name).0;
    assert lines[0].value == "LOAD " + name;
    assert Text.Strip(Text.Python, lines[0].value) == "LOAD " + name;
    assert lines[1..] == [];
    assert RunCommands(after, lines[1..], isJson) == (after, []);
    assert [LoadTool(tools, name).1] + [] == [LoadTool(tools, name).1];
  }

  /** An authenticated `LOAD <name>` of a registered tool loads it. */
  lemma AuthenticatedLoad(h: McpAuth.Handler, tools: Registry, authLine: Option<string>, now: real,
                          hmac: McpAuth.Mac, name: string, isJson: string -> bool)
    requires McpAuth.Authenticate(h, authLine, now, hmac)
    requires name in tools && Text.IsWord(Text.Python, name)
    ensures var r := HandleClient(h, tools, Received(authLine), now, hmac, [Some("LOAD " + name)], isJson);
      && r.0[name].loaded && r.0[name].status == Ready
      && r.1 == [Line("OK: Authenticated"), Line("OK: Tool " + name + " loaded")]
  {
    var lines := [Some("LOAD " + name)];
    var loaded := LoadTool(tools, name);
    assert HandleClient(h, tools, Received(authLine), now, hmac, lines, isJson) == (loaded.0, [Line("OK: Authenticated")] + [loaded.1]) by {
      RunOneLoad(tools, name, isJson);
    }
    Text.AppendPair(Line("OK: Authenticated"), loaded.1);
  }
}

=== FILE: policy.dfy ===
/**
 * The security policy document and the script that generates it
 * (scripts/generate_user_config.py). The document is modelled as a typed
 * record holding exactly the keys the generator writes; keys read with
 * `.get(key, default)` elsewhere are `Option`s.
 */
module Policy {
  import opened Wrappers

  /** `resource_allocation`. A missing `gpu_memory_gb` reads as 0 everywhere it is used. */
  datatype Allocation = Allocation(ramGb: int, cpuCores: int, memoryLimitMb: int, gpuMemoryGb: int)

  /** `recovery`; the trash manager reads the first two with defaults 30 and False. */
  datatype Recovery = Recovery(trashRetentionDays: Option<int>, permanentDelete: Option<bool>, backupEnabled: Option<bool>)

  datatype CpuRule = CpuRule(maxCores: int, requireConfirmation: bool)
  datatype MemoryRule = MemoryRule(maxGb: int, requireConfirmation: bool, emergencyThreshold: int)
  datatype DiskRule = DiskRule(requireConfirmation: bool, blockedExtensions: seq<string>, maxDailyOperations: int)
  datatype NetworkRule = NetworkRule(allowedDomains: seq<string>, requireConfirmation: bool)
  datatype FileRule = FileRule(allowed: bool, requireConfirmation: bool, maxDailyOperations: Option<int>)

  datatype ResourceAccess = ResourceAccess(cpu: CpuRule, memory: MemoryRule, disk: DiskRule, network: NetworkRule)
  datatype FileOperations = FileOperations(createFile: FileRule, deleteFile: FileRule, modifyFile: FileRule, readFile: FileRule)
  datatype ConfirmationMethods = ConfirmationMethods(uiModal: bool, timeoutSeconds: int)

  /** `acl_rules`; the generator nests `confirmation_methods` inside it. */
  datatype AclRules = AclRules(resourceAccess: ResourceAccess, fileOperations: FileOperations, confirmationMethods: ConfirmationMethods)

  datatype Alerts = Alerts(email: string, webhook: string, enableSound: bool)

  datatype Policy = Policy(
    userId: string,
    protectionLevel: string,
    allocation: Allocation,
    recovery: Recovery,
    aclRules: AclRules,
    alerts: Alerts)

  /** `os.cpu_count() or 4`: an unknown (or zero) count reads as 4. */
  function CpuCountOr4(cpuCount: Option<nat>): (n: nat)
    ensures n >= 1
    ensures cpuCount.Some? && cpuCount.value > 0 ==> n == cpuCount.value
    ensures cpuCount.None? || cpuCount.value == 0 ==> n == 4
  {
    if cpuCount.Some? && cpuCount.value > 0 then cpuCount.value else 4
  }

  function Min(a: int, b: int): int { if a <= b then a else b }

  /** The rules every level starts from (the "paranoid" set). */
  function DefaultRules(): AclRules {
    AclRules(
      ResourceAccess(
        CpuRule(4, false),
        MemoryRule(8, true, 95),
        DiskRule(true, [".exe", ".sh"], 1000),
        NetworkRule(["localhost", "api.openai.com"], true)),
      FileOperations(
        FileRule(true, false, Some(500)),
        FileRule(true, true, Some(100)),
        FileRule(true, false, None),
        FileRule(true, false, None)),
      ConfirmationMethods(true, 60))
  }

  /** The adjustment a protection level makes to the default rules. */
  function AdjustForLevel(level: string, rules: AclRules): AclRules {
    if level == "minimal" then
      rules.(
        resourceAccess := rules.resourceAccess.(
          memory := rules.resourceAccess.memory.(requireConfirmation := false),
          disk := rules.resourceAccess.disk.(requireConfirmation := false)),
        fileOperations := rules.fileOperations.(
          deleteFile := rules.fileOperations.deleteFile.(requireConfirmation := false)))
    else if level == "strict" then
      rules.(fileOperations := rules.fileOperations.(
        createFile := rules.fileOperations.createFile.(requireConfirmation := true)))
    else rules
  }

  /** `generate_config(user_id, protection_level)` without the file write. The
      CPU count and the two alert variables are read from the environment. */
  function GenerateConfig(userId: string, level: string, cpuCount: Option<nat>,
                          alertEmail: Option<string>, alertWebhook: Option<string>): (p: Policy)
    ensures p.userId == userId && p.protectionLevel == level
    ensures var a := p.allocation;
      && 1 <= a.cpuCores <= 4 && a.cpuCores <= a.ramGb <= 8
      && a.ramGb <= CpuCountOr4(cpuCount) && (a.ramGb == 8 || a.ramGb == CpuCountOr4(cpuCount))
      && a.cpuCores <= CpuCountOr4(cpuCount) && (a.cpuCores == 4 || a.cpuCores == CpuCountOr4(cpuCount))
      && a.memoryLimitMb == 2048 && a.gpuMemoryGb == 0
    ensures p.recovery == Recovery(Some(30), Some(false), Some(true))
    ensures p.aclRules.confirmationMethods == ConfirmationMethods(true, 60)
    ensures p.alerts == Alerts(alertEmail.GetOr(""), alertWebhook.GetOr(""), true)
  {
    var n := CpuCountOr4(cpuCount);
    Policy(
      userId,
      level,
      Allocation(Min(n, 8), Min(n, 4), 2048, 0),
      Recovery(Some(30), Some(false), Some(true)),
      AdjustForLevel(level, DefaultRules()),
      Alerts(alertEmail.GetOr(""), alertWebhook.GetOr(""), true))
  }

  /** "minimal" differs from "paranoid" in exactly the memory, disk and delete
      confirmation flags, which it clears (they are set by default). */
  lemma MinimalClearsThreeFlags(userId: string, cpuCount: Option<nat>, email: Option<string>, webhook: Option<string>)
    ensures var q := GenerateConfig(userId, "paranoid", cpuCount, email, webhook);
      var p := GenerateConfig(userId, "minimal", cpuCount, email, webhook);
      var ra := q.aclRules.resourceAccess;
      var fo := q.aclRules.fileOperations;
      && ra.memory.requireConfirmation && ra.disk.requireConfirmation && fo.deleteFile.requireConfirmation
      && p.(protectionLevel := "paranoid") == q.(aclRules := q.aclRules.(
           resourceAccess := ra.(memory := ra.memory.(requireConfirmation := false),
                                 disk := ra.disk.(requireConfirmation := false)),
           fileOperations := fo.(deleteFile := fo.deleteFile.(requireConfirmation := false))))
  {
  }

  /** "strict" differs from "paranoid" in exactly the create confirmation flag, which it sets. */
  lemma StrictSetsCreateFlag(userId: string, cpuCount: Option<nat>, email: Option<string>, webhook: Option<string>)
    ensures var q := GenerateConfig(userId, "paranoid", cpuCount, email, webhook);
      var p := GenerateConfig(userId, "strict", cpuCount, email, webhook);
      var fo := q.aclRules.fileOperations;
      && !fo.createFile.requireConfirmation
      && p.(protectionLevel := "paranoid") == q.(aclRules := q.aclRules.(
           fileOperations := fo.(createFile := fo.createFile.(requireConfirmation := true))))
  {
  }

  /** Every level other than "minimal" and "strict" leaves the defaults as they are. */
  lemma OtherLevelsKeepDefaults(userId: string, level: string, cpuCount: Option<nat>, email: Option<string>, webhook: Option<string>)
    requires level != "minimal" && level != "strict"
    ensures GenerateConfig(userId, level, cpuCount, email, webhook).(protectionLevel := "paranoid")
         == GenerateConfig(userId, "paranoid", cpuCount, email, webhook)
  {
  }
}

=== FILE: resources.dfy ===
/**
 * The resource manager (master-agent/core/resource_manager.py): memory
 * admission for tools, the OS limits derived from `resource_allocation`, and
 * hot updates of that allocation. Live figures (psutil, the affinity mask)
 * are a `Telemetry` value; each OS call is recorded as the request it makes,
 * and whether the OS accepts it is decided by a `Host` value.
 */
module Resources {
  import opened Wrappers
  import opened Policy
  import Acl

  const MiB: nat := 1048576
  const GiB: nat := 1073741824

  /** psutil's available and total memory in bytes, and the size of the
      process's CPU-affinity mask. */
  datatype Telemetry = Telemetry(availableBytes: nat, totalBytes: nat, affinityCount: nat)

  /** `get_available_memory`: whole mebibytes available, rounded down. */
  function AvailableMemoryMb(t: Telemetry): (mb: nat)
    ensures mb * MiB <= t.availableBytes < (mb + 1) * MiB
  {
    t.availableBytes / MiB
  }

  /** Which check of `should_load_tool` decided, in the order they run. */
  datatype Verdict =
    | OverLimit(size: int, limit: int)
    | NotEnoughMemory(size: int, available: nat)
    | AclAnswer(decision: Acl.Decision)

  /** The amount, in GiB, `should_load_tool` puts to the engine. */
  function MemoryAmountGb(sizeMb: int): real {
    sizeMb as real / 1024.0
  }

  /** The three checks of `should_load_tool` in their order: the configured
      limit (inclusive), then the available memory, then the engine. */
  function Admission(alloc: Allocation, t: Telemetry, acl: Acl.Oracle, sizeMb: int): (v: Verdict)
    ensures sizeMb > alloc.memoryLimitMb <==> v.OverLimit?
    ensures v.NotEnoughMemory? <==> sizeMb <= alloc.memoryLimitMb && sizeMb > AvailableMemoryMb(t)
    ensures v.AclAnswer? ==> v.decision == acl.check("memory", MemoryAmountGb(sizeMb))
  {
    var available := AvailableMemoryMb(t);
    var limit := alloc.memoryLimitMb;
    if sizeMb > limit then OverLimit(sizeMb, limit)
    else if sizeMb > available then NotEnoughMemory(sizeMb, available)
    else AclAnswer(acl.check("memory", MemoryAmountGb(sizeMb)))
  }

  /** `should_load_tool`. */
  function ShouldLoadTool(alloc: Allocation, t: Telemetry, acl: Acl.Oracle, sizeMb: int): (ok: bool)
    ensures ok <==> && sizeMb <= alloc.memoryLimitMb
                    && sizeMb <= AvailableMemoryMb(t)
                    && acl.check("memory", MemoryAmountGb(sizeMb)).allowed
  {
    var v := Admission(alloc, t, acl, sizeMb);
    v.AclAnswer? && v.decision.allowed
  }

  /** With the repository's engine the engine never refuses, so admission is
      exactly "within the limit and within available memory". */
  lemma StubAdmission(alloc: Allocation, t: Telemetry, e: Acl.Engine, sizeMb: int)
    ensures ShouldLoadTool(alloc, t, Acl.Stub(e), sizeMb)
        <==> sizeMb <= alloc.memoryLimitMb && sizeMb * MiB <= t.availableBytes
  {
    var mb := AvailableMemoryMb(t);
    if sizeMb <= mb {
      assert sizeMb * MiB <= mb * MiB;
    } else {
      assert (mb + 1) * MiB <= sizeMb * MiB;
    }
  }

  /** With the repository's engine, a smaller tool is admitted whenever a larger one is. */
  lemma StubAdmissionDownwardClosed(alloc: Allocation, t: Telemetry, e: Acl.Engine, small: int, large: int)
    requires small <= large
    requires ShouldLoadTool(alloc, t, Acl.Stub(e), large)
    ensures ShouldLoadTool(alloc, t, Acl.Stub(e), small)
  {
  }

  /** How the OS answers one call: it succeeds, it raises the exception the
      code catches and logs (ValueError for setrlimit, OSError for
      sched_setaffinity), or it raises anything else, which propagates. */
  datatype CallOutcome = Succeeded | Caught | Uncaught

  /** One accelerator: its total memory and whether it accepts the fraction asked of it. */
  datatype Gpu = Gpu(totalMemory: int, accepts: bool)

  datatype Host = Host(rlimit: CallOutcome, affinity: CallOutcome, cudaAvailable: bool, gpus: seq<Gpu>)

  /** A request made to the OS. A GPU memory fraction is kept as the exact
      quotient `numerator / denominator` of bytes. */
  datatype OsRequest =
    | SetMemoryLimit(soft: int, hard: int)
    | SetCpuAffinity(cores: seq<int>)
    | SetGpuMemoryFraction(device: nat, numerator: int, denominator: int)

  datatype Warning = MemoryLimitNotSet | CpuAffinityNotSet | GpuLimitNotSet

  /** What `_apply_system_limits` did: the requests in the order made, the
      warnings logged, and whether it ran to the end (false when an uncaught
      exception escaped). */
  datatype Applied = Applied(requests: seq<OsRequest>, warnings: seq<Warning>, completed: bool)

  /** Python's `list(range(n))[:k]`, including a negative `k`, which counts from the end. */
  function AffinityRequest(n: nat, k: int): (cores: seq<int>)
    ensures forall i :: 0 <= i < |cores| ==> cores[i] == i
    ensures 0 <= k <= n ==> |cores| == k
    ensures k >= n ==> |cores| == n
    ensures k < 0 ==> |cores| == if n + k > 0 then n + k else 0
  {
    var len := if k >= n then n else if k >= 0 then k else if n + k > 0 then n + k else 0;
    seq(len, i => i)
  }

  /** The loop over accelerators inside one try block: each device with
      non-zero memory gets a request; a zero-memory device (ZeroDivisionError)
      or a refusal stops the loop. Returns the requests and whether it stopped early. */
  function GpuRequests(bytes: int, gpus: seq<Gpu>, from: nat): (r: (seq<OsRequest>, bool))
    requires from <= |gpus|
    ensures |r.0| <= |gpus| - from
    ensures forall i :: 0 <= i < |r.0| ==> r.0[i] == SetGpuMemoryFraction(from + i, bytes, gpus[from + i].totalMemory)
    ensures !r.1 ==> |r.0| == |gpus| - from
    decreases |gpus| - from
  {
    if from == |gpus| then ([], false)
    else if gpus[from].totalMemory == 0 then ([], true)
    else
      var request := SetGpuMemoryFraction(from, bytes, gpus[from].totalMemory);
      if !gpus[from].accepts then ([request], true)
      else
        var rest := GpuRequests(bytes, gpus, from + 1);
        ([request] + rest.0, rest.1)
  }

  /** `_apply_system_limits`: the memory ceiling, then the CPU affinity, then
      (with CUDA and a positive `gpu_memory_gb`) one fraction per device. A
      caught failure is logged and the later limits are still attempted. */
  function ApplySystemLimits(alloc: Allocation, t: Telemetry, host: Host): (r: Applied)
    ensures |r.requests| >= 1 && r.requests[0] == SetMemoryLimit(alloc.ramGb * GiB, alloc.ramGb * GiB)
    ensures host.rlimit != Uncaught ==>
      |r.requests| >= 2 && r.requests[1] == SetCpuAffinity(AffinityRequest(t.affinityCount, alloc.cpuCores))
    ensures r.completed <==> host.rlimit != Uncaught && host.affinity != Uncaught
    ensures (MemoryLimitNotSet in r.warnings) <==> host.rlimit == Caught
    ensures (CpuAffinityNotSet in r.warnings) <==> host.rlimit != Uncaught && host.affinity == Caught
    ensures !(host.cudaAvailable && alloc.gpuMemoryGb > 0) ==> |r.requests| <= 2 && GpuLimitNotSet !in r.warnings
    ensures |r.requests| <= 2 + |host.gpus|
    ensures forall i :: 2 <= i < |r.requests| ==>
      r.requests[i] == SetGpuMemoryFraction(i - 2, alloc.gpuMemoryGb * GiB, host.gpus[i - 2].totalMemory)
    ensures host.rlimit == Uncaught ==> |r.requests| == 1
    ensures host.rlimit != Uncaught && host.affinity == Uncaught ==> |r.requests| == 2
    ensures r.completed && host.cudaAvailable && alloc.gpuMemoryGb > 0 ==>
      var gpu := GpuRequests(alloc.gpuMemoryGb * GiB, host.gpus, 0);
      r.requests[2..] == gpu.0 && (GpuLimitNotSet in r.warnings <==> gpu.1)
  {
    var memoryBytes := alloc.ramGb * GiB;
    var memory := [SetMemoryLimit(memoryBytes, memoryBytes)];
    if host.rlimit == Uncaught then Applied(memory, [], false)
    else
      var w1 := if host.rlimit == Caught then [MemoryLimitNotSet] else [];
      var r2 := memory + [SetCpuAffinity(AffinityRequest(t.affinityCount, alloc.cpuCores))];
      if host.affinity == Uncaught then Applied(r2, w1, false)
      else
        var w2 := w1 + (if host.affinity == Caught then [CpuAffinityNotSet] else []);
        if host.cudaAvailable && alloc.gpuMemoryGb > 0 then
          var gpu := GpuRequests(alloc.gpuMemoryGb * GiB, host.gpus, 0);
          Applied(r2 + gpu.0, w2 + (if gpu.1 then [GpuLimitNotSet] else []), true)
        else Applied(r2, w2, true)
  }

  /** On a host where every call succeeds and every accelerator has memory
      and accepts its fraction, every limit is requested, one fraction per
      device, and nothing is logged. */
  lemma ApplyOnCleanHost(alloc: Allocation, t: Telemetry, host: Host)
    requires host.rlimit == Succeeded && host.affinity == Succeeded && host.cudaAvailable && alloc.gpuMemoryGb > 0
    requires forall i :: 0 <= i < |host.gpus| ==> host.gpus[i].totalMemory != 0 && host.gpus[i].accepts
    ensures var r := ApplySystemLimits(alloc, t, host);
      r.completed && r.warnings == [] && |r.requests| == 2 + |host.gpus|
  {
    GpuRequestsAll(alloc.gpuMemoryGb * GiB, host.gpus, 0);
  }

  /** Over devices that all have memory and accept, the loop never stops early. */
  lemma {:induction false} GpuRequestsAll(bytes: int, gpus: seq<Gpu>, from: nat)
    requires from <= |gpus|
    requires forall i :: from <= i < |gpus| ==> gpus[i].totalMemory != 0 && gpus[i].accepts
    ensures !GpuRequests(bytes, gpus, from).1
    decreases |gpus| - from
  {
    if from < |gpus| {
      GpuRequestsAll(bytes, gpus, from + 1);
    }
  }

  /** The affinity request names the indices 0..k-1 of the mask's size, not
      the CPU ids in the mask: it is the same whichever CPUs the mask holds. */
  lemma AffinityIgnoresMaskIds(alloc: Allocation, t1: Telemetry, t2: Telemetry, host: Host)
    requires host.rlimit != Uncaught
    requires t1.affinityCount == t2.affinityCount
    ensures ApplySystemLimits(alloc, t1, host).requests[1] == ApplySystemLimits(alloc, t2, host).requests[1]
  {
  }

  /** `_check_and_apply_limits`: the memory decision (for `ram_gb`) is asked
      before the CPU decision (for `cpu_cores`); a refusal raises
      PermissionError with the engine's reason and no limit is applied. */
  function CheckAndApplyLimits(alloc: Allocation, t: Telemetry, host: Host, acl: Acl.Oracle): (r: Result<Applied, string>)
    ensures var memory := acl.check("memory", alloc.ramGb as real);
      !memory.allowed ==> r == Err("Memory allocation denied: " + memory.reason)
    ensures var memory := acl.check("memory", alloc.ramGb as real);
      var cpu := acl.check("cpu", alloc.cpuCores as real);
      memory.allowed && !cpu.allowed ==> r == Err("CPU allocation denied: " + cpu.reason)
    ensures r.Ok? <==> acl.check("memory", alloc.ramGb as real).allowed && acl.check("cpu", alloc.cpuCores as real).allowed
    ensures r.Ok? ==> r.value == ApplySystemLimits(alloc, t, host)
  {
    var memory := acl.check("memory", alloc.ramGb as real);
    if !memory.allowed then Err("Memory allocation denied: " + memory.reason)
    else
      var cpu := acl.check("cpu", alloc.cpuCores as real);
      if !cpu.allowed then Err("CPU allocation denied: " + cpu.reason)
      else Ok(ApplySystemLimits(alloc, t, host))
  }

  /** The manager's state: the configuration it holds, and the policy file's contents as last read or written. */
  datatype Manager = Manager(config: Policy, persisted: Policy)

  datatype ManagerError = PermissionDenied(message: string) | OsFailure

  /** `ResourceManager(config_path)`: loads the policy, then checks and applies
      the limits. An uncaught OS failure aborts construction. */
  function New(policyFile: Policy, t: Telemetry, host: Host, acl: Acl.Oracle): (r: Result<(Manager, Applied), ManagerError>)
    ensures r.Ok? ==> r.value.0 == Manager(policyFile, policyFile) && r.value.1.completed
    ensures r.Ok? <==> CheckAndApplyLimits(policyFile.allocation, t, host, acl).Ok?
                       && host.rlimit != Uncaught && host.affinity != Uncaught
  {
    match CheckAndApplyLimits(policyFile.allocation, t, host, acl)
    case Err(message) => Err(PermissionDenied(message))
    case Ok(applied) =>
      if applied.completed then Ok((Manager(policyFile, policyFile), applied)) else Err(OsFailure)
  }

  /** With the repository's engine, construction fails only through an uncaught OS failure. */
  lemma StubConstruction(policyFile: Policy, t: Telemetry, host: Host, e: Acl.Engine)
    ensures New(policyFile, t, host, Acl.Stub(e)).Ok? <==> host.rlimit != Uncaught && host.affinity != Uncaught
  {
  }

  /** The keys a hot update supplies; absent keys keep their value. */
  datatype AllocationUpdate = AllocationUpdate(ramGb: Option<int>, cpuCores: Option<int>, memoryLimitMb: Option<int>, gpuMemoryGb: Option<int>)

  /** Python's `dict.update` on `resource_allocation`. */
  function Merge(a: Allocation, u: AllocationUpdate): (r: Allocation)
    ensures u.ramGb.Some? ==> r.ramGb == u.ramGb.value
    ensures u.cpuCores.Some? ==> r.cpuCores == u.cpuCores.value
    ensures u.memoryLimitMb.Some? ==> r.memoryLimitMb == u.memoryLimitMb.value
    ensures u.gpuMemoryGb.Some? ==> r.gpuMemoryGb == u.gpuMemoryGb.value
    ensures u.ramGb.None? ==> r.ramGb == a.ramGb
    ensures u.cpuCores.None? ==> r.cpuCores == a.cpuCores
    ensures u.memoryLimitMb.None? ==> r.memoryLimitMb == a.memoryLimitMb
    ensures u.gpuMemoryGb.None? ==> r.gpuMemoryGb == a.gpuMemoryGb
  {
    Allocation(
      u.ramGb.GetOr(a.ramGb),
      u.cpuCores.GetOr(a.cpuCores),
      u.memoryLimitMb.GetOr(a.memoryLimitMb),
      u.gpuMemoryGb.GetOr(a.gpuMemoryGb))
  }

  /** Two updates in a row, the second's keys winning. */
  function Then(first: AllocationUpdate, second: AllocationUpdate): AllocationUpdate {
    AllocationUpdate(
      if second.ramGb.Some? then second.ramGb else first.ramGb,
      if second.cpuCores.Some? then second.cpuCores else first.cpuCores,
      if second.memoryLimitMb.Some? then second.memoryLimitMb else first.memoryLimitMb,
      if second.gpuMemoryGb.Some? then second.gpuMemoryGb else first.gpuMemoryGb)
  }

  /** Updates compose, an empty update changes nothing, and repeating an update changes nothing more. */
  lemma MergeLaws(a: Allocation, u: AllocationUpdate, v: AllocationUpdate)
    ensures Merge(Merge(a, u), v) == Merge(a, Then(u, v))
    ensures Merge(a, AllocationUpdate(None, None, None, None)) == a
    ensures Merge(Merge(a, u), u) == Merge(a, u)
  {
  }

  /** `update_config`: merge the supplied keys, persist the whole
      configuration, and re-apply the limits. The engine is not consulted. */
  function UpdateConfig(m: Manager, u: AllocationUpdate, t: Telemetry, host: Host): (r: (Manager, Applied))
    ensures r.0.config == m.config.(allocation := Merge(m.config.allocation, u))
    ensures r.0.persisted == r.0.config
    ensures r.1 == ApplySystemLimits(r.0.config.allocation, t, host)
  {
    var config := m.config.(allocation := Merge(m.config.allocation, u));
    (Manager(config, config), ApplySystemLimits(config.allocation, t, host))
  }

  /** `export_limits`: the configured allocation beside the live figures. */
  datatype Limits = Limits(config: Allocation, actualRamGb: nat, actualCpuCores: nat, memoryAvailableMb: nat)

  function ExportLimits(m: Manager, t: Telemetry): (l: Limits)
    ensures l.config == m.config.allocation
    ensures l.actualRamGb * GiB <= t.totalBytes < (l.actualRamGb + 1) * GiB
    ensures l.actualCpuCores == t.affinityCount
    ensures l.memoryAvailableMb * MiB <= t.availableBytes < (l.memoryAvailableMb + 1) * MiB
  {
    Limits(m.config.allocation, t.totalBytes / GiB, t.affinityCount, AvailableMemoryMb(t))
  }
}

=== FILE: text.dfy ===
/**
 * Text primitives the protocols and the submission gate rely on: the whitespace
 * conventions of Python's `str.strip()`/`str.split()` and of Rust's
 * `str::trim`/`split_whitespace`, ASCII case mapping, substring search,
 * decimal printing and parsing, and UTF-8 encoding.
 */
module Text {
  import opened Wrappers

  /** Whose notion of whitespace a tokenizer uses. */
  datatype Flavour = Python | Rust

  /** Rust's `char::is_whitespace` (the Unicode White_Space property) and
      Python's `str.isspace`, which additionally counts the four information
      separators U+001C..U+001F. */
  predicate IsSpace(f: Flavour, c: char) {
    || c == ' '
    || ('\t' <= c <= '\r')
    || c == '\U{85}' || c == '\U{a0}' || c == '\U{1680}'
    || ('\U{2000}' <= c <= '\U{200a}')
    || c == '\U{2028}' || c == '\U{2029}' || c == '\U{202f}' || c == '\U{205f}' || c == '\U{3000}'
    || (f == Python && '\U{1c}' <= c <= '\U{1f}')
  }

  predicate NoSpace(f: Flavour, s: string) {
    forall i :: 0 <= i < |s| ==> !IsSpace(f, s[i])
  }

  /** A token a whitespace split can produce. */
  predicate IsWord(f: Flavour, w: string) {
    w != [] && NoSpace(f, w)
  }

  /** Drops the leading whitespace. */
  function TrimStart(f: Flavour, s: string): (r: string)
    ensures |r| <= |s| && r == s[|s| - |r|..]
    ensures r == [] || !IsSpace(f, r[0])
    ensures forall i :: 0 <= i < |s| - |r| ==> IsSpace(f, s[i])
  {
    if s == [] || !IsSpace(f, s[0]) then s else TrimStart(f, s[1..])
  }

  /** Drops the trailing whitespace. */
  function TrimEnd(f: Flavour, s: string): (r: string)
    ensures r <= s
    ensures r == [] || !IsSpace(f, r[|r| - 1])
    ensures forall i :: |r| <= i < |s| ==> IsSpace(f, s[i])
  {
    if s == [] || !IsSpace(f, s[|s| - 1]) then s else TrimEnd(f, s[..|s| - 1])
  }

  /** `r` is the slice of `s` at `i`, with only whitespace before and after it. */
  predicate IsInnerSlice(f: Flavour, s: string, i: int, r: string) {
    && 0 <= i <= |s| - |r| && r == s[i..i + |r|]
    && (forall k :: 0 <= k < i ==> IsSpace(f, s[k]))
    && (forall k :: i + |r| <= k < |s| ==> IsSpace(f, s[k]))
  }

  /** Python's `str.strip()` with no argument, Rust's `str::trim`: the slice
      of `s` left once the whitespace at both ends is gone. */
  function Strip(f: Flavour, s: string): (r: string)
    ensures exists i :: IsInnerSlice(f, s, i, r)
    ensures r == [] || (!IsSpace(f, r[0]) && !IsSpace(f, r[|r| - 1]))
  {
    StripAll(f, s);
    TrimEnd(f, TrimStart(f, s))
  }

  /** Trimming the front and then the back gives what `Strip` promises. */
  lemma StripAll(f: Flavour, s: string)
    ensures exists i :: IsInnerSlice(f, s, i, TrimEnd(f, TrimStart(f, s)))
    ensures var r := TrimEnd(f, TrimStart(f, s)); r == [] || (!IsSpace(f, r[0]) && !IsSpace(f, r[|r| - 1]))
  {
    StripSlice(f, s, TrimStart(f, s), TrimEnd(f, TrimStart(f, s)));
  }

  /** Whitespace dropped from the front of `s` and then from the back of
      the rest leaves an inner slice with non-blank edges. */
  lemma StripSlice(f: Flavour, s: string, t: string, r: string)
    requires |t| <= |s| && t == s[|s| - |t|..] && forall k :: 0 <= k < |s| - |t| ==> IsSpace(f, s[k])
    requires t == [] || !IsSpace(f, t[0])
    requires r <= t && forall k :: |r| <= k < |t| ==> IsSpace(f, t[k])
    requires r == [] || !IsSpace(f, r[|r| - 1])
    ensures IsInnerSlice(f, s, |s| - |t|, r) && exists i :: IsInnerSlice(f, s, i, r)
    ensures r == [] || (!IsSpace(f, r[0]) && !IsSpace(f, r[|r| - 1]))
  {
    var i := |s| - |t|;
    assert r == t[..|r|];
    assert r == s[i..i + |r|];
    forall k | i + |r| <= k < |s| ensures IsSpace(f, s[k]) {
      assert s[k] == t[k - i];
    }
    if r != [] {
      assert r[0] == t[0];
    }
    assert IsInnerSlice(f, s, i, r);
  }

  /** Stripping twice is stripping once. */
  lemma StripIdempotent(f: Flavour, s: string)
    ensures Strip(f, Strip(f, s)) == Strip(f, s)
  {
    var r := Strip(f, s);
    if r != [] {
      StripUnchanged(f, r);
    }
  }

  /** The longest prefix of `s` free of whitespace. */
  function Word(f: Flavour, s: string): (w: string)
    ensures w <= s && NoSpace(f, w)
    ensures |w| == |s| || IsSpace(f, s[|w|])
    ensures s != [] && !IsSpace(f, s[0]) ==> w != []
  {
    if s == [] || IsSpace(f, s[0]) then [] else [s[0]] + Word(f, s[1..])
  }

  /** Python's `str.split()` with no argument, Rust's `split_whitespace`:
      the maximal whitespace-free runs of `s`, in order. */
  function Split(f: Flavour, s: string): (ws: seq<string>)
    ensures AllWords(f, ws)
    decreases |s|
  {
    var t := TrimStart(f, s);
    if t == [] then []
    else
      var w := Word(f, t);
      var rest := Split(f, t[|w|..]);
      PrependWord(f, w, rest);
      [w] + rest
  }

  /** Every piece is a word. */
  predicate AllWords(f: Flavour, ws: seq<string>) {
    forall i :: 0 <= i < |ws| ==> IsWord(f, ws[i])
  }

  lemma PrependWord(f: Flavour, w: string, rest: seq<string>)
    requires w != [] && NoSpace(f, w) && AllWords(f, rest)
    ensures AllWords(f, [w] + rest)
  {
    assert forall i :: 1 <= i < |rest| + 1 ==> ([w] + rest)[i] == rest[i - 1];
  }

  /** Python's `sep.join(ws)`. */
  function Join(ws: seq<string>, sep: string): (r: string)
    ensures ws == [] ==> r == ""
    ensures |ws| == 1 ==> r == ws[0]
    ensures |ws| > 1 ==> ws[0] + sep <= r
    ensures ws != [] ==> |ws[|ws| - 1]| <= |r| && r[|r| - |ws[|ws| - 1]|..] == ws[|ws| - 1]
  {
    if |ws| == 0 then ""
    else if |ws| == 1 then ws[0]
    else ws[0] + sep + Join(ws[1..], sep)
  }

  lemma {:induction false} WordOfWord(f: Flavour, w: string, rest: string)
    requires NoSpace(f, w)
    requires rest == [] || IsSpace(f, rest[0])
    ensures Word(f, w + rest) == w
    decreases |w|
  {
    if w != [] {
      assert (w + rest)[1..] == w[1..] + rest;
      WordOfWord(f, w[1..], rest);
    } else {
      assert w + rest == rest;
    }
  }

  lemma SplitOneWord(f: Flavour, w: string)
    requires IsWord(f, w)
    ensures Split(f, w) == [w]
  {
    WordOfWord(f, w, []);
    assert w + [] == w;
    assert TrimStart(f, w[|w|..]) == [];
  }

  lemma SplitLeadingWord(f: Flavour, w: string, rest: string)
    requires IsWord(f, w)
    ensures Split(f, w + " " + rest) == [w] + Split(f, rest)
  {
    assert w + " " + rest == w + (" " + rest);
    SplitWordThenSpace(f, w, " " + rest);
    SplitSkipsSpace(f, rest);
  }

  /** A word followed by whitespace (or nothing) is split off first. */
  lemma SplitWordThenSpace(f: Flavour, w: string, tail: string)
    requires IsWord(f, w)
    requires tail == [] || IsSpace(f, tail[0])
    ensures Split(f, w + tail) == [w] + Split(f, tail)
  {
    var s := w + tail;
    WordOfWord(f, w, tail);
    assert TrimStart(f, s) == s;
    assert s[|w|..] == tail;
  }

  /** A leading space changes nothing. */
  lemma SplitSkipsSpace(f: Flavour, rest: string)
    ensures Split(f, " " + rest) == Split(f, rest)
  {
    var s := " " + rest;
    assert s[0] == ' ' && s[1..] == rest;
    assert TrimStart(f, s) == TrimStart(f, rest);
  }

  lemma SplitJoinStep(f: Flavour, ws: seq<string>)
    requires |ws| > 1 && IsWord(f, ws[0])
    requires Split(f, Join(ws[1..], " ")) == ws[1..]
    ensures Split(f, Join(ws, " ")) == ws
  {
    var rest := Join(ws[1..], " ");
    JoinCons(ws);
    SplitLeadingWord(f, ws[0], rest);
    PrependHead(Split(f, ws[0] + " " + rest), ws);
  }

  lemma PrependHead<T>(whole: seq<T>, ws: seq<T>)
    requires |ws| > 0 && whole == [ws[0]] + ws[1..]
    ensures whole == ws
  {
  }

  lemma JoinCons(ws: seq<string>)
    requires |ws| > 1
    ensures Join(ws, " ") == ws[0] + " " + Join(ws[1..], " ")
  {
  }

  /** Splitting a space-joined sequence of whitespace-free words gives the words back. */
  lemma {:induction false} SplitJoin(f: Flavour, ws: seq<string>)
    requires forall w :: w in ws ==> IsWord(f, w)
    ensures Split(f, Join(ws, " ")) == ws
    decreases |ws|
  {
    if |ws| == 1 {
      assert ws[0] in ws;
      SplitOneWord(f, ws[0]);
    } else if |ws| > 1 {
      assert ws[0] in ws;
      assert forall w :: w in ws[1..] ==> w in ws;
      SplitJoin(f, ws[1..]);
      SplitJoinStep(f, ws);
    }
  }

  /** Two words joined by a space split back into those two words. */
  lemma SplitTwoWords(f: Flavour, a: string, b: string)
    requires IsWord(f, a) && IsWord(f, b)
    ensures Split(f, a + " " + b) == [a, b]
  {
    SplitLeadingWord(f, a, b);
    SplitOneWord(f, b);
    PrependOne(Split(f, a + " " + b), a, Split(f, b), b);
  }

  lemma PrependOne<T>(whole: seq<T>, a: T, tail: seq<T>, b: T)
    requires whole == [a] + tail && tail == [b]
    ensures whole == [a, b]
  {
  }

  /** Three words joined by spaces split back into those three words. */
  lemma SplitThreeWords(f: Flavour, a: string, b: string, c: string)
    requires IsWord(f, a) && IsWord(f, b) && IsWord(f, c)
    ensures Split(f, a + " " + b + " " + c) == [a, b, c]
  {
    SpacedAssociates(a, b, c);
    SplitLeadingWord(f, a, b + " " + c);
    SplitTwoWords(f, b, c);
    PrependTwo(Split(f, a + " " + (b + " " + c)), a, Split(f, b + " " + c), b, c);
  }

  lemma SpacedAssociates(a: string, b: string, c: string)
    ensures a + " " + b + " " + c == a + " " + (b + " " + c)
  {
  }

  lemma PrependTwo<T>(whole: seq<T>, a: T, tail: seq<T>, b: T, c: T)
    requires whole == [a] + tail && tail == [b, c]
    ensures whole == [a, b, c]
  {
  }

  /** A string whose ends are not whitespace is its own strip. */
  lemma StripUnchanged(f: Flavour, s: string)
    requires s != [] && !IsSpace(f, s[0]) && !IsSpace(f, s[|s| - 1])
    ensures Strip(f, s) == s
  {
    assert TrimStart(f, s) == s;
  }

  /** Stripping a string whose ends are not whitespace, after one trailing
      whitespace character was appended (the line terminator), gives the string back. */
  lemma StripLine(f: Flavour, s: string, c: char)
    requires s != [] && !IsSpace(f, s[0]) && !IsSpace(f, s[|s| - 1])
    requires IsSpace(f, c)
    ensures Strip(f, s + [c]) == s
  {
    assert TrimStart(f, s + [c]) == s + [c];
    assert (s + [c])[..|s|] == s;
  }

  predicate IsAsciiLetterUpper(c: char) { 'A' <= c <= 'Z' }
  predicate IsAsciiLetterLower(c: char) { 'a' <= c <= 'z' }

  predicate IsAscii(s: string) {
    forall i :: 0 <= i < |s| ==> s[i] as int < 128
  }

  /** ASCII case mapping: only the 26 Latin letters change. */
  function AsciiLower(c: char): (r: char)
    ensures IsAsciiLetterUpper(c) ==> IsAsciiLetterLower(r) && r as int == c as int + 32
    ensures !IsAsciiLetterUpper(c) ==> r == c
  {
    if IsAsciiLetterUpper(c) then (c as int + 32) as char else c
  }

  function AsciiUpper(c: char): (r: char)
    ensures IsAsciiLetterLower(c) ==> IsAsciiLetterUpper(r) && r as int == c as int - 32
    ensures !IsAsciiLetterLower(c) ==> r == c
  {
    if IsAsciiLetterLower(c) then (c as int - 32) as char else c
  }

  /** Python's `str.lower()` on one character, for every character whose
      lower case holds an ASCII letter or upper-cases to one: the 26
      capitals, the capital I with dot above (to "i" and a combining dot
      above), the Kelvin sign (to "k") and the capital sharp s (to the sharp
      s). Any other character is kept as it is. */
  function LowerChar(c: char): (r: string)
    ensures r != [] && !IsAsciiLetterUpper(r[0])
    ensures c as int < 128 ==> r == [AsciiLower(c)]
    ensures (IsAsciiLetterUpper(c) || c == '\U{130}' || c == '\U{212a}' || c == '\U{1e9e}') <==> r != [c]
  {
    if IsAsciiLetterUpper(c) then [AsciiLower(c)]
    else if c == '\U{130}' then "i\U{307}"
    else if c == '\U{212a}' then "k"
    else if c == '\U{1e9e}' then "\U{df}"
    else [c]
  }

  /** Python's special upper casings that hold an ASCII letter: the sharp s,
      the n preceded by an apostrophe, the j with caron, the h, t, w, y and a
      with their marks, and the Latin ligatures U+FB00..U+FB06; together with
      the dotless i and the long s, whose simple upper cases are I and S.
      Empty for any other character. */
  function SpecialUpper(c: char): string {
    if c == '\U{df}' then "SS"
    else if c == '\U{131}' then "I"
    else if c == '\U{149}' then "\U{2bc}N"
    else if c == '\U{17f}' then "S"
    else if c == '\U{1f0}' then "J\U{30c}"
    else if c == '\U{1e96}' then "H\U{331}"
    else if c == '\U{1e97}' then "T\U{308}"
    else if c == '\U{1e98}' then "W\U{30a}"
    else if c == '\U{1e99}' then "Y\U{30a}"
    else if c == '\U{1e9a}' then "A\U{2be}"
    else if c == '\U{fb00}' then "FF"
    else if c == '\U{fb01}' then "FI"
    else if c == '\U{fb02}' then "FL"
    else if c == '\U{fb03}' then "FFI"
    else if c == '\U{fb04}' then "FFL"
    else if c == '\U{fb05}' || c == '\U{fb06}' then "ST"
    else ""
  }

  /** Python's `str.upper()` on one character, for every character whose
      upper case holds an ASCII letter: the 26 small letters and the
      characters above. Any other character is kept as it is. */
  function UpperChar(c: char): (r: string)
    ensures r != [] && !IsAsciiLetterLower(r[0])
    ensures c as int < 128 ==> r == [AsciiUpper(c)]
    ensures |r| > 1 ==> c as int >= 128
  {
    if IsAsciiLetterLower(c) then [AsciiUpper(c)]
    else if SpecialUpper(c) != [] then SpecialUpper(c)
    else [c]
  }

  /** What the special casings produce is upper case already. */
  lemma SpecialUpperIsFinal(c: char)
    ensures forall i :: 0 <= i < |SpecialUpper(c)| ==>
      !IsAsciiLetterLower(SpecialUpper(c)[i]) && SpecialUpper(SpecialUpper(c)[i]) == []
  {
  }

  /** Python's `str.lower()`: each character's lower case, in order. */
  function Lower(s: string): (r: string)
    ensures |r| >= |s|
    ensures IsAscii(s) ==> |r| == |s| && forall i :: 0 <= i < |s| ==> r[i] == AsciiLower(s[i])
  {
    if s == [] then []
    else
      assert IsAscii(s) ==> IsAscii(s[1..]);
      LowerChar(s[0]) + Lower(s[1..])
  }

  /** Python's `str.upper()`: each character's upper case, in order. */
  function Upper(s: string): (r: string)
    ensures |r| >= |s|
    ensures IsAscii(s) ==> |r| == |s| && forall i :: 0 <= i < |s| ==> r[i] == AsciiUpper(s[i])
  {
    if s == [] then []
    else
      assert IsAscii(s) ==> IsAscii(s[1..]);
      UpperChar(s[0]) + Upper(s[1..])
  }

  /** The long s upper-cases to a plain S. */
  lemma LongSUpper()
    ensures Upper("\U{17f}tatus") == "STATUS"
  {
    var t := "\U{17f}tatus";
    assert t[1..] == "tatus";
    assert UpperChar(t[0]) == "S";
    assert Upper("tatus") == "TATUS" by {
      assert IsAscii("tatus");
    }
    assert Upper(t) == UpperChar(t[0]) + Upper(t[1..]);
    StatusSpelled();
  }

  lemma StatusSpelled()
    ensures "S" + "TATUS" == "STATUS"
  {
  }

  lemma {:induction false} LowerAppend(a: string, b: string)
    ensures Lower(a + b) == Lower(a) + Lower(b)
    decreases |a|
  {
    if a != [] {
      AppendSplits(a, b);
      LowerAppend(a[1..], b);
      assert Lower(a + b) == LowerChar(a[0]) + (Lower(a[1..]) + Lower(b));
      AppendAssociates(LowerChar(a[0]), Lower(a[1..]), Lower(b));
    } else {
      assert a + b == b;
    }
  }

  lemma {:induction false} UpperAppend(a: string, b: string)
    ensures Upper(a + b) == Upper(a) + Upper(b)
    decreases |a|
  {
    if a != [] {
      AppendSplits(a, b);
      UpperAppend(a[1..], b);
      assert Upper(a + b) == UpperChar(a[0]) + (Upper(a[1..]) + Upper(b));
      AppendAssociates(UpperChar(a[0]), Upper(a[1..]), Upper(b));
    } else {
      assert a + b == b;
    }
  }

  /** Two one-element sequences joined are the two-element sequence. */
  lemma AppendPair<T>(a: T, b: T)
    ensures [a] + [b] == [a, b]
  {
  }

  /** A sequence of two elements is the pair of them. */
  lemma PairIs<T>(s: seq<T>)
    requires |s| == 2
    ensures s == [s[0], s[1]]
  {
  }

  lemma AppendAssociates<T>(a: seq<T>, b: seq<T>, c: seq<T>)
    ensures a + (b + c) == (a + b) + c
  {
  }

  /** The head and tail of a concatenation with a non-empty front. */
  lemma AppendSplits<T>(a: seq<T>, b: seq<T>)
    requires a != []
    ensures (a + b)[0] == a[0] && (a + b)[1..] == a[1..] + b
  {
  }

  /** The two halves of a concatenation, sliced back out. */
  lemma AppendSplitsAt<T>(a: seq<T>, b: seq<T>)
    ensures (a + b)[..|a|] == a && (a + b)[|a|..] == b
  {
  }

  /** A sequence is what comes before position `i`, the element there, and what follows. */
  lemma SplitAround<T>(s: seq<T>, i: int)
    requires 0 <= i < |s|
    ensures s == s[..i] + ([s[i]] + s[i + 1..])
  {
    assert [s[i]] + s[i + 1..] == s[i..];
  }

  /** The case of the character at `i` lands between those of its neighbours. */
  lemma UpperAt(s: string, i: int)
    requires 0 <= i < |s|
    ensures Upper(s) == Upper(s[..i]) + (UpperChar(s[i]) + Upper(s[i + 1..]))
  {
    var a, t := s[..i], [s[i]] + s[i + 1..];
    SplitAround(s, i);
    UpperAppend(a, t);
    assert Upper(s) == Upper(a) + Upper(t);
    UpperCons(s[i], s[i + 1..]);
    assert Upper(t) == UpperChar(s[i]) + Upper(s[i + 1..]);
  }

  lemma UpperCons(c: char, s: string)
    ensures Upper([c] + s) == UpperChar(c) + Upper(s)
  {
    assert ([c] + s)[0] == c && ([c] + s)[1..] == s;
  }

  /** The upper case of the character at `i` starts right after the upper
      case of what precedes it. */
  lemma UpperAtIndex(s: string, i: int)
    requires 0 <= i < |s|
    ensures |Upper(s[..i])| < |Upper(s)| && Upper(s)[|Upper(s[..i])|] == UpperChar(s[i])[0]
  {
    UpperAt(s, i);
  }

  lemma LowerAt(s: string, i: int)
    requires 0 <= i < |s|
    ensures Lower(s) == Lower(s[..i]) + (LowerChar(s[i]) + Lower(s[i + 1..]))
  {
    var a, t := s[..i], [s[i]] + s[i + 1..];
    SplitAround(s, i);
    LowerAppend(a, t);
    assert Lower(s) == Lower(a) + Lower(t);
    LowerCons(s[i], s[i + 1..]);
    assert Lower(t) == LowerChar(s[i]) + Lower(s[i + 1..]);
  }

  lemma LowerCons(c: char, s: string)
    ensures Lower([c] + s) == LowerChar(c) + Lower(s)
  {
    assert ([c] + s)[0] == c && ([c] + s)[1..] == s;
  }

  /** Lower-casing twice is lower-casing once. */
  lemma {:induction false} LowerIdempotent(s: string)
    ensures Lower(Lower(s)) == Lower(s)
    decreases |s|
  {
    if s != [] {
      var c := LowerChar(s[0]);
      LowerAppend(c, Lower(s[1..]));
      LowerCharIdempotent(s[0]);
      LowerIdempotent(s[1..]);
    }
  }

  lemma LowerCharIdempotent(c: char)
    ensures Lower(LowerChar(c)) == LowerChar(c)
  {
    var r := LowerChar(c);
    if c == '\U{130}' {
      assert r == ['i'] + ['\U{307}'];
      LowerAppend(['i'], ['\U{307}']);
    }
  }

  /** Upper-casing twice is upper-casing once. */
  lemma {:induction false} UpperIdempotent(s: string)
    ensures Upper(Upper(s)) == Upper(s)
    decreases |s|
  {
    if s != [] {
      var c := UpperChar(s[0]);
      UpperAppend(c, Upper(s[1..]));
      UpperCharIdempotent(s[0]);
      UpperIdempotent(s[1..]);
    }
  }

  lemma UpperCharIdempotent(c: char)
    ensures Upper(UpperChar(c)) == UpperChar(c)
  {
    SpecialUpperIsFinal(c);
    UpperFixed(UpperChar(c));
  }

  /** A string of characters that upper-case to themselves is its own upper case. */
  lemma {:induction false} UpperFixed(s: string)
    requires forall i :: 0 <= i < |s| ==> !IsAsciiLetterLower(s[i]) && SpecialUpper(s[i]) == []
    ensures Upper(s) == s
    decreases |s|
  {
    if s != [] {
      UpperFixed(s[1..]);
    }
  }

  /** The three characters of the case tables whose upper case changes if
      they are lower-cased first: the capital I with dot above, the Kelvin
      sign and the capital sharp s (whose lower case upper-cases to "SS"). */
  predicate CaseDoesNotCommute(c: char) {
    c == '\U{130}' || c == '\U{212a}' || c == '\U{1e9e}'
  }

  /** Lower-casing before upper-casing changes nothing, away from the three
      characters above. */
  lemma {:induction false} UpperOfLower(s: string)
    requires forall i :: 0 <= i < |s| ==> !CaseDoesNotCommute(s[i])
    ensures Upper(Lower(s)) == Upper(s)
    decreases |s|
  {
    if s != [] {
      UpperAppend(LowerChar(s[0]), Lower(s[1..]));
      UpperOfLowerChar(s[0]);
      UpperOfLower(s[1..]);
    }
  }

  lemma UpperOfLowerChar(c: char)
    requires !CaseDoesNotCommute(c)
    ensures Upper(LowerChar(c)) == UpperChar(c)
  {
    var l := LowerChar(c);
    assert l == [l[0]];
    assert Upper(l) == UpperChar(l[0]) + Upper([]);
  }

  /** Characters that lower-case back to where they were after upper-casing:
      all of ASCII, but not the sharp s, the dotless i, the long s or the
      ligatures, whose upper cases lower-case to ASCII letters. */
  predicate CaseRoundTrips(c: char) {
    Lower(UpperChar(c)) == LowerChar(c)
  }

  lemma AsciiCaseRoundTrips(c: char)
    requires c as int < 128
    ensures CaseRoundTrips(c)
  {
  }

  /** Lower-casing forgets an earlier upper-casing, for strings whose every
      character round-trips. */
  lemma {:induction false} LowerOfUpper(s: string)
    requires forall i :: 0 <= i < |s| ==> CaseRoundTrips(s[i])
    ensures Lower(Upper(s)) == Lower(s)
    decreases |s|
  {
    if s != [] {
      LowerAppend(UpperChar(s[0]), Upper(s[1..]));
      LowerOfUpper(s[1..]);
    }
  }

  /** The sharp s does not round-trip: its upper case is "SS". */
  lemma SharpSDoesNotRoundTrip()
    ensures Upper("\U{df}") == "SS"
    ensures Lower(Upper("\U{df}")) == "ss" != Lower("\U{df}")
  {
    assert Upper("\U{df}") == UpperChar('\U{df}') + Upper([]);
    assert Lower("\U{df}") == LowerChar('\U{df}') + Lower([]);
  }

  /** `needle` sits in `hay` starting at index `i`. */
  predicate OccursAt(hay: string, needle: string, i: int) {
    0 <= i && i + |needle| <= |hay| && hay[i..i + |needle|] == needle
  }

  /** Python's substring test `needle in hay`. */
  function Contains(hay: string, needle: string): (b: bool)
    ensures b <==> exists i :: OccursAt(hay, needle, i)
    decreases |hay|
  {
    if needle <= hay then
      assert OccursAt(hay, needle, 0);
      true
    else if hay == [] then
      assert forall i :: !OccursAt(hay, needle, i);
      false
    else
      var b := Contains(hay[1..], needle);
      OccursShift(hay, needle);
      assert !OccursAt(hay, needle, 0);
      b
  }

  /** The occurrences in `hay[1..]` are those in `hay` after index 0, shifted by one. */
  lemma OccursShift(hay: string, needle: string)
    requires hay != []
    ensures forall i :: OccursAt(hay[1..], needle, i) ==> OccursAt(hay, needle, i + 1)
    ensures forall i :: OccursAt(hay, needle, i) && i > 0 ==> OccursAt(hay[1..], needle, i - 1)
  {
    forall i | OccursAt(hay[1..], needle, i) ensures OccursAt(hay, needle, i + 1) {
      assert hay[i + 1..i + 1 + |needle|] == hay[1..][i..i + |needle|];
    }
    forall i | OccursAt(hay, needle, i) && i > 0 ensures OccursAt(hay[1..], needle, i - 1) {
      assert hay[1..][i - 1..i - 1 + |needle|] == hay[i..i + |needle|];
    }
  }

  /** An occurrence of an occurrence is an occurrence. */
  lemma ContainsTransitive(hay: string, mid: string, needle: string)
    requires Contains(hay, mid) && Contains(mid, needle)
    ensures Contains(hay, needle)
  {
    var i :| OccursAt(hay, mid, i);
    var j :| OccursAt(mid, needle, j);
    forall k | 0 <= k < |needle|
      ensures hay[i + j..i + j + |needle|][k] == needle[k]
    {
      assert hay[i + j + k] == hay[i..i + |mid|][j + k] == mid[j + k];
      assert mid[j + k] == mid[j..j + |needle|][k];
    }
    assert hay[i + j..i + j + |needle|] == needle;
    assert OccursAt(hay, needle, i + j);
  }

  predicate IsDigit(c: char) { '0' <= c <= '9' }

  predicate AllDigits(s: string) {
    forall i :: 0 <= i < |s| ==> IsDigit(s[i])
  }

  function DigitChar(d: int): (c: char)
    requires 0 <= d < 10
    ensures IsDigit(c) && c as int - '0' as int == d
  {
    ('0' as int + d) as char
  }

  /** The number a string of decimal digits denotes. */
  function DigitsValue(s: string): nat
    requires AllDigits(s)
  {
    if s == [] then 0 else DigitsValue(s[..|s| - 1]) * 10 + (s[|s| - 1] as int - '0' as int)
  }

  /** Python's `str(n)` and Rust's `{}` for a non-negative integer: the
      canonical decimal numeral (no leading zero, nothing but digits). */
  function NatToString(n: nat): (s: string)
    ensures s != [] && AllDigits(s)
    ensures DigitsValue(s) == n
    ensures s[0] == '0' ==> n == 0 && |s| == 1
  {
    if n < 10 then [DigitChar(n)]
    else
      var p := NatToString(n / 10);
      var s := p + [DigitChar(n % 10)];
      assert s[..|s| - 1] == p;
      s
  }

  /** Python's `str(i)` for any integer. */
  function IntToString(i: int): (s: string)
    ensures s != [] && NoSpace(Python, s) && NoSpace(Rust, s)
    ensures i >= 0 ==> s == NatToString(i)
    ensures i < 0 ==> s == "-" + NatToString(-i)
  {
    if i < 0 then "-" + NatToString(-i) else NatToString(i)
  }

  /** Digits with single underscores between them: the numeral body Python's
      `int()` accepts. */
  predicate IsNumeral(s: string) {
    && s != []
    && IsDigit(s[0])
    && DigitsOrUnderscores(s)
    && forall i :: 0 <= i < |s| && s[i] == '_' ==> i + 1 < |s| && IsDigit(s[i + 1])
  }

  predicate DigitsOrUnderscores(s: string) {
    forall i :: 0 <= i < |s| ==> IsDigit(s[i]) || s[i] == '_'
  }

  function DropUnderscores(s: string): (r: string)
    requires DigitsOrUnderscores(s)
    ensures AllDigits(r) && |r| <= |s|
    ensures AllDigits(s) ==> r == s
  {
    if s == [] then []
    else if s[0] == '_' then DropUnderscores(s[1..])
    else [s[0]] + DropUnderscores(s[1..])
  }

  /** CPython's default `sys.int_info.default_max_str_digits`: `int()` refuses
      a decimal numeral of more digits than this (underscores aside). */
  const MaxStrDigits := 4300

  /** A numeral body `int()` converts: digits and single underscores, with no
      more digits than the limit. */
  predicate IsConvertible(body: string) {
    IsNumeral(body) && |DropUnderscores(body)| <= MaxStrDigits
  }

  /** Python's `int(token)` for a whitespace-free token: an optional sign and
      a numeral of at most `MaxStrDigits` digits; `None` where Python raises
      ValueError. */
  function ParseInt(s: string): (r: Option<int>)
    ensures r.Some? <==> IsConvertible(s) || (s != [] && (s[0] == '+' || s[0] == '-') && IsConvertible(s[1..]))
    ensures IsNumeral(s) && |DropUnderscores(s)| > MaxStrDigits ==> r.None?
    ensures r.Some? && s[0] == '-' ==> r.value <= 0
    ensures r.Some? && s[0] != '-' ==> r.value >= 0
    ensures s != [] && AllDigits(s) && |s| <= MaxStrDigits ==> r == Some(DigitsValue(s))
  {
    if s != [] && (s[0] == '+' || s[0] == '-') then
      var body := s[1..];
      if IsConvertible(body) then
        var v: int := DigitsValue(DropUnderscores(body));
        Some(if s[0] == '-' then -v else v)
      else None
    else if IsConvertible(s) then Some(DigitsValue(DropUnderscores(s)))
    else None
  }

  /** The integers whose decimal numeral `int()` converts back: at most
      `MaxStrDigits` digits, which every whole number of seconds a float
      clock can hold has (a float stays below 2^1024, about 309 digits). */
  predicate WithinDigitLimit(i: int) {
    |NatToString(if i < 0 then -i else i)| <= MaxStrDigits
  }

  /** Printing then parsing an integer gives it back. */
  lemma ParsePrinted(i: int)
    requires WithinDigitLimit(i)
    ensures ParseInt(IntToString(i)) == Some(i)
  {
    var s := IntToString(i);
    if i < 0 {
      var digits := NatToString(-i);
      assert s[0] == '-' && s[1..] == digits;
      DigitsAreNumeral(digits);
    } else {
      DigitsAreNumeral(s);
      assert s[0] != '+' && s[0] != '-';
    }
  }

  /** A non-empty run of digits is a numeral with no underscore to drop. */
  lemma DigitsAreNumeral(s: string)
    requires s != [] && AllDigits(s)
    ensures IsNumeral(s) && DropUnderscores(s) == s
  {
  }

  /** A continuation byte carrying the low six bits of `x`. */
  function Tail(x: nat): byte {
    (0x80 + x % 64) as byte
  }

  /** How many bytes the UTF-8 sequence led by `lead` takes (section 3 of
      RFC 3629): 0xxxxxxx, 110xxxxx, 1110xxxx and 11110xxx lead sequences of
      one to four bytes; any other byte leads none (0). */
  function SequenceLength(lead: byte): nat {
    var v := lead as int;
    if v < 0x80 then 1
    else if 0xC0 <= v < 0xE0 then 2
    else if 0xE0 <= v < 0xF0 then 3
    else if 0xF0 <= v < 0xF8 then 4
    else 0
  }

  /** A byte of the form 10xxxxxx. */
  predicate IsContinuation(b: byte) {
    0x80 <= b as int < 0xC0
  }

  /** The number a well-formed sequence carries: the lead byte's payload
      bits followed by six bits from each continuation byte. */
  function CodePoint(b: seq<byte>): int
    requires 1 <= |b| <= 4
  {
    if |b| == 1 then b[0] as int
    else if |b| == 2 then (b[0] as int - 0xC0) * 64 + (b[1] as int - 0x80)
    else if |b| == 3 then (b[0] as int - 0xE0) * 4096 + (b[1] as int - 0x80) * 64 + (b[2] as int - 0x80)
    else (b[0] as int - 0xF0) * 262144 + (b[1] as int - 0x80) * 4096 + (b[2] as int - 0x80) * 64 + (b[3] as int - 0x80)
  }

  /** A lead byte announcing `|b|` bytes, followed by continuation bytes. */
  predicate WellFormedSequence(b: seq<byte>) {
    && 1 <= |b| <= 4
    && SequenceLength(b[0]) == |b|
    && forall i :: 1 <= i < |b| ==> IsContinuation(b[i])
  }

  predicate IsScalar(v: int) {
    (0 <= v < 0xD800) || (0xE000 <= v < 0x110000)
  }

  /** The UTF-8 encoding of one Unicode scalar value: the shortest form, a
      lead byte announcing its length, continuation bytes after it, and the
      character's number spread over their payload bits. */
  function EncodeChar(c: char): (b: seq<byte>)
    ensures |b| == (if c as int < 0x80 then 1 else if c as int < 0x800 then 2 else if c as int < 0x10000 then 3 else 4)
    ensures WellFormedSequence(b) && CodePoint(b) == c as int
  {
    var n := c as int;
    if n < 0x80 then
      [n as byte]
    else if n < 0x800 then
      EncodeTwo(n);
      [(0xC0 + n / 64) as byte, Tail(n)]
    else if n < 0x10000 then
      EncodeThree(n);
      [(0xE0 + n / 4096) as byte, Tail(n / 64), Tail(n)]
    else
      EncodeFour(n);
      [(0xF0 + n / 262144) as byte, Tail(n / 4096), Tail(n / 64), Tail(n)]
  }

  lemma TailValue(x: nat)
    ensures IsContinuation(Tail(x)) && Tail(x) as int - 0x80 == x % 64
  {
  }

  lemma EncodeTwo(n: int)
    requires 0x80 <= n < 0x800
    ensures var b := [(0xC0 + n / 64) as byte, Tail(n)];
      WellFormedSequence(b) && CodePoint(b) == n
  {
    TailValue(n);
  }

  lemma EncodeThree(n: int)
    requires 0x800 <= n < 0x10000
    ensures var b := [(0xE0 + n / 4096) as byte, Tail(n / 64), Tail(n)];
      WellFormedSequence(b) && CodePoint(b) == n
  {
    TailValue(n / 64);
    TailValue(n);
    DivideTwice(n);
  }

  lemma EncodeFour(n: int)
    requires 0x10000 <= n < 0x110000
    ensures var b := [(0xF0 + n / 262144) as byte, Tail(n / 4096), Tail(n / 64), Tail(n)];
      WellFormedSequence(b) && CodePoint(b) == n
  {
    var b := [(0xF0 + n / 262144) as byte, Tail(n / 4096), Tail(n / 64), Tail(n)];
    var p, q, m := n / 262144, n / 4096, n / 64;
    LeadFour(p);
    TailValue(q);
    TailValue(m);
    TailValue(n);
    DivideTwice(n);
    DivideThrice(n);
    assert q == p * 64 + q % 64;
    assert m == q * 64 + m % 64;
    assert n == m * 64 + n % 64;
    assert b[0] as int == 0xF0 + p;
    assert b[1] as int - 0x80 == q % 64;
    assert b[2] as int - 0x80 == m % 64;
    assert b[3] as int - 0x80 == n % 64;
    assert p * 262144 + (q % 64) * 4096 + (m % 64) * 64 + n % 64 == n;
    assert CodePoint(b) == p * 262144 + (q % 64) * 4096 + (m % 64) * 64 + n % 64;
  }

  lemma LeadFour(p: int)
    requires 0 <= p < 8
    ensures SequenceLength((0xF0 + p) as byte) == 4 && ((0xF0 + p) as byte) as int == 0xF0 + p
  {
  }

  /** Dividing by 4096 and then by 64 is dividing by 262144. */
  lemma DivideThrice(n: nat)
    ensures (n / 4096) / 64 == n / 262144
  {
    var q, r := n / 4096, n % 4096;
    var p, t := q / 64, q % 64;
    assert n == p * 262144 + (t * 4096 + r);
  }

  /** Dividing by 64 twice is dividing by 4096. */
  lemma DivideTwice(n: nat)
    ensures (n / 64) / 64 == n / 4096
  {
    var q, r := n / 64, n % 64;
    var p, t := q / 64, q % 64;
    assert n == p * 4096 + (t * 64 + r);
  }

  /** Python's `str.encode()` and Rust's `str::as_bytes`: UTF-8, each
      character's encoding in order. */
  function Utf8(s: string): (b: seq<byte>)
    ensures |s| <= |b| <= 4 * |s|
    ensures IsAscii(s) ==> |b| == |s| && forall i :: 0 <= i < |s| ==> b[i] as int == s[i] as int
  {
    if s == [] then []
    else
      var b := EncodeChar(s[0]) + Utf8(s[1..]);
      assert IsAscii(s) ==> IsAscii(s[1..]);
      b
  }

  /** Reads UTF-8 back into characters; `None` at a byte that cannot lead a
      sequence, a sequence cut short or missing a continuation byte, or a
      number that is no Unicode scalar value. */
  function DecodeUtf8(b: seq<byte>): (r: Option<string>)
    decreases |b|
  {
    if b == [] then Some([])
    else
      var n := SequenceLength(b[0]);
      if n == 0 || n > |b| || exists i :: 1 <= i < n && !IsContinuation(b[i]) then None
      else if !IsScalar(CodePoint(b[..n])) then None
      else
        match DecodeUtf8(b[n..])
        case None => None
        case Some(rest) => Some([CodePoint(b[..n]) as char] + rest)
  }

  /** Decoding an encoding gives the characters back. */
  lemma {:induction false} DecodeUtf8Encoded(s: string)
    ensures DecodeUtf8(Utf8(s)) == Some(s)
    decreases |s|
  {
    if s != [] {
      var e := EncodeChar(s[0]);
      DecodeUtf8Encoded(s[1..]);
      DecodeOneMore(e, Utf8(s[1..]), s[1..]);
      assert [CodePoint(e) as char] + s[1..] == s;
    }
  }

  /** A well-formed sequence in front of decodable bytes is read first. */
  lemma DecodeOneMore(e: seq<byte>, rest: seq<byte>, chars: string)
    requires WellFormedSequence(e) && IsScalar(CodePoint(e))
    requires DecodeUtf8(rest) == Some(chars)
    ensures DecodeUtf8(e + rest) == Some([CodePoint(e) as char] + chars)
  {
    var b := e + rest;
    assert b[0] == e[0];
    assert b[..|e|] == e && b[|e|..] == rest;
    assert forall i :: 1 <= i < |e| ==> b[i] == e[i];
  }
}

=== FILE: trash.dfy ===
/**
 * The recoverable trash (master-agent/core/trash_manager.py). Deleting a path
 * moves it into a fresh sub-directory of the trash named by a trash id,
 * beside a `metadata.json` describing it, and appends that metadata to the
 * trash-wide `index.json`; restoring moves it back, renaming it when its
 * original path is taken again.
 *
 * The filesystem outside the trash is a map from the paths the model tracks
 * to their contents. Each trash sub-directory is a `Slot` holding the
 * metadata file (when one could be written) and at most one item. The clock,
 * the trash id the hash produces and the order `os.listdir` returns are
 * parameters.
 */
module Trash {
  import opened Wrappers
  import Text
  import Clock
  import Policy

  const SecondsPerDay: int := 86400
  const DefaultRetentionDays: int := 30
  const MetadataName: string := "metadata.json"
  const IndexName: string := "index.json"
  const RestoredInfix: string := "_restored_"

  /** A path: the directory part and the last component (`path.name`). */
  datatype Path = Path(dir: string, name: string)

  /** The contents found at a path: a file's bytes, or a directory's entries. */
  datatype Payload = File(data: seq<byte>) | Directory(entries: seq<Entry>)
  datatype Entry = Entry(name: string, payload: Payload)

  /** `_get_size`: a file's byte count, or the total over a directory's entries. */
  function Size(p: Payload): (n: nat)
    ensures p.File? ==> n == |p.data|
    ensures p.Directory? ==> forall i :: 0 <= i < |p.entries| ==> Size(p.entries[i].payload) <= n
    decreases p, 1
  {
    match p
    case File(data) => |data|
    case Directory(es) => EntriesSize(es)
  }

  /** The total size of a directory's entries: no entry weighs more than all of them. */
  function EntriesSize(es: seq<Entry>): (n: nat)
    ensures forall i :: 0 <= i < |es| ==> Size(es[i].payload) <= n
    decreases es, 0
  {
    if es == [] then 0
    else
      var rest := EntriesSize(es[1..]);
      assert forall i :: 1 <= i < |es| ==> es[i] == es[1..][i - 1];
      Size(es[0].payload) + rest
  }

  /** The size of a directory is the sum over its parts. */
  lemma {:induction false} EntriesSizeAppend(a: seq<Entry>, b: seq<Entry>)
    ensures EntriesSize(a + b) == EntriesSize(a) + EntriesSize(b)
    decreases |a|
  {
    if a == [] {
      assert a + b == b;
    } else {
      assert (a + b)[0] == a[0];
      assert (a + b)[1..] == a[1..] + b;
      EntriesSizeAppend(a[1..], b);
    }
  }

  /** ... whatever order the walk takes them in. */
  lemma {:induction false} EntriesSizePermutation(a: seq<Entry>, b: seq<Entry>)
    requires multiset(a) == multiset(b)
    ensures EntriesSize(a) == EntriesSize(b)
    decreases |a|
  {
    if a == [] {
      assert |b| == |multiset(b)| == 0;
    } else {
      var j := FindIndex(b, a[0]);
      RemoveMatching(a, b, j);
      EntriesSizePermutation(a[1..], b[..j] + b[j + 1..]);
      EntriesSizeRemove(b, j);
    }
  }

  /** An element of a sequence sits at some index of it. */
  lemma FindIndex<T>(s: seq<T>, x: T) returns (j: int)
    requires x in multiset(s)
    ensures 0 <= j < |s| && s[j] == x
  {
    assert x in s;
    j :| 0 <= j < |s| && s[j] == x;
  }

  /** Taking the first element from one sequence and an equal one from a
      permutation of it leaves permutations of each other. */
  lemma RemoveMatching<T>(a: seq<T>, b: seq<T>, j: int)
    requires a != [] && multiset(a) == multiset(b) && 0 <= j < |b| && b[j] == a[0]
    ensures multiset(a[1..]) == multiset(b[..j] + b[j + 1..])
  {
    RemoveOne(b, j);
    DropFirst(a);
  }

  lemma DropFirst<T>(s: seq<T>)
    requires s != []
    ensures multiset(s[1..]) == multiset(s) - multiset{s[0]}
  {
    assert s == [s[0]] + s[1..];
  }

  lemma RemoveOne<T>(s: seq<T>, j: int)
    requires 0 <= j < |s|
    ensures multiset(s[..j] + s[j + 1..]) == multiset(s) - multiset{s[j]}
  {
    assert s == s[..j] + [s[j]] + s[j + 1..];
    assert multiset(s) == multiset(s[..j]) + multiset{s[j]} + multiset(s[j + 1..]);
  }

  /** Taking one entry out takes its size out of the total. */
  lemma EntriesSizeRemove(b: seq<Entry>, j: int)
    requires 0 <= j < |b|
    ensures EntriesSize(b) == Size(b[j].payload) + EntriesSize(b[..j] + b[j + 1..])
  {
    Text.SplitAround(b, j);
    EntriesSizeAppend(b[..j], [b[j]] + b[j + 1..]);
    EntriesSizeCons(b[j], b[j + 1..]);
    EntriesSizeAppend(b[..j], b[j + 1..]);
  }

  lemma EntriesSizeCons(e: Entry, es: seq<Entry>)
    ensures EntriesSize([e] + es) == Size(e.payload) + EntriesSize(es)
  {
    assert ([e] + es)[0] == e && ([e] + es)[1..] == es;
  }

  /** The JSON written to `metadata.json` and appended to `index.json`. */
  datatype Metadata = Metadata(
    trashId: string,
    originalPath: Path,
    deletedAt: real,
    fileSize: nat,
    permanent: bool,
    recoverable: bool,
    restoredAt: Option<real>,
    restoredTo: Option<Path>)

  /** The deleted file or directory as it sits in its trash sub-directory. */
  datatype Item = Item(name: string, payload: Payload)

  /** One trash sub-directory. */
  datatype Slot = Slot(metadata: Option<Metadata>, item: Option<Item>)

  /** The tracked filesystem, the trash sub-directories by trash id, and `index.json`. */
  datatype Disk = Disk(fs: map<Path, Payload>, slots: map<string, Slot>, index: seq<Metadata>)

  /** The two policy values the trash reads. */
  datatype Manager = Manager(permanentDelete: bool, retentionDays: int)

  /** `TrashManager(config_path)`: `recovery.trash_retention_days` (default 30)
      and `recovery.permanent_delete` (default False). */
  function New(p: Policy.Policy): (m: Manager)
    ensures p.recovery.trashRetentionDays.None? ==> m.retentionDays == DefaultRetentionDays
    ensures p.recovery.trashRetentionDays.Some? ==> m.retentionDays == p.recovery.trashRetentionDays.value
    ensures m.permanentDelete <==> p.recovery.permanentDelete == Some(true)
  {
    Manager(p.recovery.permanentDelete.GetOr(false), p.recovery.trashRetentionDays.GetOr(DefaultRetentionDays))
  }

  /** The exceptions the trash raises or lets escape. */
  datatype TrashError =
    | PermanentDeletionDisabled      // PermissionError
    | PathNotFound(path: Path)       // FileNotFoundError
    | TrashIdExists(trashId: string) // FileExistsError from mkdir
    | MetadataIsDirectory            // IsADirectoryError writing metadata.json
    | ItemNotFound(trashId: string)  // FileNotFoundError
    | MetadataUnreadable(trashId: string)
    | NotRecoverable                 // PermissionError
    | NoItems                        // FileNotFoundError
    | DestinationExists(path: Path)  // shutil.Error
    | MoveFailed(path: Path)         // a directory cannot replace a file

  /** The message of each error the source words itself. */
  function Message(e: TrashError): string {
    match e
    case PermanentDeletionDisabled => "Permanent deletion is disabled by security policy"
    case ItemNotFound(id) => "Trash item " + id + " not found"
    case NotRecoverable => "This item is not recoverable"
    case NoItems => "No items found in trash"
    case _ => ""
  }

  /** The ids `sha256(...).hexdigest()[:16]` produces: 16 lower-case hex digits. */
  predicate IsTrashId(id: string) {
    |id| == 16 && forall i :: 0 <= i < |id| ==> ('0' <= id[i] <= '9' || 'a' <= id[i] <= 'f')
  }

  /** What every reachable trash satisfies: a sub-directory's metadata names
      that sub-directory, and no item beside a metadata file is called
      `metadata.json`. */
  predicate SlotWellFormed(id: string, s: Slot) {
    s.metadata.Some? ==> s.metadata.value.trashId == id && (s.item.Some? ==> s.item.value.name != MetadataName)
  }

  predicate WellFormed(d: Disk) {
    forall id :: id in d.slots ==> SlotWellFormed(id, d.slots[id])
  }

  /** `delete_to_trash(path, permanent)`: the policy check, the existence
      check, the sub-directory, the move, the metadata file and the index
      entry, in that order. A deleted directory named `metadata.json` makes the
      metadata write fail after the move; a deleted file of that name is
      overwritten by it. */
  function DeleteToTrash(m: Manager, d: Disk, path: Path, permanent: bool, trashId: string, now: real)
    : (r: (Disk, Result<Metadata, TrashError>))
    requires IsTrashId(trashId)
    ensures permanent && !m.permanentDelete ==> r == (d, Err(PermanentDeletionDisabled))
    ensures (!permanent || m.permanentDelete) && path !in d.fs ==> r == (d, Err(PathNotFound(path)))
    ensures (!permanent || m.permanentDelete) && path in d.fs && trashId in d.slots ==> r == (d, Err(TrashIdExists(trashId)))
    ensures (!permanent || m.permanentDelete) && path in d.fs && trashId !in d.slots
            && path.name == MetadataName && d.fs[path].Directory? ==>
      && r.1 == Err(MetadataIsDirectory)
      && trashId in r.0.slots && r.0.slots[trashId] == Slot(None, Some(Item(path.name, d.fs[path])))
    ensures r.1.Ok? <==> && (!permanent || m.permanentDelete) && path in d.fs && trashId !in d.slots
                         && !(path.name == MetadataName && d.fs[path].Directory?)
    ensures r.1.Ok? ==>
      && r.1.value == Metadata(trashId, path, now, Size(d.fs[path]), permanent, !permanent, None, None)
      && r.0.index == d.index + [r.1.value]
      && trashId in r.0.slots && r.0.slots[trashId].metadata == Some(r.1.value)
    ensures r.1.Ok? && path.name != MetadataName ==> r.0.slots[trashId].item == Some(Item(path.name, d.fs[path]))
    ensures r.1.Ok? && path.name == MetadataName ==> r.0.slots[trashId].item.None?
    ensures r.1.Err? ==> r.0.index == d.index
    ensures (!permanent || m.permanentDelete) && path in d.fs && trashId !in d.slots ==> path !in r.0.fs
    ensures forall q :: q != path ==> (q in r.0.fs <==> q in d.fs) && (q in d.fs ==> r.0.fs[q] == d.fs[q])
    ensures forall id :: id != trashId ==> (id in r.0.slots <==> id in d.slots) && (id in d.slots ==> r.0.slots[id] == d.slots[id])
    ensures WellFormed(d) ==> WellFormed(r.0)
  {
    if permanent && !m.permanentDelete then (d, Err(PermanentDeletionDisabled))
    else if path !in d.fs then (d, Err(PathNotFound(path)))
    else if trashId in d.slots then (d, Err(TrashIdExists(trashId)))
    else
      var payload := d.fs[path];
      var fs := d.fs - {path};
      var meta := Metadata(trashId, path, now, Size(payload), permanent, !permanent, None, None);
      if path.name == MetadataName then
        if payload.Directory? then
          (Disk(fs, d.slots[trashId := Slot(None, Some(Item(path.name, payload)))], d.index), Err(MetadataIsDirectory))
        else
          (Disk(fs, d.slots[trashId := Slot(Some(meta), None)], d.index + [meta]), Ok(meta))
      else
        (Disk(fs, d.slots[trashId := Slot(Some(meta), Some(Item(path.name, payload)))], d.index + [meta]), Ok(meta))
  }

  /** `str.rfind('.')`: the last dot, or -1. */
  function LastDot(s: string): (i: int)
    ensures -1 <= i < |s|
    ensures i >= 0 ==> s[i] == '.'
    ensures forall j :: i < j < |s| ==> s[j] != '.'
  {
    if |s| == 0 then -1
    else if s[|s| - 1] == '.' then |s| - 1
    else LastDot(s[..|s| - 1])
  }

  /** pathlib's rule: the last dot starts the suffix unless it is the first
      or the last character of the name. */
  predicate HasSuffix(name: string) {
    0 < LastDot(name) < |name| - 1
  }

  /** `PurePath.suffix`. */
  function Suffix(name: string): (s: string)
    ensures s == [] || (s[0] == '.' && |s| >= 2)
    ensures forall j :: 0 < j < |s| ==> s[j] != '.'
  {
    if HasSuffix(name) then name[LastDot(name)..] else ""
  }

  /** `PurePath.stem`. */
  function Stem(name: string): (s: string)
    ensures s + Suffix(name) == name
  {
    if HasSuffix(name) then name[..LastDot(name)] else name
  }

  /** The name a restore falls back to when the original path is taken:
      `<stem>_restored_<seconds><suffix>` in the same directory. It is always
      a different, longer name. */
  function RestoredPath(p: Path, seconds: int): (q: Path)
    ensures q.dir == p.dir
    ensures |q.name| > |p.name|
    ensures q != p
  {
    Path(p.dir, Stem(p.name) + RestoredInfix + Text.IntToString(seconds) + Suffix(p.name))
  }

  predicate HasEntry(es: seq<Entry>, name: string) {
    exists i :: 0 <= i < |es| && es[i].name == name
  }

  /** `shutil.move(item, dst)`: onto a free path it renames; into an existing
      directory it moves the item inside unless a same-named entry is already
      there; a file replaces an existing file; a directory cannot replace a file. */
  function Move(fs: map<Path, Payload>, item: Item, dst: Path): (r: Result<map<Path, Payload>, TrashError>)
    ensures dst !in fs ==> r == Ok(fs[dst := item.payload])
    ensures dst in fs && fs[dst].Directory? && HasEntry(fs[dst].entries, item.name) ==> r == Err(DestinationExists(dst))
    ensures dst in fs && fs[dst].Directory? && !HasEntry(fs[dst].entries, item.name) ==>
      r.Ok? && dst in r.value && r.value[dst] == Directory(fs[dst].entries + [Entry(item.name, item.payload)])
    ensures dst in fs && fs[dst].File? && item.payload.File? ==> r == Ok(fs[dst := item.payload])
    ensures dst in fs && fs[dst].File? && item.payload.Directory? ==> r == Err(MoveFailed(dst))
    ensures r.Ok? ==> dst in r.value && r.value.Keys == fs.Keys + {dst}
    ensures r.Ok? ==> forall q :: q in fs && q != dst ==> r.value[q] == fs[q]
  {
    if dst !in fs then Ok(fs[dst := item.payload])
    else match fs[dst]
      case Directory(es) =>
        if HasEntry(es, item.name) then Err(DestinationExists(dst))
        else Ok(fs[dst := Directory(es + [Entry(item.name, item.payload)])])
      case File(_) =>
        if item.payload.File? then Ok(fs[dst := item.payload]) else Err(MoveFailed(dst))
  }

  /** Where a restore puts the item: the original path, or the
      `_restored_<seconds>` name beside it when the original path exists. */
  function RestoreTarget(fs: map<Path, Payload>, original: Path, now: real): (q: Path)
    ensures original !in fs ==> q == original
    ensures original in fs ==> q != original && q.dir == original.dir
  {
    if original in fs then RestoredPath(original, Clock.Trunc(now)) else original
  }

  /** Whether a restore of `trashId` can succeed: the sub-directory exists, its
      metadata is readable and recoverable, it holds an item not among the
      skipped names, and the move to the target is possible. */
  predicate Restorable(skipped: set<string>, d: Disk, trashId: string, now: real) {
    && trashId in d.slots
    && var s := d.slots[trashId];
       && s.metadata.Some? && s.metadata.value.recoverable
       && s.item.Some? && s.item.value.name !in skipped
       && Move(d.fs, s.item.value, RestoreTarget(d.fs, s.metadata.value.originalPath, now)).Ok?
  }

  /** `restore(trash_id)`, with the names skipped when looking for the item as
      a parameter: the source skips both `metadata.json` and `index.json`. */
  function RestoreSkipping(skipped: set<string>, d: Disk, trashId: string, now: real): (r: (Disk, Result<Path, TrashError>))
    ensures trashId !in d.slots ==> r == (d, Err(ItemNotFound(trashId)))
    ensures trashId in d.slots && d.slots[trashId].metadata.None? ==> r == (d, Err(MetadataUnreadable(trashId)))
    ensures trashId in d.slots && d.slots[trashId].metadata.Some? && !d.slots[trashId].metadata.value.recoverable
            ==> r == (d, Err(NotRecoverable))
    ensures trashId in d.slots && d.slots[trashId].metadata.Some? && d.slots[trashId].metadata.value.recoverable
            && (d.slots[trashId].item.None? || d.slots[trashId].item.value.name in skipped)
            ==> r == (d, Err(NoItems))
    ensures trashId in d.slots && d.slots[trashId].metadata.Some? && d.slots[trashId].item.Some? ==>
      var s := d.slots[trashId];
      var moved := Move(d.fs, s.item.value, RestoreTarget(d.fs, s.metadata.value.originalPath, now));
      s.metadata.value.recoverable && s.item.value.name !in skipped && moved.Err? ==> r == (d, Err(moved.error))
    ensures r.1.Err? ==> r.0 == d
    ensures r.1.Ok? <==> Restorable(skipped, d, trashId, now)
    ensures r.1.Ok? ==>
      var s := d.slots[trashId];
      var original := s.metadata.value.originalPath;
      && r.1.value == RestoreTarget(d.fs, original, now)
      && (original !in d.fs ==> r.0.fs == d.fs[original := s.item.value.payload])
      && r.0.fs == Move(d.fs, s.item.value, r.1.value).value
      && r.0.slots == d.slots[trashId := Slot(Some(s.metadata.value.(restoredAt := Some(now), restoredTo := Some(r.1.value))), None)]
      && r.0.index == d.index
    ensures WellFormed(d) ==> WellFormed(r.0)
  {
    if trashId !in d.slots then (d, Err(ItemNotFound(trashId)))
    else
      var slot := d.slots[trashId];
      if slot.metadata.None? then (d, Err(MetadataUnreadable(trashId)))
      else
        var meta := slot.metadata.value;
        if !meta.recoverable then (d, Err(NotRecoverable))
        else if slot.item.None? || slot.item.value.name in skipped then (d, Err(NoItems))
        else
          var target := RestoreTarget(d.fs, meta.originalPath, now);
          match Move(d.fs, slot.item.value, target)
          case Err(e) => (d, Err(e))
          case Ok(fs) =>
            var meta' := meta.(restoredAt := Some(now), restoredTo := Some(target));
            (Disk(fs, d.slots[trashId := Slot(Some(meta'), None)], d.index), Ok(target))
  }

  /** `restore` as written: an item named `index.json` is skipped like the metadata file. */
  function RestoreAsWritten(d: Disk, trashId: string, now: real): (r: (Disk, Result<Path, TrashError>))
    ensures trashId in d.slots && d.slots[trashId].item.Some? && d.slots[trashId].item.value.name == IndexName
            ==> r.1.Err? && r.0 == d
  {
    RestoreSkipping({MetadataName, IndexName}, d, trashId, now)
  }

  /** `restore` as intended: only the metadata file is skipped. */
  function Restore(d: Disk, trashId: string, now: real): (r: (Disk, Result<Path, TrashError>))
    ensures r.1.Ok? <==> Restorable({MetadataName}, d, trashId, now)
    ensures r.1.Err? ==> r.0 == d
    ensures r.1.Ok? ==> r.0.index == d.index && trashId in r.0.slots && r.0.slots[trashId].item.None?
  {
    RestoreSkipping({MetadataName}, d, trashId, now)
  }

  /** Deleting a path that is not the metadata file's name and restoring it
      puts the same contents back at the same path, and nothing else in the
      tracked filesystem changes. */
  lemma DeleteRestoreRoundTrip(m: Manager, d: Disk, path: Path, trashId: string, t1: real, t2: real)
    requires IsTrashId(trashId)
    requires path in d.fs && trashId !in d.slots && path.name != MetadataName
    ensures var (d1, r1) := DeleteToTrash(m, d, path, false, trashId, t1);
      && r1.Ok?
      && var (d2, r2) := Restore(d1, trashId, t2);
         && r2 == Ok(path) && d2.fs == d.fs && d2.index == d.index + [r1.value]
  {
    var (d1, r1) := DeleteToTrash(m, d, path, false, trashId, t1);
    var (d2, r2) := Restore(d1, trashId, t2);
    assert path !in d1.fs;
    var item := d1.slots[trashId].item.value;
    assert Move(d1.fs, item, path).Ok?;
    assert d2.fs == d1.fs[path := d.fs[path]];
    assert d2.fs == d.fs;
  }

  /** Finding: a deleted file or directory named `index.json` can never be
      restored by the code as written; it stays in the trash. The corrected
      restore gives it back. */
  lemma IndexJsonNeverRestored(m: Manager, d: Disk, dir: string, trashId: string, t1: real, t2: real)
    requires IsTrashId(trashId)
    requires Path(dir, IndexName) in d.fs && trashId !in d.slots
    ensures var (d1, r1) := DeleteToTrash(m, d, Path(dir, IndexName), false, trashId, t1);
      && r1.Ok?
      && RestoreAsWritten(d1, trashId, t2) == (d1, Err(NoItems))
      && Path(dir, IndexName) !in d1.fs
      && Restore(d1, trashId, t2).1 == Ok(Path(dir, IndexName))
  {
    var path := Path(dir, IndexName);
    DeleteRestoreRoundTrip(m, d, path, trashId, t1, t2);
  }

  /** A deleted file named `metadata.json` is overwritten by its own metadata:
      the deletion reports success and the file leaves the tracked
      filesystem, but the trash no longer holds its contents and a restore
      finds nothing. */
  lemma MetadataNamedFileIsLost(m: Manager, d: Disk, dir: string, trashId: string, t1: real, t2: real)
    requires IsTrashId(trashId)
    requires Path(dir, MetadataName) in d.fs && d.fs[Path(dir, MetadataName)].File?
    requires trashId !in d.slots
    ensures var (d1, r1) := DeleteToTrash(m, d, Path(dir, MetadataName), false, trashId, t1);
      && r1.Ok?
      && d1.fs == d.fs - {Path(dir, MetadataName)}
      && d1.slots[trashId].item.None?
      && Restore(d1, trashId, t2) == (d1, Err(NoItems))
  {
  }

  /** A second restore of the same id finds the sub-directory empty. */
  lemma RestoreTwiceFails(d: Disk, trashId: string, t1: real, t2: real)
    requires Restore(d, trashId, t1).1.Ok?
    ensures var d1 := Restore(d, trashId, t1).0;
      Restore(d1, trashId, t2) == (d1, Err(NoItems))
  {
  }

  /** When something new was created at the original path, a restore leaves
      it untouched and puts the old contents beside it under the
      `_restored_<seconds>` name. */
  lemma RestoreBesideNewFile(m: Manager, d: Disk, path: Path, created: Payload, trashId: string, t1: real, t2: real)
    requires IsTrashId(trashId)
    requires path in d.fs && trashId !in d.slots && path.name != MetadataName
    requires RestoredPath(path, Clock.Trunc(t2)) !in d.fs
    ensures var (d1, r1) := DeleteToTrash(m, d, path, false, trashId, t1);
      var d1' := d1.(fs := d1.fs[path := created]);
      var (d2, r2) := Restore(d1', trashId, t2);
      && r2 == Ok(RestoredPath(path, Clock.Trunc(t2)))
      && d2.fs[path] == created
      && d2.fs[RestoredPath(path, Clock.Trunc(t2))] == d.fs[path]
  {
  }

  /** A policy produced by the generator refuses every permanent deletion and keeps items 30 days. */
  lemma GeneratedPolicyRefusesPermanentDelete(userId: string, level: string, cpus: Option<nat>, email: Option<string>,
                                              webhook: Option<string>, d: Disk, path: Path, trashId: string, now: real)
    requires IsTrashId(trashId)
    ensures var m := New(Policy.GenerateConfig(userId, level, cpus, email, webhook));
      && m.retentionDays == 30
      && DeleteToTrash(m, d, path, true, trashId, now) == (d, Err(PermanentDeletionDisabled))
  {
  }

  /** The metadata `list_trash` can read, in listing order: sub-directories
      whose `metadata.json` exists. Other entries (`index.json`, unreadable
      sub-directories) are skipped. */
  function ReadAll(slots: map<string, Slot>, listing: seq<string>): (r: seq<Metadata>)
    ensures forall x :: x in r <==> exists k :: k in listing && k in slots && slots[k].metadata == Some(x)
  {
    if listing == [] then []
    else
      var k := listing[0];
      var here := if k in slots && slots[k].metadata.Some? then [slots[k].metadata.value] else [];
      assert forall j :: j in listing[1..] ==> j in listing;
      here + ReadAll(slots, listing[1..])
  }

  /** Newest first: each item was deleted no earlier than the next. */
  predicate SortedByNewest(s: seq<Metadata>) {
    forall i :: 0 < i < |s| ==> s[i - 1].deletedAt >= s[i].deletedAt
  }

  /** Sorted neighbours give a sorted whole: any earlier item is at least as new as any later one. */
  lemma {:induction false} SortedByNewestPairwise(s: seq<Metadata>, i: int, j: int)
    requires SortedByNewest(s)
    requires 0 <= i < j < |s|
    ensures s[i].deletedAt >= s[j].deletedAt
    decreases j - i
  {
    if i + 1 < j {
      SortedByNewestPairwise(s, i + 1, j);
    }
  }

  /** One step of a stable insertion sort: `x` goes before the first item not newer than it. */
  function Insert(x: Metadata, s: seq<Metadata>): (r: seq<Metadata>)
    requires SortedByNewest(s)
    ensures SortedByNewest(r)
    ensures multiset(r) == multiset(s) + multiset{x}
    ensures |r| == |s| + 1
    ensures r[0] == x || (|s| > 0 && r[0] == s[0])
  {
    if s == [] || x.deletedAt >= s[0].deletedAt then [x] + s
    else
      assert s == [s[0]] + s[1..];
      [s[0]] + Insert(x, s[1..])
  }

  /** `sorted(items, key=deleted_at, reverse=True)`. */
  function SortNewestFirst(s: seq<Metadata>): (r: seq<Metadata>)
    ensures SortedByNewest(r)
    ensures multiset(r) == multiset(s)
  {
    if s == [] then []
    else
      assert s == [s[0]] + s[1..];
      Insert(s[0], SortNewestFirst(s[1..]))
  }

  /** `list_trash()`: every readable metadata of the listed sub-directories, newest first. */
  function ListTrash(d: Disk, listing: seq<string>): (r: seq<Metadata>)
    ensures SortedByNewest(r)
    ensures multiset(r) == multiset(ReadAll(d.slots, listing))
    ensures forall x :: x in r <==> exists k :: k in listing && k in d.slots && d.slots[k].metadata == Some(x)
  {
    var all := ReadAll(d.slots, listing);
    var r := SortNewestFirst(all);
    forall x
      ensures x in r <==> x in all
    {
      assert x in r <==> x in multiset(r);
      assert x in all <==> x in multiset(all);
    }
    r
  }

  predicate NoDuplicates(listing: seq<string>) {
    forall i, j :: 0 <= i < j < |listing| ==> listing[i] != listing[j]
  }

  /** What `os.listdir` gives for the trash directory: each entry once, and
      every sub-directory among them. */
  predicate ListsEverySlot(d: Disk, listing: seq<string>) {
    NoDuplicates(listing) && forall k :: k in d.slots ==> k in listing
  }

  /** The metadata of sub-directory `x.trashId`, if that is readable and is `x`. */
  predicate ReadableAs(slots: map<string, Slot>, x: Metadata) {
    x.trashId in slots && slots[x.trashId].metadata == Some(x)
  }

  /** In a well-formed trash a duplicate-free listing reads each metadata
      at most once: exactly once when its sub-directory is listed. */
  lemma {:induction false} ReadAllOnce(d: Disk, listing: seq<string>, x: Metadata)
    requires WellFormed(d) && NoDuplicates(listing)
    ensures multiset(ReadAll(d.slots, listing))[x] == if x.trashId in listing && ReadableAs(d.slots, x) then 1 else 0
    decreases |listing|
  {
    if listing != [] {
      var k := listing[0];
      var here := if k in d.slots && d.slots[k].metadata.Some? then [d.slots[k].metadata.value] else [];
      assert ReadAll(d.slots, listing) == here + ReadAll(d.slots, listing[1..]);
      assert NoDuplicates(listing[1..]) by {
        forall i, j | 0 <= i < j < |listing| - 1 ensures listing[1..][i] != listing[1..][j] {
          assert listing[1..][i] == listing[i + 1] && listing[1..][j] == listing[j + 1];
        }
      }
      ReadAllOnce(d, listing[1..], x);
      assert k !in listing[1..] by {
        forall j | 0 <= j < |listing| - 1 ensures listing[1..][j] != k {
          assert listing[1..][j] == listing[j + 1];
        }
      }
      if k in d.slots {
        assert SlotWellFormed(k, d.slots[k]);
      }
      assert x.trashId in listing <==> x.trashId == k || x.trashId in listing[1..];
    }
  }

  /** When the listing names every sub-directory once, `list_trash` shows
      every readable metadata exactly once and nothing else. */
  lemma ListedOnce(d: Disk, listing: seq<string>, x: Metadata)
    requires WellFormed(d) && ListsEverySlot(d, listing)
    ensures multiset(ListTrash(d, listing))[x] == if ReadableAs(d.slots, x) then 1 else 0
  {
    ReadAllOnce(d, listing, x);
  }

  /** A successful deletion is listed afterwards, as long as the listing names its sub-directory. */
  lemma DeletedIsListed(m: Manager, d: Disk, path: Path, permanent: bool, trashId: string, now: real, listing: seq<string>)
    requires IsTrashId(trashId)
    requires DeleteToTrash(m, d, path, permanent, trashId, now).1.Ok?
    requires trashId in listing
    ensures var (d1, r1) := DeleteToTrash(m, d, path, permanent, trashId, now);
      r1.value in ListTrash(d1, listing)
  {
  }

  /** The `deleted_at` bound below which `empty_trash` removes items. */
  function Cutoff(m: Manager, olderThanDays: Option<int>, now: real): (c: real)
    ensures olderThanDays.None? ==> c == now - (m.retentionDays * SecondsPerDay) as real
    ensures olderThanDays.Some? ==> c == now - (olderThanDays.value * SecondsPerDay) as real
  {
    now - (olderThanDays.GetOr(m.retentionDays) * SecondsPerDay) as real
  }

  /** The condition under which `empty_trash` removes the sub-directory of the `j`-th listed item. */
  predicate Removes(slots: map<string, Slot>, items: seq<Metadata>, j: nat, cutoff: real, failing: set<string>)
    requires j < |items|
  {
    items[j].deletedAt < cutoff && items[j].trashId in slots && items[j].trashId !in failing
  }

  /** The sub-directories removed by a pass over the first `n` listed items:
      those older than the cutoff whose removal does not fail. */
  function Expired(slots: map<string, Slot>, items: seq<Metadata>, n: nat, cutoff: real, failing: set<string>): set<string>
    requires n <= |items|
  {
    set j | 0 <= j < n && Removes(slots, items, j, cutoff, failing) :: items[j].trashId
  }

  lemma ExpiredStep(slots: map<string, Slot>, items: seq<Metadata>, n: nat, cutoff: real, failing: set<string>)
    requires n < |items|
    ensures Removes(slots, items, n, cutoff, failing) ==>
      Expired(slots, items, n + 1, cutoff, failing) == Expired(slots, items, n, cutoff, failing) + {items[n].trashId}
    ensures !Removes(slots, items, n, cutoff, failing) ==>
      Expired(slots, items, n + 1, cutoff, failing) == Expired(slots, items, n, cutoff, failing)
  {
  }

  /** `empty_trash(older_than_days)`: removes each listed sub-directory older
      than the cutoff and counts the removals. `failing` holds the ids whose
      removal raises; those are logged and kept. */
  method EmptyTrash(m: Manager, d: Disk, olderThanDays: Option<int>, now: real, listing: seq<string>, failing: set<string>)
    returns (d': Disk, count: nat)
    ensures var removed := Expired(d.slots, ListTrash(d, listing), |ListTrash(d, listing)|, Cutoff(m, olderThanDays, now), failing);
      && (forall id :: id in d'.slots <==> id in d.slots && id !in removed)
      && count == |removed|
    ensures forall id :: id in d'.slots ==> d'.slots[id] == d.slots[id]
    ensures d'.fs == d.fs && d'.index == d.index
    ensures WellFormed(d) ==> WellFormed(d')
  {
    var slots;
    slots, count := RemoveExpired(d.slots, ListTrash(d, listing), Cutoff(m, olderThanDays, now), failing);
    d' := d.(slots := slots);
    FewerSlotsWellFormed(d, d');
  }

  /** The removal loop of `empty_trash` over the listed items, in order. */
  method RemoveExpired(slots: map<string, Slot>, items: seq<Metadata>, cutoff: real, failing: set<string>)
    returns (kept: map<string, Slot>, count: nat)
    ensures kept == Without(slots, Expired(slots, items, |items|, cutoff, failing))
    ensures count == |Expired(slots, items, |items|, cutoff, failing)|
  {
    kept := slots;
    count := 0;
    var i := 0;
    ghost var removed: set<string> := {};
    while i < |items|
      invariant 0 <= i <= |items|
      invariant removed == Expired(slots, items, i, cutoff, failing)
      invariant kept == Without(slots, removed)
      invariant count == |removed|
    {
      ExpiredStep(slots, items, i, cutoff, failing);
      var id := items[i].trashId;
      if items[i].deletedAt < cutoff && id in kept && id !in failing {
        WithoutOneMore(slots, removed, id);
        kept := kept - {id};
        removed := removed + {id};
        count := count + 1;
      }
      i := i + 1;
    }
  }

  /** The sub-directories of `slots` other than `ids`, unchanged. */
  function Without(slots: map<string, Slot>, ids: set<string>): (r: map<string, Slot>)
    ensures forall id :: id in r <==> id in slots && id !in ids
    ensures forall id :: id in r ==> r[id] == slots[id]
  {
    map id | id in slots && id !in ids :: slots[id]
  }

  /** Removing one more present sub-directory: the set grows by one. */
  lemma WithoutOneMore(slots: map<string, Slot>, ids: set<string>, id: string)
    requires id in Without(slots, ids)
    ensures Without(slots, ids) - {id} == Without(slots, ids + {id})
    ensures id !in ids && |ids + {id}| == |ids| + 1
  {
  }

  /** Dropping sub-directories keeps a trash well-formed. */
  lemma FewerSlotsWellFormed(d: Disk, d': Disk)
    requires forall id :: id in d'.slots ==> id in d.slots && d'.slots[id] == d.slots[id]
    ensures WellFormed(d) ==> WellFormed(d')
  {
  }

  /** In a well-formed trash whose listing names every sub-directory,
      `empty_trash` removes exactly the readable sub-directories deleted before
      the cutoff, except those whose removal fails. */
  lemma ExpiredByAge(d: Disk, listing: seq<string>, cutoff: real, failing: set<string>, id: string)
    requires WellFormed(d)
    requires forall k :: k in d.slots ==> k in listing
    ensures var items := ListTrash(d, listing);
      id in Expired(d.slots, items, |items|, cutoff, failing)
      <==> id in d.slots && d.slots[id].metadata.Some? && d.slots[id].metadata.value.deletedAt < cutoff && id !in failing
  {
    var items := ListTrash(d, listing);
    var removed := Expired(d.slots, items, |items|, cutoff, failing);
    if id in removed {
      var j :| 0 <= j < |items| && Removes(d.slots, items, j, cutoff, failing) && items[j].trashId == id;
      assert items[j] in items;
      var k :| k in listing && k in d.slots && d.slots[k].metadata == Some(items[j]);
      assert SlotWellFormed(k, d.slots[k]);
    }
    if id in d.slots && d.slots[id].metadata.Some? && d.slots[id].metadata.value.deletedAt < cutoff && id !in failing {
      var x := d.slots[id].metadata.value;
      assert x in items;
      var j :| 0 <= j < |items| && items[j] == x;
      assert SlotWellFormed(id, d.slots[id]);
      assert Removes(d.slots, items, j, cutoff, failing);
    }
  }
}

=== FILE: vault_server.dfy ===
/**
 * The vault shard's connection handler (`handle_client` in
 * sharded-vault/src/main.rs): one read per connection, whose text is trimmed
 * and split on Unicode whitespace; the first word picks STORE, GET or STATUS
 * (case-sensitive), and one reply is written back.
 */
module VaultServer {
  import opened Wrappers
  import Text
  import VaultShard

  const Newline: byte := 10

  /** What a connection writes back: a text line (written as its bytes) or
      a stored share followed by a newline. */
  datatype Written = Message(text: string) | Share(bytes: seq<byte>)

  /** The bytes that go on the wire. */
  function Bytes(w: Written): (b: seq<byte>)
    ensures w.Share? ==> |b| == |w.bytes| + 1 && b[..|w.bytes|] == w.bytes && b[|w.bytes|] == Newline
  {
    match w
    case Message(text) => Text.Utf8(text)
    case Share(bytes) => bytes + [Newline]
  }

  /** A command, classified by its words. */
  datatype Request =
    | EmptyRequest
    | Store(key: string, secret: string)
    | Get(key: string)
    | StatusRequest
    | Invalid

  /** The dispatch of `handle_client`: STORE needs exactly two arguments, GET
      exactly one, STATUS ignores extra words; the keywords match only in
      upper case. */
  function Classify(parts: seq<string>): (c: Request)
    ensures c.EmptyRequest? <==> parts == []
    ensures c.Store? <==> |parts| == 3 && parts[0] == "STORE"
    ensures c.Get? <==> |parts| == 2 && parts[0] == "GET"
    ensures c.StatusRequest? <==> parts != [] && parts[0] == "STATUS"
    ensures c.Store? ==> c.key == parts[1] && c.secret == parts[2]
    ensures c.Get? ==> c.key == parts[1]
  {
    if parts == [] then EmptyRequest
    else if parts[0] == "STORE" && |parts| == 3 then Store(parts[1], parts[2])
    else if parts[0] == "GET" && |parts| == 2 then Get(parts[1])
    else if parts[0] == "STATUS" then StatusRequest
    else Invalid
  }

  /** The words of a received text: Rust's `trim` then `split_whitespace`. */
  function Words(received: string): (words: seq<string>)
    ensures Text.AllWords(Text.Rust, words)
  {
    Text.Split(Text.Rust, Text.Strip(Text.Rust, received))
  }

  /** The STATUS report: shard number over shard count, threshold, and number of keys. */
  function StatusText(id: nat, totalShares: nat, threshold: nat, keys: nat): string {
    "Shard: " + Text.NatToString(id) + "/" + Text.NatToString(totalShares)
      + "\nThreshold: " + Text.NatToString(threshold)
      + "\nKeys: " + Text.NatToString(keys) + "\n"
  }

  function Report(shard: VaultShard.Shard): string {
    StatusText(shard.id as nat, shard.totalShares as nat, shard.threshold as nat, |shard.cache|)
  }

  /** What one classified command does to the shard and writes back. Only
      STORE changes the shard. */
  function Dispatch(shard: VaultShard.Shard, c: Request): (r: (VaultShard.Shard, Written))
    ensures !c.Store? ==> r.0 == shard
    ensures c.EmptyRequest? ==> r.1 == Message("ERR: Empty command\n")
    ensures c.Store? ==> r.0 == VaultShard.StoreSecret(shard, c.key, Text.Utf8(c.secret)).0
    ensures c.Store? ==> r.1 == Message("OK: Secret stored\n")
    ensures c.Get? && c.key in shard.cache ==> r.1 == Share(shard.cache[c.key])
    ensures c.Get? && c.key !in shard.cache ==> r.1 == Message("ERR: Key not found\n")
    ensures c.StatusRequest? ==> r.1 == Message(Report(shard))
    ensures c.Invalid? ==> r.1 == Message("ERR: Invalid command\n")
  {
    match c
    case EmptyRequest => (shard, Message("ERR: Empty command\n"))
    case Store(key, secret) =>
      // `store_secret` always succeeds, so its error arm is never taken.
      (VaultShard.StoreSecret(shard, key, Text.Utf8(secret)).0, Message("OK: Secret stored\n"))
    case Get(key) =>
      (match VaultShard.GetShare(shard, key)
       case Ok(share) => (shard, Share(share))
       case Err(e) =>
         NotFoundLine(e);
         (shard, Message("ERR: " + e.message + "\n")))
    case StatusRequest => (shard, Message(Report(shard)))
    case Invalid => (shard, Message("ERR: Invalid command\n"))
  }

  /** The error line for a missing key. */
  lemma NotFoundLine(e: VaultShard.IoError)
    requires e == VaultShard.KeyNotFound
    ensures "ERR: " + e.message + "\n" == "ERR: Key not found\n"
  {
  }

  /** `handle_client`. `received` is the text of the first read (at most 4096
      bytes, decoded with replacement characters); an empty text is a
      zero-byte read, which gets no reply and changes nothing. */
  function HandleClient(shard: VaultShard.Shard, received: string): (r: (VaultShard.Shard, Option<Written>))
    ensures received == [] ==> r == (shard, None)
    ensures received != [] ==> r == (Dispatch(shard, Classify(Words(received))).0, Some(Dispatch(shard, Classify(Words(received))).1))
  {
    if received == [] then (shard, None)
    else
      var (shard', reply) := Dispatch(shard, Classify(Words(received)));
      (shard', Some(reply))
  }

  /** A line of three words has exactly those words. */
  lemma WordsOfThree(a: string, b: string, c: string)
    requires Text.IsWord(Text.Rust, a) && Text.IsWord(Text.Rust, b) && Text.IsWord(Text.Rust, c)
    ensures Words(a + " " + b + " " + c) == [a, b, c]
  {
    var line := a + " " + b + " " + c;
    assert line[0] == a[0];
    assert line[|line| - 1] == c[|c| - 1];
    Text.StripUnchanged(Text.Rust, line);
    Text.SplitThreeWords(Text.Rust, a, b, c);
  }

  /** A line of two words has exactly those words. */
  lemma WordsOfTwo(a: string, b: string)
    requires Text.IsWord(Text.Rust, a) && Text.IsWord(Text.Rust, b)
    ensures Words(a + " " + b) == [a, b]
  {
    var line := a + " " + b;
    assert line[0] == a[0];
    assert line[|line| - 1] == b[|b| - 1];
    Text.StripUnchanged(Text.Rust, line);
    Text.SplitTwoWords(Text.Rust, a, b);
  }

  /** A line of one word has exactly that word. */
  lemma WordsOfOne(a: string)
    requires Text.IsWord(Text.Rust, a)
    ensures Words(a) == [a]
  {
    Text.StripUnchanged(Text.Rust, a);
    Text.SplitOneWord(Text.Rust, a);
  }

  lemma GetWords(key: string)
    requires Text.IsWord(Text.Rust, key)
    ensures Words("GET " + key) == ["GET", key]
  {
    assert Text.IsWord(Text.Rust, "GET");
    assert "GET " + key == "GET" + " " + key;
    WordsOfTwo("GET", key);
  }

  lemma StatusWords()
    ensures Words("STATUS") == ["STATUS"]
  {
    assert Text.IsWord(Text.Rust, "STATUS");
    WordsOfOne("STATUS");
  }

  /** `STORE k s` followed by `GET k` on a later connection answers with the
      bytes of `s` and a newline. */
  lemma StoreThenGet(shard: VaultShard.Shard, key: string, secret: string)
    requires Text.IsWord(Text.Rust, key) && Text.IsWord(Text.Rust, secret)
    ensures var stored := HandleClient(shard, "STORE " + key + " " + secret);
      && stored.1 == Some(Message("OK: Secret stored\n"))
      && HandleClient(stored.0, "GET " + key).1 == Some(Share(Text.Utf8(secret)))
      && Bytes(Share(Text.Utf8(secret))) == Text.Utf8(secret) + [Newline]
  {
    StoreLine(shard, key, secret);
    var after := VaultShard.StoreSecret(shard, key, Text.Utf8(secret)).0;
    GetLine(after, key);
  }

  /** `STORE k s` stores the bytes of `s` under `k`. */
  lemma StoreLine(shard: VaultShard.Shard, key: string, secret: string)
    requires Text.IsWord(Text.Rust, key) && Text.IsWord(Text.Rust, secret)
    ensures HandleClient(shard, "STORE " + key + " " + secret)
         == (VaultShard.StoreSecret(shard, key, Text.Utf8(secret)).0, Some(Message("OK: Secret stored\n")))
  {
    StoreLineWords(key, secret);
    assert Classify(["STORE", key, secret]) == Store(key, secret);
  }

  lemma StoreLineWords(key: string, secret: string)
    requires Text.IsWord(Text.Rust, key) && Text.IsWord(Text.Rust, secret)
    ensures Words("STORE " + key + " " + secret) == ["STORE", key, secret]
  {
    assert "STORE " + key + " " + secret == "STORE" + " " + key + " " + secret;
    assert Text.IsWord(Text.Rust, "STORE");
    WordsOfThree("STORE", key, secret);
  }

  /** `GET k` answers with what is stored under `k`. */
  lemma GetLine(shard: VaultShard.Shard, key: string)
    requires Text.IsWord(Text.Rust, key)
    ensures key in shard.cache ==> HandleClient(shard, "GET " + key) == (shard, Some(Share(shard.cache[key])))
    ensures key !in shard.cache ==> HandleClient(shard, "GET " + key) == (shard, Some(Message("ERR: Key not found\n")))
  {
    var line := "GET " + key;
    GetWords(key);
    assert Classify(Words(line)) == Get(key);
  }

  /** The keywords match only in upper case: a lower-case `store` is an
      invalid command and stores nothing. */
  lemma KeywordsAreCaseSensitive(shard: VaultShard.Shard, key: string, secret: string)
    requires Text.IsWord(Text.Rust, key) && Text.IsWord(Text.Rust, secret)
    ensures HandleClient(shard, "store " + key + " " + secret) == (shard, Some(Message("ERR: Invalid command\n")))
  {
    var line := "store " + key + " " + secret;
    assert line == "store" + " " + key + " " + secret;
    assert Text.IsWord(Text.Rust, "store");
    WordsOfThree("store", key, secret);
    assert Classify(Words(line)) == Invalid;
  }

  /** GET with an extra word is not a lookup: it is an invalid command. */
  lemma GetArityIsExact(shard: VaultShard.Shard, key: string, extra: string)
    requires Text.IsWord(Text.Rust, key) && Text.IsWord(Text.Rust, extra)
    ensures HandleClient(shard, "GET " + key + " " + extra) == (shard, Some(Message("ERR: Invalid command\n")))
  {
    var line := "GET " + key + " " + extra;
    assert line == "GET" + " " + key + " " + extra;
    assert Text.IsWord(Text.Rust, "GET");
    WordsOfThree("GET", key, extra);
    assert Classify(Words(line)) == Invalid;
  }

  /** After storing under a new key, STATUS counts one more key. */
  lemma StatusCountsNewKey(shard: VaultShard.Shard, key: string, secret: string)
    requires Text.IsWord(Text.Rust, key) && Text.IsWord(Text.Rust, secret)
    requires key !in shard.cache
    ensures var stored := HandleClient(shard, "STORE " + key + " " + secret).0;
      HandleClient(stored, "STATUS").1
        == Some(Message(StatusText(shard.id as nat, shard.totalShares as nat, shard.threshold as nat, |shard.cache| + 1)))
  {
    StoreLine(shard, key, secret);
    StatusWords();
    VaultShard.StoreCount(shard, key, Text.Utf8(secret));
  }
}

=== FILE: vault_shard.dfy ===
/**
 * One shard of the sharded vault (sharded-vault/src/shard.rs): an in-memory
 * map from key to secret bytes, tagged with the shard's number, the
 * reconstruction threshold and the number of shards. Secrets are stored
 * whole; nothing is split or written to the storage directory.
 */
module VaultShard {
  import opened Wrappers

  /** Rust's `u8`. */
  type u8 = byte

  /** The kind of an `std::io::Error`; the shard only ever produces NotFound. */
  datatype ErrorKind = NotFound

  /** An `std::io::Error` built from a kind and a message; its display is the message. */
  datatype IoError = IoError(kind: ErrorKind, message: string)

  const KeyNotFound: IoError := IoError(NotFound, "Key not found")

  datatype Shard = Shard(id: u8, threshold: u8, totalShares: u8, cache: map<string, seq<byte>>)

  /** `VaultShard::new`: the three numbers as given and an empty cache. The
      storage path is accepted and ignored, so construction never fails. */
  function New(id: u8, threshold: u8, totalShares: u8, storage: string): (r: Result<Shard, IoError>)
    ensures r.Ok?
    ensures r.value.id == id && r.value.threshold == threshold && r.value.totalShares == totalShares
    ensures r.value.cache == map[]
  {
    Ok(Shard(id, threshold, totalShares, map[]))
  }

  /** `store_secret`: inserts or overwrites one key and always succeeds. */
  function StoreSecret(s: Shard, key: string, secret: seq<byte>): (r: (Shard, Result<(), IoError>))
    ensures r.1.Ok?
    ensures r.0.id == s.id && r.0.threshold == s.threshold && r.0.totalShares == s.totalShares
    ensures r.0.cache.Keys == s.cache.Keys + {key}
    ensures r.0.cache[key] == secret
    ensures forall k :: k in s.cache && k != key ==> r.0.cache[k] == s.cache[k]
  {
    (s.(cache := s.cache[key := secret]), Ok(()))
  }

  /** `get_share`: a copy of the stored bytes, or NotFound "Key not found". */
  function GetShare(s: Shard, key: string): (r: Result<seq<byte>, IoError>)
    ensures r.Ok? <==> key in s.cache
    ensures r.Ok? ==> r.value == s.cache[key]
    ensures r.Err? ==> r.error == KeyNotFound
  {
    if key in s.cache then Ok(s.cache[key]) else Err(KeyNotFound)
  }

  /** Reading a key back after storing it gives exactly the stored bytes. */
  lemma StoreThenGet(s: Shard, key: string, secret: seq<byte>)
    ensures GetShare(StoreSecret(s, key, secret).0, key) == Ok(secret)
  {
  }

  /** Storing under one key does not change what any other key reads. */
  lemma StoreLeavesOtherKeys(s: Shard, key: string, secret: seq<byte>, other: string)
    requires other != key
    ensures GetShare(StoreSecret(s, key, secret).0, other) == GetShare(s, other)
  {
  }

  /** A second store under the same key replaces the first entirely. */
  lemma StoreOverwrites(s: Shard, key: string, first: seq<byte>, second: seq<byte>)
    ensures StoreSecret(StoreSecret(s, key, first).0, key, second).0 == StoreSecret(s, key, second).0
  {
    assert StoreSecret(StoreSecret(s, key, first).0, key, second).0.cache == StoreSecret(s, key, second).0.cache;
  }

  /** The number of keys grows by one exactly when the key is new. */
  lemma StoreCount(s: Shard, key: string, secret: seq<byte>)
    ensures |StoreSecret(s, key, secret).0.cache| == if key in s.cache then |s.cache| else |s.cache| + 1
  {
    var after := StoreSecret(s, key, secret).0.cache;
    if key in s.cache {
      assert after.Keys == s.cache.Keys;
    } else {
      assert after.Keys == s.cache.Keys + {key};
    }
    assert |after| == |after.Keys|;
    assert |s.cache| == |s.cache.Keys|;
  }
}

=== FILE: wrappers.dfy ===
/** Failure-carrying values and bytes, shared by every component of the model. */
module Wrappers {

  /** A value that may be absent (a JSON key that may be missing, Python's None). */
  datatype Option<+T> = None | Some(value: T) {

    /** The value, or `default` when absent: Python's `dict.get(key, default)`. */
    function GetOr(default: T): (r: T)
      ensures Some? ==> r == value
      ensures None? ==> r == default
    {
      match this
      case Some(v) => v
      case None => default
    }
  }

  /** An 8-bit byte, as Python's `bytes` and Rust's `u8` hold it. */
  newtype byte = x: int | 0 <= x < 0x100

  /** The outcome of an operation that either returns a value or raises an error. */
  datatype Result<+T, +E> = Ok(value: T) | Err(error: E)
}
